=== FILE: README.md ===
# GeofencingLib in Dafny

A model of the server side of GeofencingLib. This is a geofencing system built on Bluetooth beacons.

- A **geofence** is identified by a minor. It owns **beacons**, each identified by (uuid, major, minor), and **events**.
- A registered **device** reports the beacons it currently sees. The server works out which beacons were entered and which were left (the presence diff, `SystemBeacons.compare`). It then stores the device's new beacon set and fires the trigger of every event of every geofence concerned, first Enter and then Leave.
- An event's **trigger** has a direction and a delay in seconds. A delay of 0 acts at once. A positive delay schedules a check that re-reads the live device state when it fires.
- There are five kinds of event:
  - ModifyCounter increments, decrements or resets a counter.
  - GeofenceCounter counts devices in a geofence: Enter increments, Leave decrements, never below 0.
  - SendMail mails a confirmed address. It uses a double opt-in workflow: an address is put on hold, a verification mail goes out, and a confirmation arrives before the timeout.
  - AdminNotification sends a push notification to the administrators' topic.
  - DeviceNotification sends a push notification to the device's token.
- The web service maps every outcome to an HTTP status. The client classifies the status back into its error codes, using the status codes of section 15 of RFC 9110.

## Modules

Each module is one file.

| module | file | models |
|---|---|---|
| `Common` | common.dfy | Option/Result and the error kinds. Java's 32-bit `int` wrap-around and truncating division. The max+1 identifier rule used by every `getNext…`. First-match find, delete-one and update-one, as the document store does them. The trailing-slash rule. |
| `Beacons` | beacon.dfy | `SystemBeacon`: identity, hash, ordering. |
| `Presence` | presence.dfy | `SystemBeacons` (a class over a `seq`) and its `compare` loop. `BeaconChange`. Key-level lemmas about the diff. |
| `Devices` | devices.dfy | `Device` and `Devices` (classes). |
| `Events` | events.dfy | `Trigger`, and `Event` as one closed datatype of the five kinds. Constructors, equality, hash. |
| `Counters` | counters.dfy | `Counter` (a class). The counter collection, as a specification on `seq` plus the class `CounterDB` whose methods are proved against it. |
| `Mail` | mail.dfy | `AddressOnHold`. `MailDBConnector` as the class `MailDB` over two tables. The `MailInterface` sequencing and link building. |
| `Store` | store.dfy | `GeofencingDBConnector` as four tables (geofences, beacons, events, devices). Pure finds and update/remove specifications. The class `GeofencingDB`. |
| `Engine` | engine.dfy | `checkTrigger`, `conditionStillFullfilled`, and each kind's `trigger` and `onAddToGeofence`, as functions on a `World` snapshot. The class `Backend` groups the mutable stores; its methods are proved equal to those functions. |
| `Geofences` | geofence.dfy | `Geofence` (a class): next major, beacon and event lists, `trigger`. |
| `System`, `SystemFacade` | system.dfy | `GeofencingSystem`: the specification functions and the class whose methods follow them. |
| `Service` | service.dfy | `GeofencingService`: device authentication, access rules, the outcome-to-status mapping. |
| `Client` | client.dfy | `HttpClient` (status classification, request headers) and `RestClient` (URL normalisation). |

### Conventions

- **Tables are sequences in collection order.**
  - Inserts append and do not check uniqueness.
  - A find returns the first match.
  - A delete removes the first match, and succeeds iff one was removed.
  - An update reports success iff it changed the stored document, like MongoDB's `modifiedCount`. A counter document therefore carries a flag telling whether its value is still the number `insertCounter` stored or already the string `$set` wrote. Resetting a counter that was already set to "0" changes nothing and reports NotFound, as the source does.
- **The clock is a parameter `now`, in milliseconds.** The `java.util.Timer` becomes a list of pending checks. `Fire(k)` fires the `k`-th of them.
- **Sends are abstract.**
  - Sending a mail succeeds or fails according to a predicate `accepts` fixed at construction.
  - Whether a push notification is posted depends only on the configured keys.
  - Address validity (`new InternetAddress`) is a predicate `valid`.
- **Configuration values are `Option`s.** `None` stands for a value that is missing or empty, where `SystemConfiguration.getValue` throws `ConfigurationException`.
- **Exceptions become `Result` errors.** NotFound, AlreadyExisting, Unauthorized, Configuration, InvalidAddress and MailFailure are the library's checked exceptions. `Unchecked` stands for a runtime exception that propagates, such as a NullPointerException or the Timer's IllegalArgumentException.
- **State-changing methods are proved against a function of the old state.** Each `ensures (r, State()) == XSpec(old(State()), …)`. The properties are then lemmas about `XSpec`.

## Model

| member | source | states |
|---|---|---|
| `Beacons.EmptyBeacon` | src/de/geofencing/system/beacon/SystemBeacon.java:25-30 | The serialisation constructor leaves uuid and location null and sets major and minor to -1. |
| `Beacons.Unlocated` | src/de/geofencing/system/beacon/SystemBeacon.java:52-57 | The three-argument constructor stores uuid, major and minor as given, with no location. |
| `Beacons.SetLocation` | src/de/geofencing/system/beacon/SystemBeacon.java:79-81 | `setLocation` changes only the location: the identity and equality are unchanged. |
| `Beacons.EqualsIsIdentity` | src/de/geofencing/system/beacon/SystemBeacon.java:94-112 | Two beacons are equal iff uuid, major and minor are all equal. |
| `Beacons.EqualsIgnoresLocation` | src/de/geofencing/system/beacon/SystemBeacon.java:94-112 | Setting either beacon's location never changes whether they are equal. |
| `Beacons.UuidHash` | src/de/geofencing/system/beacon/SystemBeacon.java:87 | `UUID.hashCode` of the beacon's uuid: a 32-bit value. |
| `Beacons.HashCode` | src/de/geofencing/system/beacon/SystemBeacon.java:84-91 | The hash is a 32-bit `int` value. |
| `Beacons.HashRespectsEquals` | src/de/geofencing/system/beacon/SystemBeacon.java:84-91 | Equal beacons have equal hashes. |
| `Beacons.UuidCompare` | src/de/geofencing/system/beacon/SystemBeacon.java:141 | `UUID.compareTo` on the signed halves is -1, 0 or 1, and 0 iff the uuids are equal. |
| `Beacons.Compare` | src/de/geofencing/system/beacon/SystemBeacon.java:123-142 | A null uuid throws. Otherwise the result is -1, 0 or 1. |
| `Beacons.CompareIsLexicographic` | src/de/geofencing/system/beacon/SystemBeacon.java:123-142 | `compare` is -1 or 1 exactly as (uuid, major, minor) is lexicographically smaller or greater, and 0 exactly when the beacons are equal. |
| `Beacons.CompareAntisymmetric` | src/de/geofencing/system/beacon/SystemBeacon.java:124-141 | Swapping the arguments negates the result. |
| `Beacons.CompareTransitive` | src/de/geofencing/system/beacon/SystemBeacon.java:123-142 | The order is transitive. |
| `Presence.WithoutKeys` | src/de/geofencing/system/beacon/SystemBeacons.java:129-157 | The entered list's beacon identities are exactly the new identities minus the stored ones. |
| `Presence.WithoutEmpty` | src/de/geofencing/system/beacon/SystemBeacons.java:131-162 | Nothing is reported as entered iff every new beacon is already stored. |
| `Presence.SharedIsCommonKeys` | src/de/geofencing/system/beacon/SystemBeacons.java:130-146 | For a duplicate-free new list, the `listSize` shortcut counts exactly the beacons the two lists share. |
| `Presence.LeftExactWithoutDuplicates` | src/de/geofencing/system/beacon/SystemBeacons.java:129-157 | For duplicate-free lists, the left beacons are exactly the stored beacons not in the new list, in stored order. |
| `Presence.NoChangeIffSameBeacons` | src/de/geofencing/system/beacon/SystemBeacons.java:131-162 | For duplicate-free lists, nothing is entered and nothing is left iff both hold the same beacons. |
| `Presence.CompareAgainIsNoChange` | src/de/geofencing/system/beacon/SystemBeacons.java:158-162 | Comparing against a list with the same beacons as the stored ones reports nothing. This makes a second `compare` a no-op. |
| `Presence.DuplicateHidesLeft` | src/de/geofencing/system/beacon/SystemBeacons.java:130-146 | With a duplicate in the new list, the shortcut hides a beacon that was left: [a, a] against stored [a, b] reports b neither entered nor left. |
| `Presence.BeaconChange.constructor` | src/de/geofencing/event/BeaconChange.java:21-24 | A new change has empty entered and left lists. |
| `Presence.BeaconChange.AddEnteredBeacon` | src/de/geofencing/event/BeaconChange.java:38-40 | Appends to the entered list and leaves the left list unchanged. |
| `Presence.BeaconChange.AddLeftBeacon` | src/de/geofencing/event/BeaconChange.java:54-56 | Appends to the left list and leaves the entered list unchanged. |
| `Presence.SystemBeacons.constructor` | src/de/geofencing/system/beacon/SystemBeacons.java:26-28 | A new set is empty. |
| `Presence.SystemBeacons.BeaconCount` | src/de/geofencing/system/beacon/SystemBeacons.java:42-44 | The count is the length of the list. |
| `Presence.SystemBeacons.ContainsBeaconWithMinor` | src/de/geofencing/system/beacon/SystemBeacons.java:51-58 | True iff some beacon in the list has that minor. |
| `Presence.SystemBeacons.GetBeacon` | src/de/geofencing/system/beacon/SystemBeacons.java:67-74 | Returns the first beacon with that major and minor, whatever its uuid. NotFound iff there is none. |
| `Presence.SystemBeacons.AddBeacon` | src/de/geofencing/system/beacon/SystemBeacons.java:89-94 | Appends and returns true iff no equal beacon is present; otherwise false and no change. A duplicate-free list stays duplicate-free. |
| `Presence.SystemBeacons.RemoveBeacon` | src/de/geofencing/system/beacon/SystemBeacons.java:102-107 | Removes the first equal beacon and returns true. NotFound, with the list unchanged, iff there is none. |
| `Presence.SystemBeacons.RemoveAll` | src/de/geofencing/system/beacon/SystemBeacons.java:112-114 | Leaves the list empty. |
| `Presence.SystemBeacons.Compare` | src/de/geofencing/system/beacon/SystemBeacons.java:129-163 | Returns null, and keeps the stored list, iff nothing was entered or left. Otherwise it returns a fresh change with entered = new minus stored (in new order) and left as the loop reports it, and stores the new list. |
| `Devices.Device.constructor` | src/de/geofencing/system/device/Device.java:47-53 | A new device has the given id, address and update time, no token and an empty beacon set. |
| `Devices.Device.WithToken` | src/de/geofencing/system/device/Device.java:61-67 | As above, with the given token. |
| `Devices.Device.FromRecord` | src/de/geofencing/database/GeofencingDBConnector.java:264-272 | The device object `findDevice` returns carries every stored field of the record. |
| `Devices.Device.SetFireBaseToken` | src/de/geofencing/system/device/Device.java:89-91 | Changes only the token. |
| `Devices.Device.SetBeacons` | src/de/geofencing/system/device/Device.java:93-95 | Changes only the beacon set. |
| `Devices.Device.UpdateBeacons` | src/de/geofencing/system/device/Device.java:102-104 | Returns exactly what `compare` returns on the stored set, and updates the stored set the same way. |
| `Devices.Devices.constructor` | src/de/geofencing/system/device/Devices.java:25-27 | A new list is empty. |
| `Devices.Devices.DeviceCount` | src/de/geofencing/system/device/Devices.java:41-43 | The count is the length of the list. |
| `Devices.Devices.GetDevice` | src/de/geofencing/system/device/Devices.java:51-58 | Returns the first device with that id. NotFound iff there is none. |
| `Devices.Devices.GetDeviceByAddress` | src/de/geofencing/system/device/Devices.java:66-73 | Returns the first device with that address. NotFound iff there is none. |
| `Devices.Devices.AddDevice` | src/de/geofencing/system/device/Devices.java:81-87 | Appends and returns true iff no device with the same id AND address is present. Otherwise AlreadyExisting and no change. A device with the same id but another address is accepted. |
| `Events.ImmediateTrigger` | src/de/geofencing/event/Trigger.java:38-41 | The one-argument trigger has delay 0. |
| `Events.TriggerEqualsIsStructural` | src/de/geofencing/event/Trigger.java:69-82 | Two triggers are equal iff direction and delay are equal. |
| `Events.TriggerHash` | src/de/geofencing/event/Trigger.java:60-66 | The hash is a 32-bit `int` value; the enum's identity hash of the direction is a parameter. |
| `Events.TriggerHashRespectsEquals` | src/de/geofencing/event/Trigger.java:60-66 | Equal triggers have equal hashes. |
| `Events.ClassTypeIdentifiesKind` | src/de/geofencing/event/Event.java:98-100 | Two events have the same `classType` iff they are of the same kind. |
| `Events.NewModifyCounterEvent` | src/de/geofencing/event/counter/ModifyCounterEvent.java:44-48 | A new counter-modifying event has eventID -1 and counterID -1, and keeps its minor, trigger and mode. |
| `Events.NewModifyCounterEventFor` | src/de/geofencing/event/counter/ModifyCounterEvent.java:58-62 | As above, bound to the given counterID. |
| `Events.NewGeofenceCounterEvent` | src/de/geofencing/event/counter/GeofenceCounterEvent.java:32-35 | A new geofence counter has eventID -1, counterID -1 and no trigger. |
| `Events.NewSendMailEvent` | src/de/geofencing/event/mail/SendMailEvent.java:42-45 | A new mail event has eventID -1 and keeps its recipient, title and message. |
| `Events.NewAdminNotificationEvent` | src/de/geofencing/event/notification/AdminNotificationEvent.java:35-37 | A new admin notification has eventID -1 and keeps its title and message. |
| `Events.NewDeviceNotificationEvent` | src/de/geofencing/event/notification/DeviceNotificationEvent.java:36-38 | A new device notification has eventID -1 and keeps its title and message. |
| `Events.SetEventID` | src/de/geofencing/event/Event.java:89-91 | Changes only the eventID. |
| `Events.BindCounter` | src/de/geofencing/event/counter/ModifyCounterEvent.java:73-84 | Binding a counter changes only the counterID; the kind and mode stay. |
| `Events.EqualsIgnoresPayload` | src/de/geofencing/event/Event.java:194-217 | Two events are equal iff classType, eventID, minor and trigger are equal. The description and payload are ignored. |
| `Events.EventHash` | src/de/geofencing/event/Event.java:183-191 | The hash is a 32-bit value. |
| `Events.EventHashRespectsEquals` | src/de/geofencing/event/Event.java:183-191 | Equal events have equal hashes. |
| `Counters.Counter.constructor` | src/de/geofencing/event/counter/Counter.java:30-33 | A new counter has the given id and value 0. |
| `Counters.Counter.FromDocument` | src/de/geofencing/event/counter/CounterDBConnector.java:46-55 | The counter `findCounter` returns carries the stored id and value. |
| `Counters.Counter.Increment` | src/de/geofencing/event/counter/Counter.java:47-50 | In unbounded integers: Raises the value by exactly 1 and returns the new value. |
| `Counters.Counter.Decrement` | src/de/geofencing/event/counter/Counter.java:56-61 | Lowers the value by 1 only when it is positive, so it never goes below 0. Returns the new value. |
| `Counters.Counter.Reset` | src/de/geofencing/event/counter/Counter.java:66-68 | Sets the value to 0. |
| `Counters.Find` | src/de/geofencing/event/counter/CounterDBConnector.java:46-55 | Returns the first counter with that id. NotFound iff there is none. |
| `Counters.InsertSpec` | src/de/geofencing/event/counter/CounterDBConnector.java:31-38 | Corrected, in unbounded integers: Appends a counter with value 0 under an id greater than every existing id (so unused, and at least 1), and returns that id. |
| `Counters.IncrementSpec` | src/de/geofencing/event/counter/CounterDBConnector.java:76-88 | In unbounded integers: Stores and returns the old value + 1 in the first counter with that id. NotFound, with no change, iff there is none. |
| `Counters.DecrementSpec` | src/de/geofencing/event/counter/CounterDBConnector.java:96-108 | Stores and returns max(old - 1, 0). An update that modifies no document is NotFound. |
| `Counters.ResetSpec` | src/de/geofencing/event/counter/CounterDBConnector.java:116-127 | Sets the value to 0 and returns true. NotFound when the counter is missing or the write modifies nothing. |
| `Counters.RemoveSpec` | src/de/geofencing/event/counter/CounterDBConnector.java:135-144 | Deletes exactly the first counter with that id and keeps the rest in order. NotFound iff there is none. |
| `Counters.InsertKeepsNonNegative` | src/de/geofencing/event/counter/CounterDBConnector.java:31-38 | Inserting keeps every stored value non-negative. |
| `Counters.IncrementKeepsNonNegative` | src/de/geofencing/event/counter/CounterDBConnector.java:76-88 | Incrementing keeps every stored value non-negative. |
| `Counters.DecrementKeepsNonNegative` | src/de/geofencing/event/counter/CounterDBConnector.java:96-108 | Decrementing keeps every stored value non-negative. |
| `Counters.ResetKeepsNonNegative` | src/de/geofencing/event/counter/CounterDBConnector.java:116-127 | Resetting keeps every stored value non-negative. |
| `Counters.RemoveKeepsNonNegative` | src/de/geofencing/event/counter/CounterDBConnector.java:135-144 | Removing keeps every stored value non-negative. |
| `Counters.DecrementStopsAtZero` | src/de/geofencing/event/counter/CounterDBConnector.java:96-108 | Decrementing 1 gives 0. Decrementing again changes nothing and reports NotFound, because no document is modified. |
| `Counters.CounterDB.GetNextCounterID` | src/de/geofencing/event/counter/CounterDBConnector.java:164-172 | Corrected, in unbounded integers: The loop yields 1 for an empty table, otherwise the largest id + 1, greater than every stored id. |
| `Counters.CounterDB.InsertCounter` | src/de/geofencing/event/counter/CounterDBConnector.java:31-38 | Follows `InsertSpec` on the stored table. |
| `Counters.CounterDB.FindCounter` | src/de/geofencing/event/counter/CounterDBConnector.java:46-55 | Returns a fresh counter with the stored value of the first match. NotFound iff there is none. |
| `Counters.CounterDB.IncrementCounter` | src/de/geofencing/event/counter/CounterDBConnector.java:76-88 | Follows `IncrementSpec` on the stored table. |
| `Counters.CounterDB.DecrementCounter` | src/de/geofencing/event/counter/CounterDBConnector.java:96-108 | Follows `DecrementSpec` on the stored table. |
| `Counters.CounterDB.ResetCounter` | src/de/geofencing/event/counter/CounterDBConnector.java:116-127 | Follows `ResetSpec` on the stored table. |
| `Counters.CounterDB.RemoveCounter` | src/de/geofencing/event/counter/CounterDBConnector.java:135-144 | Follows `RemoveSpec` on the stored table. |
| `Mail.TimeoutMillis` | src/de/geofencing/event/mail/MailDBConnector.java:44 | Corrected: the timeout in milliseconds is exactly 1000 times the configured seconds, without overflow. |
| `Mail.TimeoutMillisAsWritten` | src/de/geofencing/event/mail/MailDBConnector.java:44 | As written: an `int` product, equal to the corrected value only up to 2147483 seconds. |
| `Mail.TimeoutMillisAsWrittenOverflows` | src/de/geofencing/event/mail/MailDBConnector.java:226 | A 30-day timeout (2592000 s) wraps to -1702967296 ms instead of 2592000000. |
| `Mail.ConfirmationMillis` | src/de/geofencing/event/mail/MailDBConnector.java:44 | The confirmation timeout is available iff it is configured; otherwise a configuration error. |
| `Mail.DeleteMillis` | src/de/geofencing/event/mail/MailDBConnector.java:226 | The delete timeout is available iff it is configured; otherwise a configuration error. |
| `Mail.NewAddressOnHold` | src/de/geofencing/event/mail/AddressOnHold.java:32-35 | A pending entry records the address and the request time `now`. |
| `Mail.OnHoldHash` | src/de/geofencing/event/mail/AddressOnHold.java:46-51 | The hash is a 32-bit `int` value. |
| `Mail.OnHoldHashRespectsEquals` | src/de/geofencing/event/mail/AddressOnHold.java:54-68 | Entries with the same address hash alike, even when their timestamps differ. |
| `Mail.PurgeFrom` | src/de/geofencing/event/mail/MailDBConnector.java:223-240 | Part-way through the loop the table is never longer than before. |
| `Mail.PurgeFromOnlyDeletes` | src/de/geofencing/event/mail/MailDBConnector.java:223-240 | Part-way through the loop every remaining entry was in the table. |
| `Mail.PurgeFromUnexpired` | src/de/geofencing/event/mail/MailDBConnector.java:223-240 | A visited part of the snapshot with nothing expired leaves the table unchanged. |
| `Mail.Purge` | src/de/geofencing/event/mail/MailDBConnector.java:223-240 | The purge never grows the table; `PurgeOnlyDeletes` and `PurgeIsFilter` give its contents. |
| `Mail.PurgeOnlyDeletes` | src/de/geofencing/event/mail/MailDBConnector.java:223-240 | The purge only deletes entries, and deletes none when none is expired. |
| `Mail.PurgeIsFilter` | src/de/geofencing/event/mail/MailDBConnector.java:223-240 | For unique addresses, the deleting loop leaves exactly the entries no older than the delete timeout, in order, still unique. |
| `Mail.PurgeAsWrittenDropsFreshEntry` | src/de/geofencing/event/mail/MailDBConnector.java:226 | With the overflowing 30-day timeout, the purge deletes an entry made this instant. The corrected timeout keeps it. |
| `Mail.FindOnHoldSpec` | src/de/geofencing/event/mail/MailDBConnector.java:126-135 | With the corrected delete timeout (`Mail.TimeoutMillis`): Purges first, then returns the pending entry of that address. NotFound means no entry remains for it. Configuration error without a delete timeout. |
| `Mail.AddOnHoldSpec` | src/de/geofencing/event/mail/MailDBConnector.java:39-56 | With the corrected delete timeout (`Mail.TimeoutMillis`): An invalid address is InvalidAddress and a confirmed one is accepted, both with no change. The confirmed table is never touched, and the only errors are InvalidAddress and Configuration. |
| `Mail.ConfirmSpec` | src/de/geofencing/event/mail/MailDBConnector.java:66-79 | With the corrected delete timeout (`Mail.TimeoutMillis`): Confirmed: true, no change. Otherwise it purges, and on success it appends the address to confirmed. On false, confirmed is unchanged. |
| `Mail.UnregisterSpec` | src/de/geofencing/event/mail/MailDBConnector.java:88-91 | Succeeds iff the address is valid and confirmed, removing one entry. Otherwise NotFound or InvalidAddress, with no change. |
| `Mail.UnregisterRemovesOne` | src/de/geofencing/event/mail/MailDBConnector.java:160-168 | Unregistering removes exactly one occurrence of the address from confirmed. |
| `Mail.RemoveOnHoldSpec` | src/de/geofencing/event/mail/MailDBConnector.java:176-185 | Removes one pending entry with that address. NotFound, with no change, iff there is none. |
| `Mail.RemoveOnHoldClears` | src/de/geofencing/event/mail/MailDBConnector.java:176-185 | With unique addresses, no pending entry of that address remains afterwards. |
| `Mail.AddLeavesOnePending` | src/de/geofencing/event/mail/MailDBConnector.java:50-55 | Pending addresses stay unique. A successful add of an unconfirmed address leaves exactly one pending entry for it, stamped now. |
| `Mail.AddRefusesYoungPending` | src/de/geofencing/event/mail/MailDBConnector.java:43-49 | The add returns false iff a surviving pending entry is younger than the confirmation timeout (strict <). |
| `Mail.AddThenConfirm` | src/de/geofencing/event/mail/MailDBConnector.java:69-75 | A confirmation within both timeouts after a successful add returns true and appends the address to confirmed. |
| `Mail.ConfirmKeepsPending` | src/de/geofencing/event/mail/MailDBConnector.java:72-75 | Confirming never deletes an unexpired pending entry. |
| `Mail.MailDB.RemoveExpiredFromOnHold` | src/de/geofencing/event/mail/MailDBConnector.java:223-240 | With the corrected delete timeout (`Mail.TimeoutMillis`): The loop over a snapshot of the pending table leaves the purge of the old table. |
| `Mail.MailDB.FindMailOnHold` | src/de/geofencing/event/mail/MailDBConnector.java:126-135 | With the corrected delete timeout (`Mail.TimeoutMillis`): Follows `FindOnHoldSpec`. |
| `Mail.MailDB.InsertOnHoldMail` | src/de/geofencing/event/mail/MailDBConnector.java:100-105 | Appends an entry stamped now. |
| `Mail.MailDB.InsertConfirmedMail` | src/de/geofencing/event/mail/MailDBConnector.java:111-115 | Appends to confirmed. |
| `Mail.MailDB.RemoveOnHoldMail` | src/de/geofencing/event/mail/MailDBConnector.java:176-185 | Follows `RemoveOnHoldSpec`. |
| `Mail.MailDB.RemoveConfirmedMail` | src/de/geofencing/event/mail/MailDBConnector.java:160-168 | Deletes the first occurrence. NotFound, with no change, iff the address is not confirmed. |
| `Mail.MailDB.AddAddressOnHold` | src/de/geofencing/event/mail/MailDBConnector.java:39-56 | With the corrected delete timeout (`Mail.TimeoutMillis`): Follows `AddOnHoldSpec`. |
| `Mail.MailDB.ConfirmMailaddress` | src/de/geofencing/event/mail/MailDBConnector.java:66-79 | With the corrected delete timeout (`Mail.TimeoutMillis`): Follows `ConfirmSpec`. |
| `Mail.MailDB.UnregisterMailaddress` | src/de/geofencing/event/mail/MailDBConnector.java:88-91 | Follows `UnregisterSpec`. |
| `Mail.MailTransport.Send` | src/de/geofencing/event/mail/MailInterface.java:102-135 | A mail the transport accepts is logged and gives true. Otherwise MailFailure and nothing is logged. |
| `Mail.ServiceURLAsWritten` | src/de/geofencing/event/mail/MailInterface.java:207-213 | As written: defined iff a non-empty URL is configured. |
| `Mail.ServiceURLAsWrittenMisplacesSlash` | src/de/geofencing/event/mail/MailInterface.java:207-213 | As written: a URL ending in "/" gets a second one ("//"), and one without stays without. |
| `Mail.ServiceURL` | src/de/geofencing/event/mail/MailInterface.java:207-213 | Corrected: the configured URL, ending in "/", with one appended only when it is missing. |
| `Mail.VerificationLink` | src/de/geofencing/event/mail/MailInterface.java:188-190 | Defined iff the service URL is. |
| `Mail.UnsubscribeLink` | src/de/geofencing/event/mail/MailInterface.java:198-200 | Defined iff the service URL is. |
| `Mail.LinksJoinWithOneSlash` | src/de/geofencing/event/mail/MailInterface.java:188-200 | The links are url + "verification/" + recipient and url + "unsubscribe/" + recipient, joined by exactly one "/". |
| `Mail.TimeoutMinutes` | src/de/geofencing/event/mail/MailInterface.java:172-177 | The minutes stated in the text are the seconds divided by 60, truncated toward zero (rounded down for non-negative seconds, up for negative ones). |
| `Mail.SendVerificationSpec` | src/de/geofencing/event/mail/MailInterface.java:147-160 | At most one mail is sent, and only after a successful add. True iff the add succeeded and the mail was accepted. False iff the add returned false. |
| `Mail.FailedVerificationRollsBack` | src/de/geofencing/event/mail/MailInterface.java:152-156 | When the send fails, no pending entry of the recipient remains. |
| `Mail.VerificationText` | src/de/geofencing/event/mail/MailInterface.java:173-176 | The text opens with the greeting naming the recipient, carries the verification link right after it and ends with the unsubscribe link. |
| `Mail.SendDefaultVerificationSpec` | src/de/geofencing/event/mail/MailInterface.java:170-180 | With the corrected service URL (`Mail.ServiceURL`) and timeouts: Without a confirmation timeout or service URL: a configuration error, with no change and no mail. A mail that is sent goes to the recipient with the verification subject. |
| `Mail.SendToConfirmedSpec` | src/de/geofencing/event/mail/MailInterface.java:88-92 | Sends exactly the given mail, true iff the transport accepts it; otherwise MailFailure. |
| `Mail.SendToConfirmedIgnoresConfirmation` | src/de/geofencing/event/mail/MailInterface.java:90 | The outcome is the same whether or not the recipient is confirmed. |
| `Mail.SendToConfirmedRecipient` | src/de/geofencing/event/mail/MailInterface.java:88-92 | Follows `SendToConfirmedSpec`. |
| `Mail.SendVerificationMail` | src/de/geofencing/event/mail/MailInterface.java:147-160 | Follows `SendVerificationSpec` on the tables and the transport log. |
| `Mail.SendDefaultVerificationMail` | src/de/geofencing/event/mail/MailInterface.java:170-180 | With the corrected service URL (`Mail.ServiceURL`) and timeouts: Follows `SendDefaultVerificationSpec`. |
| `Store.Collected` | src/de/geofencing/system/beacon/SystemBeacons.java:89-94 | Adding beacon by beacon, skipping one already held, gives a duplicate-free set no longer than the input. |
| `Store.CollectedKeys` | src/de/geofencing/system/beacon/SystemBeacons.java:89-94 | The set holds every beacon identity of the input, and no other. |
| `Store.CollectedNoDup` | src/de/geofencing/system/beacon/SystemBeacons.java:89-94 | A list without duplicates is collected unchanged. |
| `Store.GeofenceBeacons` | src/de/geofencing/database/GeofencingDBConnector.java:135-144 | Never NotFound, even for a missing geofence. The result is duplicate-free. |
| `Store.GeofenceEvents` | src/de/geofencing/database/GeofencingDBConnector.java:152-161 | Never NotFound. Only events of that minor are returned. |
| `Store.FindGeofence` | src/de/geofencing/database/GeofencingDBConnector.java:97-113 | NotFound iff no geofence has that minor. Otherwise the first record, with the geofence's beacons and events. |
| `Store.FindBeacon` | src/de/geofencing/database/GeofencingDBConnector.java:204-214 | The first beacon with that (minor, major). NotFound iff there is none. |
| `Store.FindGeofenceEvent` | src/de/geofencing/database/GeofencingDBConnector.java:170-180 | The first event with that (minor, eventID). NotFound iff there is none. |
| `Store.FindDevice` | src/de/geofencing/database/GeofencingDBConnector.java:264-272 | The first device with that id. NotFound iff there is none. |
| `Store.FindDeviceByAddress` | src/de/geofencing/database/GeofencingDBConnector.java:280-288 | The first device with that address. NotFound iff there is none. |
| `Store.IsDeviceInGeofence` | src/de/geofencing/database/GeofencingDBConnector.java:314-317 | NotFound iff the device is missing. Otherwise true iff one of its stored beacons has that minor. |
| `Store.DeviceList` | src/de/geofencing/database/GeofencingDBConnector.java:294-305 | No two listed devices are equal (same id and address). |
| `Store.DeviceListKeepsEveryDevice` | src/de/geofencing/database/GeofencingDBConnector.java:294-305 | A device is in the list iff an equal device is stored. Duplicates are dropped silently. |
| `Store.UpdateDeviceBeaconsSpec` | src/de/geofencing/database/GeofencingDBConnector.java:338-356 | NotFound, with no change, iff the device is missing. Only the device table changes. |
| `Store.UpdateDeviceTokenSpec` | src/de/geofencing/database/GeofencingDBConnector.java:365-376 | NotFound iff the device is missing. Otherwise true iff the token differs from the stored one. |
| `Store.RemoveDeviceSpec` | src/de/geofencing/database/GeofencingDBConnector.java:386-394 | True iff the device exists, removing one record. Otherwise NotFound and no change. Other tables are unchanged. |
| `Store.RemoveGeofenceSpec` | src/de/geofencing/database/GeofencingDBConnector.java:402-410 | The same rule for geofences. |
| `Store.RemoveEventSpec` | src/de/geofencing/database/GeofencingDBConnector.java:419-427 | The same rule for events. |
| `Store.RemoveBeaconSpec` | src/de/geofencing/database/GeofencingDBConnector.java:436-444 | The same rule for beacons. |
| `Store.InsertDeviceThenFind` | src/de/geofencing/database/GeofencingDBConnector.java:38-42 | After an unchecked insert, `findDevice` still returns an older device with the same id, and the new one otherwise. |
| `Store.RemoveDeviceRemovesOne` | src/de/geofencing/database/GeofencingDBConnector.java:386-394 | The remaining devices are the old ones minus exactly the found record. |
| `Store.RemoveGeofenceRemovesOne` | src/de/geofencing/database/GeofencingDBConnector.java:402-410 | The remaining geofences are the old ones minus exactly the found record. |
| `Store.RemoveEventRemovesOne` | src/de/geofencing/database/GeofencingDBConnector.java:419-427 | The remaining events are the old ones minus exactly the found event. |
| `Store.RemoveBeaconRemovesOne` | src/de/geofencing/database/GeofencingDBConnector.java:436-444 | The remaining beacons are the old ones minus exactly the found beacon. |
| `Store.UpdateDeviceBeaconsStores` | src/de/geofencing/database/GeofencingDBConnector.java:338-356 | After a true update, the device's record has the new beacons and update time, and is otherwise unchanged. |
| `Store.UpdateDeviceBeaconsSetsBeacons` | src/de/geofencing/database/GeofencingDBConnector.java:338-356 | Whatever it reports, an update of an existing device stores the new beacon set. |
| `Store.UpdateDeviceSameBeacons` | src/de/geofencing/database/GeofencingDBConnector.java:338-356 | Writing the stored set again reports false and changes nothing: the beacon write modifies nothing, so the time write is skipped. |
| `Store.FoundGeofenceHoldsItsBeacons` | src/de/geofencing/database/GeofencingDBConnector.java:97-113 | A found geofence holds exactly the identities of the stored beacons with its minor. |
| `Store.GeofencingDB.InsertDevice` | src/de/geofencing/database/GeofencingDBConnector.java:38-42 | Appends the device and nothing else changes. |
| `Store.GeofencingDB.InsertGeofence` | src/de/geofencing/database/GeofencingDBConnector.java:48-52 | Appends the geofence and nothing else changes. |
| `Store.GeofencingDB.InsertBeacon` | src/de/geofencing/database/GeofencingDBConnector.java:58-62 | Appends the beacon and nothing else changes. |
| `Store.GeofencingDB.InsertEvent` | src/de/geofencing/database/GeofencingDBConnector.java:68-72 | Appends the event and nothing else changes. |
| `Store.GeofencingDB.UpdateDeviceBeacons` | src/de/geofencing/database/GeofencingDBConnector.java:338-356 | Follows `UpdateDeviceBeaconsSpec`. |
| `Store.GeofencingDB.UpdateDeviceToken` | src/de/geofencing/database/GeofencingDBConnector.java:365-376 | Follows `UpdateDeviceTokenSpec`. |
| `Store.GeofencingDB.RemoveDevice` | src/de/geofencing/database/GeofencingDBConnector.java:386-394 | Follows `RemoveDeviceSpec`. |
| `Store.GeofencingDB.RemoveGeofence` | src/de/geofencing/database/GeofencingDBConnector.java:402-410 | Follows `RemoveGeofenceSpec`. |
| `Store.GeofencingDB.RemoveEvent` | src/de/geofencing/database/GeofencingDBConnector.java:419-427 | Follows `RemoveEventSpec`. |
| `Store.GeofencingDB.RemoveBeacon` | src/de/geofencing/database/GeofencingDBConnector.java:436-444 | Follows `RemoveBeaconSpec`. |
| `Engine.TokenDestination` | src/de/geofencing/event/notification/DeviceNotificationEvent.java:55-61 | A null token selects the administrators' topic; any other token is the destination. |
| `Engine.Posted` | src/de/geofencing/event/notification/FirebaseServerClient.java:98-135 | A push is posted only with a server URL and the key of its destination: the admin key for the admin topic, the device key otherwise. |
| `Engine.PushIfPosted` | src/de/geofencing/event/notification/FirebaseServerClient.java:98-135 | A push is recorded iff the server URL and the destination's key are configured. |
| `Engine.DelayMillis` | src/de/geofencing/event/Event.java:129 | Corrected: the timer delay is exactly 1000 times the trigger's seconds, negative iff they are. |
| `Engine.DelayMillisAsWritten` | src/de/geofencing/event/Event.java:129 | As written: an `int` product, equal to the corrected value only for |delay| up to 2147483. |
| `Engine.DelayMillisAsWrittenWraps` | src/de/geofencing/event/Event.java:129 | 2147484 s wraps to a negative delay, which the timer refuses. 4294968 s wraps to 704 ms. |
| `Engine.ModifySpec` | src/de/geofencing/event/counter/ModifyCounterEvent.java:87-100 | NotFound, with no change, when the counter is missing; a success is true, and the table keeps its length. |
| `Engine.ActSpec` | src/de/geofencing/event/counter/ModifyCounterEvent.java:87-100 | Each kind's `trigger` touches only its own part of the world: counters, the mail log or the push log. It never changes the tables, and only a NotFound can fail. |
| `Engine.ConditionSpec` | src/de/geofencing/event/Event.java:140-149 | NotFound iff the device is gone. Otherwise true iff (Enter and the device is in the geofence) or (Leave and it is not). |
| `Engine.CheckTriggerSpec` | src/de/geofencing/event/Event.java:107-132 | With the corrected delay (`Engine.DelayMillis`): A geofence counter always acts. Otherwise: a missing trigger fails; another direction is ignored with no change; delay 0 acts at once; a positive delay only schedules one check `1000 * delay` ms later; a negative delay fails with no change. Acting has exactly the effect of the event's action. |
| `Engine.FireSpec` | src/de/geofencing/event/Event.java:121-124 | The fired check leaves the pending list. It acts only if its condition holds on the live state, and never changes the tables. |
| `Engine.OnAddSpec` | src/de/geofencing/event/Event.java:165-167 | Each kind's `onAddToGeofence` keeps the event's id, minor and trigger. The notifications accept iff their key is configured, with no change. A geofence counter always accepts. |
| `Engine.TriggerAllSpec` | src/de/geofencing/system/geofence/Geofence.java:191-195 | Checking every event in order succeeds with true, or fails only by an unchecked exception. It never changes the tables. |
| `Engine.OtherDirectionIgnored` | src/de/geofencing/event/Event.java:107-108 | A trigger waiting for the other direction does nothing. |
| `Engine.DelayedTriggerOnlySchedules` | src/de/geofencing/event/Event.java:115-130 | A positive delay changes nothing at call time except appending exactly one check, due `1000 * delay` ms later. |
| `Engine.GeofenceCounterCounts` | src/de/geofencing/event/counter/GeofenceCounterEvent.java:54-63 | Enter increments the bound counter, and Leave decrements it but not below 0. |
| `Engine.ModifyCounterActs` | src/de/geofencing/event/counter/ModifyCounterEvent.java:87-100 | The bound counter is incremented, decremented (not below 0) or reset, according to the mode. |
| `Engine.FireSkipsStaleCheck` | src/de/geofencing/event/Event.java:121-124 | A check whose condition no longer holds, or whose device is gone, is only removed. |
| `Engine.FireActsOnLiveCondition` | src/de/geofencing/event/Event.java:121-124 | A check whose condition holds performs the event's action once. |
| `Engine.TriggerAllOtherDirection` | src/de/geofencing/system/geofence/Geofence.java:191-195 | When every event waits for the other direction, the geofence trigger changes nothing. |
| `Engine.TriggerAllStopsAtFailure` | src/de/geofencing/system/geofence/Geofence.java:191-195 | An unchecked failure stops the loop: the later events are not checked. |
| `Engine.OnAddAllocatesFreshCounter` | src/de/geofencing/event/counter/ModifyCounterEvent.java:73-84 | A geofence counter, or a counter event with id -1, is accepted and bound to a new counter id (at least 1) that did not exist before and exists after. |
| `Engine.OnAddChecksPresetCounter` | src/de/geofencing/event/counter/ModifyCounterEvent.java:76-82 | A preset counter id allocates nothing and is accepted iff that counter exists. |
| `Engine.PushGateway.Send` | src/de/geofencing/event/notification/FirebaseServerClient.java:98-135 | Records the push iff it would be posted. |
| `Engine.Scheduler.Schedule` | src/de/geofencing/event/Event.java:115-130 | Appends one pending check. |
| `Engine.Scheduler.Take` | src/de/geofencing/event/Event.java:121-124 | Returns the `k`-th pending check and removes it. |
| `Engine.Modify` | src/de/geofencing/event/counter/ModifyCounterEvent.java:87-100 | Follows `ModifySpec` on the counter table. |
| `Engine.Act` | src/de/geofencing/event/mail/SendMailEvent.java:62-71 | Follows `ActSpec` on all stores. |
| `Engine.CheckTrigger` | src/de/geofencing/event/Event.java:107-132 | With the corrected delay (`Engine.DelayMillis`): Follows `CheckTriggerSpec` on all stores. |
| `Engine.Fire` | src/de/geofencing/event/Event.java:121-124 | Follows `FireSpec` on all stores. |
| `Engine.BindNewCounter` | src/de/geofencing/event/counter/GeofenceCounterEvent.java:37-41 | Inserts a counter and binds the event to its id. |
| `Engine.OnAddToGeofence` | src/de/geofencing/event/notification/AdminNotificationEvent.java:40-52 | Follows `OnAddSpec` on all stores. |
| `Geofences.Geofence.constructor` | src/de/geofencing/system/geofence/Geofence.java:46-52 | A new geofence has the given minor and description, no beacons and no events. |
| `Geofences.Geofence.FromData` | src/de/geofencing/database/GeofencingDBConnector.java:97-113 | The geofence `findGeofence` assembles holds the record's fields and the collected beacons and events. |
| `Geofences.Geofence.SetDescription` | src/de/geofencing/system/geofence/Geofence.java:70-72 | Changes only the description. |
| `Geofences.Geofence.Listing` | src/de/geofencing/system/geofence/Geofence.java:66-68 | The listing holds the minor and the description. |
| `Geofences.Geofence.NextMajor` | src/de/geofencing/system/geofence/Geofence.java:83-91 | Corrected, in unbounded integers: 1 without beacons; otherwise the largest major + 1, greater than every major. |
| `Geofences.Geofence.GenerateBeacon` | src/de/geofencing/system/geofence/Geofence.java:99-101 | Corrected, in unbounded integers: Returns (uuid, next major, own minor) without location and does not add it. Its major is used by no beacon of the geofence. |
| `Geofences.Geofence.GetBeacon` | src/de/geofencing/system/geofence/Geofence.java:122-124 | Looks up the major under the geofence's own minor. NotFound iff there is no such beacon. |
| `Geofences.Geofence.AddBeacon` | src/de/geofencing/system/geofence/Geofence.java:132-134 | As `SystemBeacons.addBeacon`: false, with no change, on a duplicate. |
| `Geofences.Geofence.GetEvent` | src/de/geofencing/system/geofence/Geofence.java:146-153 | The first event with that id. NotFound iff there is none. |
| `Geofences.Geofence.GetEventList` | src/de/geofencing/system/geofence/Geofence.java:168-174 | One listing per event, in list order. |
| `Geofences.Geofence.AddEvent` | src/de/geofencing/system/geofence/Geofence.java:181-183 | Appends the event and returns true. |
| `Geofences.Geofence.Trigger` | src/de/geofencing/system/geofence/Geofence.java:191-195 | The loop over the event list follows `TriggerAllSpec` on all stores. |
| `Geofences.Geofence.HashCode` | src/de/geofencing/system/geofence/Geofence.java:198-203 | A 32-bit value that is 31 + minor without overflow. |
| `Geofences.GeofenceHashRespectsEquals` | src/de/geofencing/system/geofence/Geofence.java:206-217 | Geofences with equal minors hash alike. |
| `Geofences.GeneratedBeaconIsNew` | src/de/geofencing/system/geofence/Geofence.java:99-101 | Corrected, in unbounded integers: A beacon whose major no held beacon uses is not yet contained, so `addBeacon` accepts it. |
| `System.NextMinor` | src/de/geofencing/system/GeofencingSystem.java:93-102 | Corrected, in unbounded integers: At least 1 and greater than every minor, so no geofence has it. |
| `System.NextEventID` | src/de/geofencing/system/GeofencingSystem.java:152-160 | Corrected, in unbounded integers: At least 1. |
| `System.NextEventIDIsFresh` | src/de/geofencing/system/GeofencingSystem.java:152-160 | Corrected, in unbounded integers: No event of that geofence has the next event id. |
| `System.AddGeofenceSpec` | src/de/geofencing/system/GeofencingSystem.java:109-113 | Appends a geofence under a new, unused minor and returns it. |
| `System.AddGeofenceThenFind` | src/de/geofencing/system/GeofencingSystem.java:109-113 | The new geofence is then found with its description. |
| `System.RemoveGeofenceSystemSpec` | src/de/geofencing/system/GeofencingSystem.java:121-130 | NotFound iff the geofence is missing. Any result other than true leaves the store unchanged. |
| `System.RemoveGeofenceOnlyWhenEmpty` | src/de/geofencing/system/GeofencingSystem.java:121-130 | An existing geofence is removed (true) iff no beacon and no event has its minor. |
| `System.AddEventSpec` | src/de/geofencing/system/GeofencingSystem.java:168-175 | When the add hook refuses, no event is inserted. Otherwise exactly one event is appended. Other tables never change. |
| `System.AddedEventIsFound` | src/de/geofencing/system/GeofencingSystem.java:168-175 | The inserted event carries the next event id, which was unused before and is found after. |
| `System.RemoveEventFromGeofenceSpec` | src/de/geofencing/system/GeofencingSystem.java:184-187 | True iff the geofence and the event exist, removing one event. Otherwise NotFound and no change. |
| `System.FilterBeaconsSpec` | src/de/geofencing/system/GeofencingSystem.java:216-226 | The filtered set is duplicate-free. |
| `System.GetBeaconDataSpec` | src/de/geofencing/system/GeofencingSystem.java:198-209 | The set with data is duplicate-free; `GetBeaconDataKeepsStored`, `GetBeaconDataKeepsUnknown` and `GetBeaconDataMembers` give its members. |
| `System.FilterBeaconsKeepsStored` | src/de/geofencing/system/GeofencingSystem.java:216-226 | Every filtered beacon is a stored copy. Every given beacon registered under its (minor, major) contributes its stored copy, whatever its uuid. |
| `System.GetBeaconDataKeepsUnknown` | src/de/geofencing/system/GeofencingSystem.java:198-209 | An unregistered beacon is kept as given. |
| `System.GetBeaconDataKeepsStored` | src/de/geofencing/system/GeofencingSystem.java:202-203 | A registered beacon contributes its stored copy. |
| `System.GetBeaconDataMembers` | src/de/geofencing/system/GeofencingSystem.java:198-209 | Every beacon of the result is a stored beacon or one of the input. |
| `System.FilterBeaconsReadsBeacons` | src/de/geofencing/system/GeofencingSystem.java:216-226 | The filter depends on the beacon table alone. |
| `System.LookupBeacon` | src/de/geofencing/system/GeofencingSystem.java:234-239 | A null uuid throws. A foreign uuid gives null. Otherwise the stored beacon, or NotFound iff there is none. |
| `System.GenerateBeaconSpec` | src/de/geofencing/system/GeofencingSystem.java:247-249 | Defined iff the geofence exists: a beacon of the system uuid and that minor, without location. |
| `System.GeneratedBeaconIsNew` | src/de/geofencing/system/GeofencingSystem.java:247-249 | Corrected, in unbounded integers: Its major is at least 1 and not yet stored under that minor. |
| `System.AddBeaconSpec` | src/de/geofencing/system/GeofencingSystem.java:258-274 | Null uuid: throws. Foreign uuid: false. Missing geofence: NotFound. Existing (minor, major): AlreadyExisting. Otherwise it appends and returns true. Nothing changes unless true. |
| `System.StoredBeacon` | src/de/geofencing/system/GeofencingSystem.java:267-269 | The stored copy keeps the identity. An empty location becomes "-not set-", and any other location is kept. |
| `System.AddBeaconThenFind` | src/de/geofencing/system/GeofencingSystem.java:258-274 | After an add the beacon is found, and adding it again is AlreadyExisting. |
| `System.AddDeviceSpec` | src/de/geofencing/system/GeofencingSystem.java:325-337 | An address in use is AlreadyExisting, with no change. Otherwise it appends a device with no token and no beacons. |
| `System.AddDeviceThenFind` | src/de/geofencing/system/GeofencingSystem.java:325-337 | The registered device is found by id and by address, and registering the address again is AlreadyExisting. |
| `System.FanOutSpec` | src/de/geofencing/system/GeofencingSystem.java:362-375 | Triggering per changed beacon succeeds with true or fails only unchecked. It never changes the tables. |
| `System.UpdateDeviceBeaconsSystemSpec` | src/de/geofencing/system/GeofencingSystem.java:356-378 | NotFound, with no change, for a missing device. Success is always true. Geofences, beacons and events are never changed. |
| `System.PropagateSpec` | src/de/geofencing/system/GeofencingSystem.java:362-377 | The tables afterwards are exactly the ones with the filtered set stored for the device. Success is true, and the only failure is unchecked. |
| `System.UpdateAgainIsNoChange` | src/de/geofencing/system/GeofencingSystem.java:356-378 | Reporting the same beacons again persists nothing and fires nothing. |
| `System.SameGeofenceTriggeredTwice` | src/de/geofencing/system/GeofencingSystem.java:362-375 | Two changed beacons of one geofence trigger its events twice: once per beacon, not once per geofence. |
| `SystemFacade.GeofencingSystem.GetNextMinor` | src/de/geofencing/system/GeofencingSystem.java:93-102 | The loop yields `NextMinor`. |
| `SystemFacade.GeofencingSystem.AddGeofence` | src/de/geofencing/system/GeofencingSystem.java:109-113 | Follows `AddGeofenceSpec`. |
| `SystemFacade.GeofencingSystem.RemoveGeofence` | src/de/geofencing/system/GeofencingSystem.java:121-130 | Follows `RemoveGeofenceSystemSpec`. |
| `SystemFacade.GeofencingSystem.GetNextEventID` | src/de/geofencing/system/GeofencingSystem.java:152-160 | The loop yields `NextEventID`. |
| `SystemFacade.GeofencingSystem.AddEventToGeofence` | src/de/geofencing/system/GeofencingSystem.java:168-175 | Follows `AddEventSpec` on all stores. |
| `SystemFacade.GeofencingSystem.RemoveEventFromGeofence` | src/de/geofencing/system/GeofencingSystem.java:184-187 | Follows `RemoveEventFromGeofenceSpec`. |
| `SystemFacade.GeofencingSystem.FilterBeacons` | src/de/geofencing/system/GeofencingSystem.java:216-226 | The loop builds a fresh set equal to `FilterBeaconsSpec`. |
| `SystemFacade.GeofencingSystem.GetBeaconData` | src/de/geofencing/system/GeofencingSystem.java:198-209 | The loop builds a fresh set equal to `GetBeaconDataSpec`. |
| `SystemFacade.GeofencingSystem.GetBeacon` | src/de/geofencing/system/GeofencingSystem.java:234-239 | Follows `LookupBeacon`. |
| `SystemFacade.GeofencingSystem.GenerateBeacon` | src/de/geofencing/system/GeofencingSystem.java:247-249 | Follows `GenerateBeaconSpec`. |
| `SystemFacade.GeofencingSystem.AddBeacon` | src/de/geofencing/system/GeofencingSystem.java:258-274 | Follows `AddBeaconSpec`. |
| `SystemFacade.GeofencingSystem.GetDevice` | src/de/geofencing/system/GeofencingSystem.java:297-299 | A fresh device carrying the stored record. NotFound iff it is missing. |
| `SystemFacade.GeofencingSystem.GetDeviceByAddress` | src/de/geofencing/system/GeofencingSystem.java:307-309 | A fresh device carrying the record of that address. NotFound iff there is none. |
| `SystemFacade.GeofencingSystem.AddDevice` | src/de/geofencing/system/GeofencingSystem.java:325-337 | Follows `AddDeviceSpec` under an id in [0, 2^31-1) that no device uses. |
| `SystemFacade.GeofencingSystem.RemoveDevice` | src/de/geofencing/system/GeofencingSystem.java:345-347 | Follows `RemoveDeviceSpec`. |
| `SystemFacade.GeofencingSystem.UpdateDeviceToken` | src/de/geofencing/system/GeofencingSystem.java:387-389 | Follows `UpdateDeviceTokenSpec`. |
| `SystemFacade.GeofencingSystem.FanOut` | src/de/geofencing/system/GeofencingSystem.java:362-375 | The loop follows `FanOutSpec`, skipping beacons whose geofence is missing. |
| `SystemFacade.GeofencingSystem.UpdateDeviceBeacons` | src/de/geofencing/system/GeofencingSystem.java:356-378 | Follows `UpdateDeviceBeaconsSystemSpec`: filter, diff, persist, then Enter and Leave. |
| `SystemFacade.GeofencingSystem.Propagate` | src/de/geofencing/system/GeofencingSystem.java:362-377 | Follows `PropagateSpec`. |
| `Service.CheckAdminPassword` | src/de/geofencing/system/SystemConfiguration.java:146-156 | A missing password is a configuration error and a mismatch is Unauthorized; the configured password is accepted. |
| `Service.AuthenticateDevice` | src/de/geofencing/service/GeofencingService.java:502-509 | Accepts iff a header is present, a device has that address, and its id is the claimed one; otherwise Unauthorized. |
| `Service.AuthenticateDeviceIff` | src/de/geofencing/service/GeofencingService.java:502-509 | With distinct addresses, a device authenticates with its own address exactly for its own id. |
| `Service.AddDeviceKeepsAddressesDistinct` | src/de/geofencing/system/GeofencingSystem.java:325-337 | Registration keeps device addresses distinct. |
| `Service.Authorize` | src/de/geofencing/service/GeofencingService.java:76-80 | Each access rule accepts exactly the admin password, the device's own authentication, or either. |
| `Service.OwnDeviceOrAdminIff` | src/de/geofencing/service/GeofencingService.java:390-394 | `getDevice` and `removeDevice` accept device authentication, or failing that the admin password. |
| `Service.AnyDeviceOrAdminIff` | src/de/geofencing/service/GeofencingService.java:206-222 | `getBeaconData` accepts any registered device's address or the admin password. |
| `Service.OwnDeviceRefusesPassword` | src/de/geofencing/service/GeofencingService.java:362-380 | `updateDevice` and `updateDeviceToken` refuse the admin password. |
| `Service.Respond` | src/de/geofencing/service/GeofencingService.java:84-91 | 200 iff the call succeeded. Unauthorized gives 401 and NotFound gives 404 where caught; AlreadyExisting gives 409 for registration; anything else gives 500. |
| `Service.ConfirmedOnly` | src/de/geofencing/service/GeofencingService.java:338-352 | A call that returned false is a server error. |
| `Service.Serve` | src/de/geofencing/service/GeofencingService.java:55-66 | An authorised request maps the call's outcome. A refused one answers 401, or 500 when the password is not configured. |
| `Service.AdminEndpointNeedsPassword` | src/de/geofencing/service/GeofencingService.java:230-242 | An admin endpoint succeeds only with the configured password. |
| `Service.CheckPasswordResponse` | src/de/geofencing/service/GeofencingService.java:481-492 | A wrong password gives 200 with false, not 401. A missing configuration gives 500. |
| `Service.ServiceStateResponse` | src/de/geofencing/service/GeofencingService.java:46-48 | The state check always answers 200 with true. |
| `Service.GetDeviceResponse` | src/de/geofencing/service/GeofencingService.java:74-92 | An authorised request for a stored device gives 200 with it, and a missing one 404. |
| `Service.RegisterDeviceResponse` | src/de/geofencing/service/GeofencingService.java:249-259 | Registration gives 200 with the new id, or 409 for an address in use. |
| `Service.RegisteredDeviceAuthenticates` | src/de/geofencing/service/GeofencingService.java:249-259 | A freshly registered device then authenticates with its address. |
| `Service.RemoveDeviceResponse` | src/de/geofencing/service/GeofencingService.java:388-406 | An authorised removal gives 200 and removes the device; a refused one leaves the store unchanged. |
| `Service.UpdateDeviceTokenResponse` | src/de/geofencing/service/GeofencingService.java:362-380 | An unauthenticated request is 401 with no change. Otherwise the store's token update is applied, and the answer is 200 iff it returned true. |
| `Service.SameTokenIsServerError` | src/de/geofencing/service/GeofencingService.java:362-380 | Sending the stored token again gives 500, because the update modifies nothing. |
| `Service.UpdateDeviceResponse` | src/de/geofencing/service/GeofencingService.java:335-353 | An unauthenticated request is 401 with no change; otherwise the outcome of `updateDeviceBeacons`. |
| `Service.AuthenticatedUpdateNotNotFound` | src/de/geofencing/service/GeofencingService.java:335-353 | An authenticated update answers 200 or 500, never 404. |
| `Client.EvaluateHttpStatus` | src/de/geofencing/client/httpClient/HttpClient.java:290-314 | Only 200 passes. 401, 404, 409 and 500 get their own codes. A timeout means the host is unreachable, and a refused connection that the service is not running. Anything else is undefined. |
| `Client.ClientReadsServiceOutcome` | src/de/geofencing/client/httpClient/HttpClient.java:290-314 | The client's classification of the service's status recovers the outcome that produced it. |
| `Client.RequestHeaders` | src/de/geofencing/client/httpClient/HttpClient.java:74-76 | The user agent comes first, and a second header exactly when an authorization is set. |
| `Client.AuthorizationHeaderIff` | src/de/geofencing/client/httpClient/HttpClient.java:74-76 | The Authorization header is sent iff an authorization is set, and then carries that value. |
| `Client.HttpClient.constructor` | src/de/geofencing/client/httpClient/HttpClient.java:48-50 | A new client has no authorization, no connection and checks certificates. |
| `Client.HttpClient.AllowAllCertificates` | src/de/geofencing/client/httpClient/HttpClient.java:55-57 | Switches certificate checking off and nothing else. |
| `Client.HttpClient.SetAuthorization` | src/de/geofencing/client/httpClient/HttpClient.java:89-91 | Sets only the authorization. |
| `Client.HttpClient.Target` | src/de/geofencing/client/httpClient/HttpClient.java:65-82 | An opened connection gets the URL, the certificate policy, the 2500 ms timeout and the request headers. A failure to open is an undefined error that keeps the old connection. |
| `Client.RestClient.constructor` | src/de/geofencing/client/restClient/RestClient.java:26-29 | The stored URL is the given one ending in "/", with one appended only when it is missing. |
| `Client.RestClient.SetRestServiceURL` | src/de/geofencing/client/restClient/RestClient.java:50-56 | A non-empty URL is stored ending in "/": unchanged if it already ends so, otherwise with one "/" appended. "" throws and keeps the old URL. |
| `Client.RestClient.SetAuthorization` | src/de/geofencing/client/restClient/RestClient.java:42-44 | Passes the authorization on to the HTTP client. The certificate policy, the connection and the service URL stay as they were. |
| `Client.RestClient.AllowAllCertificates` | src/de/geofencing/client/restClient/RestClient.java:34-36 | Passes the certificate policy on to the HTTP client. The authorization, the connection and the service URL stay as they were. |
| `Common.NextId` | src/de/geofencing/system/geofence/Geofence.java:83-91 | Corrected, in unbounded integers: The max+1 rule: at least 1, greater than every id, and either 1 or one past an existing id. |
| `Common.NextIdAsWritten` | src/de/geofencing/system/geofence/Geofence.java:83-91 | As written, in `int` arithmetic: a 32-bit value, equal to `NextId` while every id is below INT_MAX. |
| `Common.NextIdAsWrittenReusesId` | src/de/geofencing/system/geofence/Geofence.java:83-91 | With INT_MIN and INT_MAX in use, the scan as written yields INT_MIN, which is in use; `NextId` yields an unused value. |
| `Common.StringHash` | src/de/geofencing/event/Event.java:186 | `String.hashCode` of the class type: a 32-bit value, 0 for "", the character code for a one-character string. |
| `Common.FirstIndex` | src/de/geofencing/database/GeofencingDBConnector.java:204-214 | `find(…).first()`: the least index whose document matches; None iff no document matches. |
| `Common.DeleteOne` | src/de/geofencing/database/GeofencingDBConnector.java:386-394 | `deleteOne`: true iff a document matches; then exactly the first match is removed, otherwise nothing changes. |
| `Common.UpdateOne` | src/de/geofencing/database/GeofencingDBConnector.java:365-376 | `updateOne`: only the first match is replaced by its update; modified iff the update changes it; no match, no change. |
| `Common.NextIdIsLeastFresh` | src/de/geofencing/event/counter/CounterDBConnector.java:164-172 | No id in use, and no larger than any bound above every id. |
| `Common.WithTrailingSlash` | src/de/geofencing/client/restClient/RestClient.java:50-56 | Ends in "/", extends the input by at most one character, and leaves an input that already ends in "/" unchanged. |
| `Common.WithTrailingSlashIdempotent` | src/de/geofencing/client/restClient/RestClient.java:50-56 | Normalising twice is normalising once. |

## Left out

- MongoDB connections, BSON/JSON document conversion (`DocumentConverter`, Gson, `FirebaseServerClient.builtBody`) and `Event.jsonToEvent`'s reflection are not modelled. Collections are sequences, and the event class type is a closed datatype.
- The SMTP transport (`MailInterface.send`'s JavaMail session) and the push server's HTTP answer are not modelled. Each send is an abstract call that succeeds or fails, and the push answer is only logged in the source.
- `SystemConfiguration` (file loading, template generation, UUID creation) is not part of this model. The password, push keys, URLs and timeouts are `Option` parameters. The side effect of template generation in the notification `onAddToGeofence` checks is not modelled.
- The Android client, BLE scanning, the handlers, `NetworkTask`, `RestAdminClient`, `RestDeviceClient`, `RestCounterClient` and the JAX-RS service extensions are not part of this model.
- `HttpClient` `get`/`post`/`put`/`delete`/`sendData`/`receiveData` and `UnsafeConnection` are left out. Only `target`'s headers and the status classification are modelled. Reading the body of a 500 answer is assumed to succeed.
- Threads and races: the `java.util.Timer` becomes the `Scheduler` pending list, and the model is sequential.
- Real time: `System.currentTimeMillis` is the `now` parameter, and `Fire` picks which pending check fires.
- Randomness: `addDevice`'s random id is a choice of an unused id.
- `SystemFacade.GeofencingSystem.AddDevice`: requires fewer than 2^31-1 stored devices, because the source's random loop never ends when every id is used.
- `Client.RestClient.constructor`: requires a non-empty URL, because `charAt(length - 1)` throws on "" in the source's constructor.
- `System.StoredBeacon`: treats `getLocation() == ""` as value equality. In Java this reference comparison holds only for an interned empty string, so the source may store "" instead of "-not set-".
- `System.UpdateDeviceBeaconsSystemSpec`: the source returns true on every normal path. The contract states that success is true and that a missing device is NotFound. It does not state the new device record, which `PropagateSpec` and the store lemmas give.
- `System.FilterBeaconsSpec` and `System.GetBeaconDataSpec` state only that their results are duplicate-free. Membership is stated by `FilterBeaconsKeepsStored`, `GetBeaconDataKeepsStored`, `GetBeaconDataKeepsUnknown` and `GetBeaconDataMembers`.
- `Events.EventHash`, `Beacons.HashCode`, `Beacons.UuidHash`, `Common.StringHash`, `Events.TriggerHash` and `Mail.OnHoldHash` state only the 32-bit range of the value. What they promise (equal objects hash alike) is in the `…RespectsEquals` lemmas. `Enum.hashCode` of the direction is a parameter, because it is an identity hash in Java.
- `Device.hashCode` and `Counter.hashCode`/`equals` are not modelled beyond the `Equals` predicates of `Devices.Device` and `Counters.Counter`, which compare what the source compares.
- `Geofence.equals` is the predicate `Geofences.Geofence.Equals`; only the hash lemma is stated about it.
- `isGeofenceExisting`, `isBeaconExisiting`, `isDeviceExisting`, `mailAddressInUse` and `isMailAddressConfirmed` are the predicates `GeofenceExists`, `BeaconExists`, `DeviceExists`, `AddressInUse` and membership in `confirmed`. They have no contracts of their own.
- The one-line delegations of `GeofencingSystem` are the store operations themselves: `getGeofence`, `getGeofenceList`, `getEventList`, `removeBeacon`, `getDevices` and `checkPassword`.
- The service endpoints that only wrap one of those delegations in the status mapping are covered by `Service.Serve` and `Service.Respond`, not by a function each: `getDevices`, `getGeofenceList`, `getEventList`, `getEvent`, `getBeacons`, `getBeacon`, `getBeaconData`, `addGeofence`, `generateBeacon`, `addBeacon`, `addEvent`, `removeGeofence`, `removeBeacon` and `removeEvent`.
- `Integer.parseInt` of a malformed configured number (NumberFormatException) is not modelled: configured timeouts are integers or absent.
- Serialisation constructors (`Geofence()`, `Counter()`, `Device()`, `AddressOnHold()`) are not modelled, apart from the beacon's `EmptyBeacon`.
- Logging (`LogEntry`, `Debugger`) is left out: it has no effect on state.
- `Mail.MailTransport.Send`, `Mail.SendVerificationSpec`, `Mail.SendDefaultVerificationSpec`, `Mail.SendToConfirmedSpec`, `Mail.SendToConfirmedRecipient`, `Mail.SendVerificationMail` and `Mail.SendDefaultVerificationMail` keep the mail settings fixed. In the source, a send that fails because a mail key is missing or the configuration file does not exist (MailInterface.java:126-130) calls `generateMailConfig` (lines 62-75). That call overwrites `serviceURL`, `confirmationTimeout`, `deleteTimeout` and the seven SMTP keys with "", so every later read of them is a configuration error. The model does not capture this reset. After such a failure it lets the next verification add a pending entry and try to send again, where the source fails with a configuration error.
- `Presence.SystemBeacons.Compare`: on a change the source stores `updated`'s own list object (SystemBeacons.java:158-160), so afterwards the two sets share one list. The model copies the sequence value, so it does not capture that aliasing. Nothing in the library mutates `updated` afterwards.
- `Common.NextId`, `Geofences.Geofence.NextMajor`, `Geofences.Geofence.GenerateBeacon`, `Geofences.GeneratedBeaconIsNew`, `System.NextMinor`, `System.NextEventID`, `System.NextEventIDIsFresh`, `System.GeneratedBeaconIsNew`, `SystemFacade.GeofencingSystem.GetNextMinor`, `SystemFacade.GeofencingSystem.GetNextEventID`, `Counters.CounterDB.GetNextCounterID`, `Counters.InsertSpec` and `Counters.CounterDB.InsertCounter` use the max+1 rule in unbounded integers. The source's `id + 1` is an `int` and wraps to INT_MIN after INT_MAX, so their freshness holds in the source only while every id is below INT_MAX. `Common.NextIdAsWritten` models the wrap, and the Findings row shows an id it reuses.
- `Counters.Counter.Increment`, `Counters.IncrementSpec` and `Counters.CounterDB.IncrementCounter` add 1 in unbounded integers. The source's `getValue() + 1` (CounterDBConnector.java:77) wraps at INT_MAX, which the model does not capture.
- `Mail.AddOnHoldSpec`, `Mail.ConfirmSpec`, `Mail.FindOnHoldSpec`, `Mail.MailDB.AddAddressOnHold`, `Mail.MailDB.ConfirmMailaddress`, `Mail.AddRefusesYoungPending` and `Mail.AddLeavesOnePending` assume that `new InternetAddress(recipient).toString()`, the string the source stores, equals the recipient it later looks up. This holds for a plain address such as "b@x.de". For "Bob <b@x.de>" the source stores a parsed form, its lookups by the raw string miss the entry, and these properties do not hold.
- `Engine.CheckTriggerSpec` and `Engine.CheckTrigger` schedule with the corrected `Engine.DelayMillis`, not the wrapping `int` product of the source. `Mail.FindOnHoldSpec`, `Mail.AddOnHoldSpec`, `Mail.ConfirmSpec`, `Mail.MailDB.FindMailOnHold`, `Mail.MailDB.AddAddressOnHold`, `Mail.MailDB.ConfirmMailaddress` and `Mail.MailDB.RemoveExpiredFromOnHold` purge with the corrected `Mail.TimeoutMillis`. `Mail.SendDefaultVerificationSpec` and `Mail.SendDefaultVerificationMail` build links with the corrected `Mail.ServiceURL`. The as-written behaviour is captured only by the members of the Findings rows.

## Findings

| source | as written | input that shows it | evidently intended | confidence | as-written member | corrected member |
|---|---|---|---|---|---|---|
| src/de/geofencing/event/mail/MailInterface.java:207-213 | `getServiceURL` appends "/" when the URL already ends in "/", and returns it unchanged otherwise | serviceURL "http://h/" gives "http://h//", and "http://h" gives "http://h", so the links become "http://hverification/…" | append "/" only when it is missing | not executed | `Mail.ServiceURLAsWritten`, `Mail.ServiceURLAsWrittenMisplacesSlash` | `Mail.ServiceURL`, `Mail.LinksJoinWithOneSlash` |
| src/de/geofencing/event/mail/MailDBConnector.java:226 | `Integer.parseInt(…) * 1000` is an `int` product, widened to `long` only after it has overflowed (also lines 44 and 71) | deleteTimeout 2592000 (30 days) gives -1702967296 ms, so the purge deletes every pending entry, even one made this instant | the timeout in milliseconds as a `long` | not executed | `Mail.TimeoutMillisAsWritten`, `Mail.PurgeAsWrittenDropsFreshEntry` | `Mail.TimeoutMillis`, `Mail.PurgeIsFilter` |
| src/de/geofencing/event/Event.java:129 | `trigger.getDelay() * 1000` is an `int` product | delay 2147484 gives a negative timer delay (IllegalArgumentException), and 4294968 gives 704 ms | the delay in milliseconds as a `long` | not executed | `Engine.DelayMillisAsWritten`, `Engine.DelayMillisAsWrittenWraps` | `Engine.DelayMillis`, `Engine.DelayedTriggerOnlySchedules` |
| src/de/geofencing/system/geofence/Geofence.java:83-91 | `nextMajor = beacon.getMajor() + 1` is an `int` sum (the same scan is at GeofencingSystem.java:93-102 and 152-160 and CounterDBConnector.java:164-172) | majors INT_MIN and INT_MAX, which `addBeacon` accepts, give next major INT_MIN, already in use | an id that no stored entity uses | not executed | `Common.NextIdAsWritten`, `Common.NextIdAsWrittenReusesId` | `Common.NextId`, `Common.NextIdIsLeastFresh` |

=== FILE: beacon.dfy ===
// A beacon of the system: uuid/major/minor identify it, the location text
// only describes it (SystemBeacon).

module Beacons {
  import opened Common

  /** A Java `long`. */
  type Long = x: int | -0x8000_0000_0000_0000 <= x < 0x8000_0000_0000_0000

  /** java.util.UUID: two signed 64-bit halves. */
  datatype Uuid = Uuid(msb: Long, lsb: Long)

  /** A beacon. `uuid` is None only for the bean built by the serialisation
      constructor; `location` is None when no description is set. */
  datatype Beacon = Beacon(uuid: Option<Uuid>, major: int, minor: int, location: Option<string>)

  /** The identity of a beacon: the fields `equals` compares. */
  datatype BeaconKey = BeaconKey(uuid: Option<Uuid>, major: int, minor: int)

  function Key(b: Beacon): BeaconKey { BeaconKey(b.uuid, b.major, b.minor) }

  /** The serialisation constructor: no uuid, major and minor -1. */
  function EmptyBeacon(): (b: Beacon)
    ensures b.uuid.None? && b.location.None?
    ensures b.major == -1 && b.minor == -1
  {
    Beacon(None, -1, -1, None)
  }

  /** The three-argument constructor. */
  function Unlocated(uuid: Uuid, major: int, minor: int): (b: Beacon)
    ensures b.location.None?
    ensures Key(b) == BeaconKey(Some(uuid), major, minor)
  {
    Beacon(Some(uuid), major, minor, None)
  }

  /** `setLocation`: only the description changes, never the identity. */
  function SetLocation(b: Beacon, location: Option<string>): (r: Beacon)
    ensures r.location == location
    ensures Equals(r, b) && Key(r) == Key(b)
  {
    b.(location := location)
  }

  /** `equals`: a null uuid equals only a null uuid, then major and minor. */
  predicate Equals(a: Beacon, b: Beacon)
  {
    if a.uuid.None? && b.uuid.Some? then false
    else if a.uuid.Some? && a.uuid != b.uuid then false
    else if a.major != b.major then false
    else a.minor == b.minor
  }

  /** Two beacons are equal iff uuid, major and minor agree; the location
      plays no part. */
  lemma EqualsIsIdentity(a: Beacon, b: Beacon)
    ensures Equals(a, b) <==> Key(a) == Key(b)
    ensures Equals(a, b) <==> a.uuid == b.uuid && a.major == b.major && a.minor == b.minor
  {
  }

  lemma EqualsIgnoresLocation(a: Beacon, la: Option<string>, b: Beacon, lb: Option<string>)
    ensures Equals(SetLocation(a, la), SetLocation(b, lb)) == Equals(a, b)
  {
  }

  // ---------------------------------------------------------------------
  // hashCode

  function ToBits64(x: Long): bv64
  {
    (if x < 0 then x + 0x1_0000_0000_0000_0000 else x) as bv64
  }

  function Signed32(x: int): (r: int)
    requires 0 <= x < TWO_32
    ensures IsInt32(r)
    ensures r == Wrap32(x)
  {
    if x > INT_MAX then x - TWO_32 else x
  }

  /** UUID.hashCode: the two 32-bit halves of `msb ^ lsb` xor-ed. The low 32
      bits of `(hilo >> 32) ^ hilo` are exactly `(int)(hilo >> 32) ^ (int)hilo`. */
  function UuidHash(u: Uuid): (h: int)
    ensures IsInt32(h)
  {
    var hilo := ToBits64(u.msb) ^ ToBits64(u.lsb);
    Signed32((((hilo >> 32) ^ hilo) as int) % TWO_32)
  }

  /** `hashCode`: 31-based combination of uuid, major and minor in int
      arithmetic. */
  function HashCode(b: Beacon): (h: int)
    ensures IsInt32(h)
  {
    var uh := if b.uuid.None? then 0 else UuidHash(b.uuid.value);
    var r1 := Wrap32(31 * 1 + uh);
    var r2 := Wrap32(31 * r1 + b.major);
    Wrap32(31 * r2 + b.minor)
  }

  /** Equal beacons hash equally: the hash reads only the identity. */
  lemma HashRespectsEquals(a: Beacon, b: Beacon)
    requires Equals(a, b)
    ensures HashCode(a) == HashCode(b)
  {
  }

  // ---------------------------------------------------------------------
  // compare (the Comparator)

  /** UUID.compareTo: signed comparison of the high halves, then the low. */
  function UuidCompare(u: Uuid, v: Uuid): (c: int)
    ensures c == 0 <==> u == v
    ensures -1 <= c <= 1
  {
    if u.msb < v.msb then -1
    else if u.msb > v.msb then 1
    else if u.lsb < v.lsb then -1
    else if u.lsb > v.lsb then 1
    else 0
  }

  /** `compare(o1, o2)`. Dereferencing a null uuid throws, so a beacon without
      uuid on either side yields an unchecked failure. */
  function Compare(o1: Beacon, o2: Beacon): (r: Result<int>)
    ensures r.Ok? <==> o1.uuid.Some? && o2.uuid.Some?
    ensures r.Err? ==> r.error == Unchecked
    ensures r.Ok? ==> -1 <= r.value <= 1
  {
    match (o1.uuid, o2.uuid)
      case (None, _) => Err(Unchecked)
      case (Some(_), None) => Err(Unchecked)
      case (Some(u1), Some(u2)) =>
        if u1 == u2 then
          if o1.major == o2.major then
            if o1.minor == o2.minor then Ok(0)
            else if o1.minor < o2.minor then Ok(-1)
            else Ok(1)
          else if o1.major < o2.major then Ok(-1)
          else Ok(1)
        else Ok(UuidCompare(u1, u2))
  }

  /** The ordering key of a beacon with a uuid. */
  function Rank(b: Beacon): (r: seq<int>)
    requires b.uuid.Some?
    ensures |r| == 4
  {
    [b.uuid.value.msb, b.uuid.value.lsb, b.major, b.minor]
  }

  /** Strict lexicographic order on equally long integer sequences, the
      reference the comparator is checked against. */
  predicate LexLess(x: seq<int>, y: seq<int>)
    requires |x| == |y|
  {
    |x| > 0 && (x[0] < y[0] || (x[0] == y[0] && LexLess(x[1..], y[1..])))
  }

  lemma {:induction false} LexLessTrichotomy(x: seq<int>, y: seq<int>)
    requires |x| == |y|
    ensures x == y || LexLess(x, y) || LexLess(y, x)
    ensures !(LexLess(x, y) && LexLess(y, x))
    ensures LexLess(x, y) ==> x != y
  {
    if |x| > 0 {
      LexLessTrichotomy(x[1..], y[1..]);
      if x[0] == y[0] && x[1..] == y[1..] {
        assert x == [x[0]] + x[1..] && y == [y[0]] + y[1..];
      }
    }
  }

  lemma {:induction false} LexLessTransitive(x: seq<int>, y: seq<int>, z: seq<int>)
    requires |x| == |y| == |z|
    requires LexLess(x, y) && LexLess(y, z)
    ensures LexLess(x, z)
  {
    if x[0] == y[0] && y[0] == z[0] {
      LexLessTransitive(x[1..], y[1..], z[1..]);
    }
  }

  lemma LexLess4(x: seq<int>, y: seq<int>)
    requires |x| == |y| == 4
    ensures LexLess(x, y) <==>
      x[0] < y[0] || (x[0] == y[0] && (x[1] < y[1] || (x[1] == y[1] &&
      (x[2] < y[2] || (x[2] == y[2] && x[3] < y[3])))))
  {
    var x1, y1 := x[1..], y[1..];
    var x2, y2 := x1[1..], y1[1..];
    var x3, y3 := x2[1..], y2[1..];
    assert !LexLess(x3[1..], y3[1..]);
    assert LexLess(x3, y3) <==> x[3] < y[3];
    assert LexLess(x2, y2) <==> x[2] < y[2] || (x[2] == y[2] && x[3] < y[3]);
    assert LexLess(x1, y1) <==> x[1] < y[1] || (x[1] == y[1] && LexLess(x2, y2));
  }

  /** `compare` is the lexicographic order of (uuid, major, minor): it is -1,
      0 or 1 exactly when the first beacon's key is smaller, equal or larger. */
  lemma CompareIsLexicographic(a: Beacon, b: Beacon)
    requires a.uuid.Some? && b.uuid.Some?
    ensures Compare(a, b) == Ok(-1) <==> LexLess(Rank(a), Rank(b))
    ensures Compare(a, b) == Ok(1) <==> LexLess(Rank(b), Rank(a))
    ensures Compare(a, b) == Ok(0) <==> Equals(a, b)
  {
    LexLess4(Rank(a), Rank(b));
    LexLess4(Rank(b), Rank(a));
  }

  /** The sign of `compare` flips when the arguments are swapped. */
  lemma CompareAntisymmetric(a: Beacon, b: Beacon)
    requires a.uuid.Some? && b.uuid.Some?
    ensures Compare(a, b).Ok? && Compare(b, a).Ok?
    ensures Compare(b, a).value == -Compare(a, b).value
  {
    CompareIsLexicographic(a, b);
    CompareIsLexicographic(b, a);
    LexLessTrichotomy(Rank(a), Rank(b));
  }

  lemma CompareTransitive(a: Beacon, b: Beacon, c: Beacon)
    requires a.uuid.Some? && b.uuid.Some? && c.uuid.Some?
    requires Compare(a, b) == Ok(-1) && Compare(b, c) == Ok(-1)
    ensures Compare(a, c) == Ok(-1)
  {
    CompareIsLexicographic(a, b);
    CompareIsLexicographic(b, c);
    CompareIsLexicographic(a, c);
    LexLessTransitive(Rank(a), Rank(b), Rank(c));
  }
}

=== FILE: client.dfy ===
// The client side of the web service: HttpClient opens a connection with
// its request headers and classifies the response status (section 15 of
// RFC 9110) into the error codes of HttpClientException; RestClient keeps
// the service URL ending in "/".

module Client {
  import opened Common
  import Service

  /** `HttpClientException.ErrorCode`. */
  datatype ErrorCode =
    | ObjectNotFound
    | ObjectAlreadyExisting
    | SerializationError
    | InternalServerError
    | Unauthorized
    | HostNotReachable
    | ServiceNotRunning
    | DataOutputStreamError
    | DataInputStreamError
    | ProtocolError
    | UndefinedError

  /** What asking the connection for its response code yields: a code, or
      one of the IOExceptions the client tells apart. */
  datatype Reply = Status(code: int) | SocketTimeout | ConnectRefused | OtherIOFailure

  /** Whether a call returns normally or throws an HttpClientException. */
  datatype Verdict = Accepted | Rejected(code: ErrorCode)

  /** `evaluateHttpStatus`: only 200 passes; 401, 404, 409 and 500 have
      their own codes, a timeout means the host is unreachable and a
      refused connection that the service is not running. */
  function EvaluateHttpStatus(reply: Reply): (v: Verdict)
    ensures v.Accepted? <==> reply == Status(200)
    ensures v == Rejected(ErrorCode.Unauthorized) <==> reply == Status(401)
    ensures v == Rejected(ObjectNotFound) <==> reply == Status(404)
    ensures v == Rejected(ObjectAlreadyExisting) <==> reply == Status(409)
    ensures v == Rejected(InternalServerError) <==> reply == Status(500)
    ensures v == Rejected(HostNotReachable) <==> reply.SocketTimeout?
    ensures v == Rejected(ServiceNotRunning) <==> reply.ConnectRefused?
    ensures v == Rejected(UndefinedError) <==>
      reply.OtherIOFailure? || (reply.Status? && reply.code !in {200, 401, 404, 409, 500})
  {
    match reply
      case SocketTimeout => Rejected(HostNotReachable)
      case ConnectRefused => Rejected(ServiceNotRunning)
      case OtherIOFailure => Rejected(UndefinedError)
      case Status(code) =>
        if code == 500 then Rejected(InternalServerError)
        else if code == 200 then Accepted
        else if code == 401 then Rejected(ErrorCode.Unauthorized)
        else if code == 404 then Rejected(ObjectNotFound)
        else if code == 409 then Rejected(ObjectAlreadyExisting)
        else Rejected(UndefinedError)
  }

  /** The client reads back what the service meant: every status the
      service answers with is classified by the outcome that produced it. */
  lemma ClientReadsServiceOutcome<T>(e: Service.Endpoint, r: Result<T>)
    ensures var v := EvaluateHttpStatus(Status(Service.Respond(e, r).status));
      && (v.Accepted? <==> r.Ok?)
      && (v == Rejected(ErrorCode.Unauthorized) <==> r == Err(Error.Unauthorized) && !e.RegisterDevice?)
      && (v == Rejected(ObjectNotFound) <==> r == Err(NotFound) && Service.CatchesNotFound(e))
      && (v == Rejected(ObjectAlreadyExisting) <==> r == Err(AlreadyExisting) && e.RegisterDevice?)
      && (v.Rejected? ==> v.code in {ErrorCode.Unauthorized, ObjectNotFound, ObjectAlreadyExisting, InternalServerError})
  {
    var s := Service.Respond(e, r).status;
    assert s in {Service.OK, Service.UNAUTHORIZED, Service.NOT_FOUND, Service.CONFLICT, Service.INTERNAL_SERVER_ERROR};
  }

  // ---------------------------------------------------------------------
  // HttpClient

  const AUTHORIZATION_HEADER: string := "Authorization"
  const USER_AGENT_HEADER: string := "User-Agent"
  const USER_AGENT: string := "GeofencingClient"
  const CONNECTION_TIMEOUT: int := 2500

  datatype Header = Header(name: string, value: string)

  /** A connection as `target` prepares it. */
  datatype Connection = Connection(
    url: string,
    acceptsAllCertificates: bool,
    connectTimeout: int,
    headers: seq<Header>,
    doInput: bool)

  /** The request headers `target` sets: the user agent, and the
      authorization only when one is set. */
  function RequestHeaders(authorization: Option<string>): (hs: seq<Header>)
    ensures |hs| == if authorization.Some? then 2 else 1
    ensures hs[0] == Header(USER_AGENT_HEADER, USER_AGENT)
  {
    [Header(USER_AGENT_HEADER, USER_AGENT)]
      + if authorization.Some? then [Header(AUTHORIZATION_HEADER, authorization.value)] else []
  }

  /** The Authorization header is sent iff an authorization is set, and then
      it carries exactly that value. */
  lemma AuthorizationHeaderIff(authorization: Option<string>)
    ensures (exists i :: 0 <= i < |RequestHeaders(authorization)| && RequestHeaders(authorization)[i].name == AUTHORIZATION_HEADER)
      <==> authorization.Some?
    ensures forall i :: 0 <= i < |RequestHeaders(authorization)| && RequestHeaders(authorization)[i].name == AUTHORIZATION_HEADER
                        ==> RequestHeaders(authorization)[i].value == authorization.value
  {
    var hs := RequestHeaders(authorization);
    assert USER_AGENT_HEADER != AUTHORIZATION_HEADER by {
      assert |USER_AGENT_HEADER| != |AUTHORIZATION_HEADER|;
    }
    if authorization.Some? {
      assert hs[1].name == AUTHORIZATION_HEADER;
    }
  }

  class HttpClient {
    var authorization: Option<string>
    var allowAllCertificates: bool
    var conn: Option<Connection>

    constructor ()
      ensures authorization.None? && !allowAllCertificates && conn.None?
    {
      authorization := None;
      allowAllCertificates := false;
      conn := None;
    }

    method AllowAllCertificates()
      modifies this
      ensures allowAllCertificates
      ensures authorization == old(authorization) && conn == old(conn)
    {
      allowAllCertificates := true;
    }

    /** `setAuthorization`; None stands for Java's null. */
    method SetAuthorization(authorization: Option<string>)
      modifies this
      ensures this.authorization == authorization
      ensures allowAllCertificates == old(allowAllCertificates) && conn == old(conn)
    {
      this.authorization := authorization;
    }

    /** `target(url)`. `opens` says whether the URL parses and the
        connection opens; otherwise the IOException becomes UndefinedError
        and the previous connection stays. */
    method Target(url: string, opens: bool) returns (v: Verdict)
      modifies this
      ensures !opens ==> v == Rejected(UndefinedError) && conn == old(conn)
      ensures opens ==> v.Accepted?
      ensures opens ==> conn == Some(Connection(url, allowAllCertificates, CONNECTION_TIMEOUT, RequestHeaders(authorization), true))
      ensures authorization == old(authorization) && allowAllCertificates == old(allowAllCertificates)
    {
      if !opens {
        return Rejected(UndefinedError);
      }
      var headers := [Header(USER_AGENT_HEADER, USER_AGENT)];
      if authorization.Some? {
        headers := headers + [Header(AUTHORIZATION_HEADER, authorization.value)];
      }
      assert headers == RequestHeaders(authorization);
      conn := Some(Connection(url, allowAllCertificates, CONNECTION_TIMEOUT, headers, true));
      v := Accepted;
    }
  }

  // ---------------------------------------------------------------------
  // RestClient

  class RestClient {
    const client: HttpClient
    var restServiceURL: string

    /** The constructor normalises its URL; `charAt` on "" throws there,
        so callers must pass a non-empty URL. */
    constructor (restServiceURL: string)
      requires |restServiceURL| > 0
      ensures this.restServiceURL == WithTrailingSlash(restServiceURL)
      ensures fresh(client) && client.authorization.None? && !client.allowAllCertificates
    {
      client := new HttpClient();
      this.restServiceURL := WithTrailingSlash(restServiceURL);
    }

    /** `setRestServiceURL`: "" makes `charAt(-1)` throw and leaves the URL
        as it was. */
    method SetRestServiceURL(url: string) returns (r: Result<bool>)
      modifies this
      ensures url == "" ==> r == Err(Unchecked) && restServiceURL == old(restServiceURL)
      ensures url != "" ==> r == Ok(true) && restServiceURL == WithTrailingSlash(url)
    {
      if |url| == 0 {
        return Err(Unchecked);
      }
      if url[|url| - 1] != '/' {
        restServiceURL := url + "/";
      } else {
        restServiceURL := url;
      }
      r := Ok(true);
    }

    method SetAuthorization(authorization: Option<string>)
      modifies client
      ensures client.authorization == authorization
      ensures client.allowAllCertificates == old(client.allowAllCertificates) && client.conn == old(client.conn)
      ensures restServiceURL == old(restServiceURL)
    {
      client.SetAuthorization(authorization);
    }

    method AllowAllCertificates()
      modifies client
      ensures client.allowAllCertificates && client.authorization == old(client.authorization)
      ensures client.conn == old(client.conn)
      ensures restServiceURL == old(restServiceURL)
    {
      client.AllowAllCertificates();
    }
  }
}

=== FILE: common.dfy ===
// Shared vocabulary of the model: optional values, the checked exceptions of
// the library as an error datatype, Java's 32-bit int arithmetic, the
// "largest id plus one" allocation rule and the semantics of a document
// collection (insertion order, first match, delete-one).

module Common {

  datatype Option<T> = None | Some(value: T)

  /** The exceptions the library throws, as values. `Unchecked` stands for a
      Java runtime exception (IllegalArgumentException, NullPointerException,
      StringIndexOutOfBoundsException) that no caller in the core catches. */
  datatype Error =
    | NotFound
    | AlreadyExisting
    | Unauthorized
    | Configuration
    | InvalidAddress
    | MailFailure
    | Unchecked

  datatype Result<T> = Ok(value: T) | Err(error: Error)
  {
    predicate IsFailure() { Err? }
    function PropagateFailure<U>(): Result<U> requires Err? { Err(error) }
    function Extract(): T requires Ok? { value }
  }

  // ---------------------------------------------------------------------
  // Java int arithmetic

  const INT_MIN: int := -0x8000_0000
  const INT_MAX: int := 0x7fff_ffff
  const TWO_32: int := 0x1_0000_0000

  predicate IsInt32(x: int) { INT_MIN <= x <= INT_MAX }

  /** A Java `int`, as `Integer.parseInt` yields it. */
  type Int32 = x: int | IsInt32(x)

  /** The value a Java `int` holds after an arithmetic result `x` is stored:
      the unique 32-bit value congruent to `x` modulo 2^32. */
  function Wrap32(x: int): (r: int)
    ensures IsInt32(r)
    ensures (x - r) % TWO_32 == 0
    ensures IsInt32(x) ==> r == x
  {
    var m := x % TWO_32;
    if m > INT_MAX then m - TWO_32 else m
  }

  function Abs(x: int): (r: int) ensures r >= 0 { if x < 0 then -x else x }

  /** Java's integer division, which truncates toward zero (Dafny's `/` is
      Euclidean). */
  function JavaDiv(a: int, b: int): (q: int)
    requires b != 0
    ensures a >= 0 ==> 0 <= a - b * q < Abs(b)
    ensures a < 0 ==> -Abs(b) < a - b * q <= 0
  {
    if a >= 0 then (if b > 0 then a / b else -(a / -b))
    else (if b > 0 then -((-a) / b) else (-a) / (-b))
  }

  /** Decimal rendering of an int, as Java's string concatenation does it. */
  function IntToString(n: int): (s: string)
    ensures |s| > 0
    decreases Abs(n)
  {
    if n < 0 then "-" + NatToString(-n) else NatToString(n)
  }

  function NatToString(n: nat): (s: string)
    ensures |s| > 0
    ensures forall i :: 0 <= i < |s| ==> '0' <= s[i] <= '9'
  {
    if n < 10 then [DigitChar(n)] else NatToString(n / 10) + [DigitChar(n % 10)]
  }

  function DigitChar(d: nat): (c: char)
    requires d < 10
    ensures '0' <= c <= '9'
  {
    ['0', '1', '2', '3', '4', '5', '6', '7', '8', '9'][d]
  }

  /** `String.hashCode`: s[0]*31^(n-1) + ... + s[n-1] in int arithmetic. */
  function StringHash(s: string): (h: int)
    ensures IsInt32(h)
    ensures s == [] ==> h == 0
    ensures |s| == 1 ==> h == s[0] as int
  {
    if s == [] then 0 else Wrap32(31 * StringHash(s[..|s| - 1]) + (s[|s| - 1] as int))
  }

  // ---------------------------------------------------------------------
  // Identifier allocation: every `getNext...` of the library scans the
  // existing ids with a running candidate that starts at 1 and jumps to
  // id + 1 whenever an id is at least the candidate.

  /** The candidate after scanning `ids` in order. */
  function NextId(ids: seq<int>): (r: int)
    ensures r >= 1
    ensures forall i :: 0 <= i < |ids| ==> ids[i] < r
    ensures r == 1 || r - 1 in ids
  {
    if ids == [] then 1
    else
      var prev := NextId(ids[..|ids| - 1]);
      var last := ids[|ids| - 1];
      assert ids == ids[..|ids| - 1] + [last];
      if last >= prev then last + 1 else prev
  }

  /** One step of the scans that compute `NextId`. */
  lemma NextIdStep(ids: seq<int>, i: nat)
    requires i < |ids|
    ensures NextId(ids[..i + 1]) == if ids[i] >= NextId(ids[..i]) then ids[i] + 1 else NextId(ids[..i])
  {
    assert ids[..i + 1][..i] == ids[..i];
  }

  /** The next id is the least value that is at least 1 and exceeds every
      existing id, so it never collides with one of them. */
  lemma {:induction false} NextIdIsLeastFresh(ids: seq<int>, c: int)
    requires c >= 1
    requires forall i :: 0 <= i < |ids| ==> ids[i] < c
    ensures NextId(ids) <= c
    ensures NextId(ids) !in ids
  {
    var r := NextId(ids);
    if r != 1 {
      assert r - 1 in ids;
    }
  }

  /** The scan as the library writes it, in `int` arithmetic: the candidate
      `id + 1` wraps to INT_MIN when the id is INT_MAX. Below INT_MAX it is
      `NextId`. */
  function NextIdAsWritten(ids: seq<int>): (r: int)
    ensures IsInt32(r)
    ensures (forall i :: 0 <= i < |ids| ==> ids[i] < INT_MAX) ==> r == NextId(ids)
  {
    if ids == [] then 1
    else
      var prev := NextIdAsWritten(ids[..|ids| - 1]);
      var last := ids[|ids| - 1];
      assert forall i :: 0 <= i < |ids| - 1 ==> ids[..|ids| - 1][i] == ids[i];
      if last >= prev then Wrap32(last + 1) else prev
  }

  /** With the ids INT_MIN and INT_MAX stored, the scan as written hands out
      INT_MIN again; the unbounded scan gives a fresh value. */
  lemma NextIdAsWrittenReusesId()
    ensures NextIdAsWritten([INT_MIN, INT_MAX]) == INT_MIN
    ensures INT_MIN in [INT_MIN, INT_MAX]
    ensures NextId([INT_MIN, INT_MAX]) !in [INT_MIN, INT_MAX]
  {
    assert [INT_MIN, INT_MAX][..1] == [INT_MIN];
    assert [INT_MIN][..0] == [];
  }

  // ---------------------------------------------------------------------
  // Collection semantics (a MongoDB collection seen as a sequence of
  // documents in insertion order).

  /** Index of the first document that satisfies `p` (`find(...).first()`). */
  function FirstIndex<T>(s: seq<T>, p: T -> bool): (r: Option<nat>)
    ensures r.Some? ==> r.value < |s| && p(s[r.value])
    ensures r.Some? ==> forall j :: 0 <= j < r.value ==> !p(s[j])
    ensures r.None? <==> forall j :: 0 <= j < |s| ==> !p(s[j])
  {
    if s == [] then None
    else if p(s[0]) then Some(0)
    else match FirstIndex(s[1..], p)
      case None => None
      case Some(k) => Some(k + 1)
  }

  /** The first index is the only index whose document satisfies `p` with
      no earlier one doing so. */
  lemma FirstIndexUnique<T>(s: seq<T>, p: T -> bool, i: nat)
    requires i < |s| && p(s[i])
    requires forall j :: 0 <= j < i ==> !p(s[j])
    ensures FirstIndex(s, p) == Some(i)
  {
  }

  /** Appending a document does not move an existing first match. */
  lemma FirstIndexSnoc<T>(s: seq<T>, x: T, p: T -> bool)
    ensures FirstIndex(s + [x], p) ==
      (if FirstIndex(s, p).Some? then FirstIndex(s, p) else if p(x) then Some(|s|) else None)
  {
    var t := s + [x];
    assert forall j :: 0 <= j < |s| ==> t[j] == s[j];
    var f := FirstIndex(s, p);
    if f.Some? {
      FirstIndexUnique(t, p, f.value);
    } else if p(x) {
      FirstIndexUnique(t, p, |s|);
    } else {
      assert forall j :: 0 <= j < |t| ==> !p(t[j]);
    }
  }

  /** Replacing the first match by another matching document keeps it the
      first match. */
  lemma FirstIndexAfterSet<T>(s: seq<T>, p: T -> bool, i: nat, x: T)
    requires FirstIndex(s, p) == Some(i) && p(x)
    ensures FirstIndex(s[i := x], p) == Some(i)
  {
    var t := s[i := x];
    assert forall j :: 0 <= j < i ==> t[j] == s[j];
    FirstIndexUnique(t, p, i);
  }

  /** The first document satisfying `p`, or NotFound. */
  function FindFirst<T>(s: seq<T>, p: T -> bool): (r: Result<T>)
    ensures r.Ok? <==> exists j :: 0 <= j < |s| && p(s[j])
    ensures r.Ok? ==> p(r.value) && r.value in s
    ensures r.Err? ==> r.error == NotFound
  {
    match FirstIndex(s, p)
      case None => Err(NotFound)
      case Some(i) => Ok(s[i])
  }

  /** `deleteOne`: removes the first document satisfying `p` and reports
      whether one was removed. */
  function DeleteOne<T>(s: seq<T>, p: T -> bool): (r: (seq<T>, bool))
    ensures r.1 <==> exists j :: 0 <= j < |s| && p(s[j])
    ensures !r.1 ==> r.0 == s
    ensures r.1 ==> |r.0| == |s| - 1
    ensures r.1 ==> exists i :: 0 <= i < |s| && p(s[i]) && r.0 == s[..i] + s[i + 1..]
                                && forall j :: 0 <= j < i ==> !p(s[j])
  {
    match FirstIndex(s, p)
      case None => (s, false)
      case Some(i) => (s[..i] + s[i + 1..], true)
  }

  /** The position `deleteOne` removed, and where every survivor came from. */
  lemma DeleteOneIndex<T>(s: seq<T>, p: T -> bool) returns (i: nat)
    requires DeleteOne(s, p).1
    ensures i < |s| && p(s[i]) && forall j :: 0 <= j < i ==> !p(s[j])
    ensures DeleteOne(s, p).0 == s[..i] + s[i + 1..]
  {
    i :| 0 <= i < |s| && p(s[i]) && DeleteOne(s, p).0 == s[..i] + s[i + 1..]
         && forall j :: 0 <= j < i ==> !p(s[j]);
  }

  lemma RemoveAtIndex<T>(s: seq<T>, i: nat)
    requires i < |s|
    ensures forall j :: 0 <= j < |s| - 1 ==> (s[..i] + s[i + 1..])[j] == (if j < i then s[j] else s[j + 1])
  {
  }

  lemma MultisetRemoveAt<T>(s: seq<T>, i: nat)
    requires i < |s|
    ensures multiset(s[..i] + s[i + 1..]) == multiset(s) - multiset{s[i]}
  {
    assert s == s[..i] + [s[i]] + s[i + 1..] by {
      assert s == s[..i] + s[i..];
      assert s[i..] == [s[i]] + s[i + 1..];
    }
  }

  /** `deleteOne` removes one copy of the first match from the multiset. */
  lemma DeleteOneRemovesFirst<T>(s: seq<T>, p: T -> bool)
    requires FirstIndex(s, p).Some?
    ensures DeleteOne(s, p).1
    ensures multiset(DeleteOne(s, p).0) == multiset(s) - multiset{s[FirstIndex(s, p).value]}
  {
    MultisetRemoveAt(s, FirstIndex(s, p).value);
  }

  /** `updateOne`: replaces the first document satisfying `p` by `f` of it.
      The flag is MongoDB's `modifiedCount == 1`: a document matched and its
      new value differs from the stored one. */
  function UpdateOne<T(==)>(s: seq<T>, p: T -> bool, f: T -> T): (r: (seq<T>, bool))
    ensures |r.0| == |s|
    ensures FirstIndex(s, p).None? ==> r == (s, false)
    ensures FirstIndex(s, p).Some? ==>
      var i := FirstIndex(s, p).value;
      r.0 == s[i := f(s[i])] && (r.1 <==> f(s[i]) != s[i])
  {
    match FirstIndex(s, p)
      case None => (s, false)
      case Some(i) => (s[i := f(s[i])], f(s[i]) != s[i])
  }

  /** The documents satisfying `p`, in collection order. */
  function Filter<T>(s: seq<T>, p: T -> bool): (r: seq<T>)
    ensures |r| <= |s|
    ensures forall j :: 0 <= j < |r| ==> p(r[j])
  {
    if s == [] then []
    else
      var init := Filter(s[..|s| - 1], p);
      var last := s[|s| - 1];
      assert s == s[..|s| - 1] + [last];
      if p(last) then init + [last] else init
  }

  // ---------------------------------------------------------------------
  // URLs

  predicate EndsWithSlash(url: string)
  {
    |url| > 0 && url[|url| - 1] == '/'
  }

  /** A service URL normalised to end in exactly the "/" the path segments
      appended to it expect: one "/" is added unless it already ends in one. */
  function WithTrailingSlash(url: string): (r: string)
    ensures EndsWithSlash(r)
    ensures |url| <= |r| <= |url| + 1 && r[..|url|] == url
    ensures EndsWithSlash(url) ==> r == url
  {
    if EndsWithSlash(url) then url else url + "/"
  }

  lemma WithTrailingSlashIdempotent(url: string)
    ensures WithTrailingSlash(WithTrailingSlash(url)) == WithTrailingSlash(url)
  {
  }

  /** Exactly the members of `s` that satisfy `p` survive the filter. */
  lemma {:induction false} FilterMembers<T>(s: seq<T>, p: T -> bool, x: T)
    ensures x in Filter(s, p) <==> x in s && p(x)
  {
    if s != [] {
      var init := s[..|s| - 1];
      FilterMembers(init, p, x);
      assert s == init + [s[|s| - 1]];
    }
  }
}

=== FILE: counters.dfy ===
// Counters (Counter) and the counter collection (CounterDBConnector).

module Counters {
  import opened Common

  // ---------------------------------------------------------------------
  // Counter

  class Counter {
    const counterID: int
    var value: int

    constructor (counterID: int)
      ensures this.counterID == counterID && value == 0
    {
      this.counterID := counterID;
      value := 0;
    }

    constructor FromDocument(d: CounterDocument)
      ensures counterID == d.counterID && value == d.value
    {
      counterID := d.counterID;
      value := d.value;
    }

    method Increment() returns (v: int)
      modifies this
      ensures value == old(value) + 1 && v == value
    {
      value := value + 1;
      v := value;
    }

    /** Lowers the value by one unless it is already 0 or below. */
    method Decrement() returns (v: int)
      modifies this
      ensures value == (if old(value) > 0 then old(value) - 1 else old(value)) && v == value
      ensures old(value) >= 0 ==> value >= 0
    {
      if value > 0 {
        value := value - 1;
      }
      v := value;
    }

    method Reset()
      modifies this
      ensures value == 0
    {
      value := 0;
    }

    /** `equals`: only the counterID. */
    predicate Equals(other: Counter)
    {
      counterID == other.counterID
    }
  }

  // ---------------------------------------------------------------------
  // The counter collection

  /** A stored counter. `text` records that the value field holds a string:
      an inserted counter stores the number 0, every update stores the value
      as text. The store compares stored fields by type and value, so this
      decides whether an update modifies the document. */
  datatype CounterDocument = CounterDocument(counterID: int, value: int, text: bool)

  function CounterIDs(t: seq<CounterDocument>): (ids: seq<int>)
    ensures |ids| == |t|
    ensures forall i :: 0 <= i < |t| ==> ids[i] == t[i].counterID
  {
    if t == [] then [] else CounterIDs(t[..|t| - 1]) + [t[|t| - 1].counterID]
  }

  /** Index `i` holds the first counter with that id. */
  predicate IsFirst(t: seq<CounterDocument>, counterID: int, i: int)
  {
    0 <= i < |t| && t[i].counterID == counterID
    && forall j :: 0 <= j < i ==> t[j].counterID != counterID
  }

  predicate Exists(t: seq<CounterDocument>, counterID: int)
  {
    exists i :: 0 <= i < |t| && t[i].counterID == counterID
  }

  /** No counter holds a negative value. */
  predicate NonNegative(t: seq<CounterDocument>)
  {
    forall i :: 0 <= i < |t| ==> t[i].value >= 0
  }

  function Matches(counterID: int): CounterDocument -> bool
  {
    (d: CounterDocument) => d.counterID == counterID
  }

  /** `findCounter`: the first counter with that id. */
  function Find(t: seq<CounterDocument>, counterID: int): (r: Result<CounterDocument>)
    ensures r.Ok? <==> Exists(t, counterID)
    ensures r.Ok? ==> exists i :: IsFirst(t, counterID, i) && t[i] == r.value
    ensures r.Err? ==> r.error == NotFound
  {
    match FirstIndex(t, Matches(counterID))
      case None => Err(NotFound)
      case Some(i) => Ok(t[i])
  }

  /** `updateOne(eq(counterID), $set value := text of v)`: the new table and
      whether a document was modified. */
  function SetValue(t: seq<CounterDocument>, counterID: int, v: int): (r: (seq<CounterDocument>, bool))
    ensures !Exists(t, counterID) ==> r == (t, false)
    ensures forall i :: IsFirst(t, counterID, i) ==>
      (r.1 <==> t[i].value != v || !t[i].text)
      && r.0 == (if r.1 then t[i := CounterDocument(counterID, v, true)] else t)
  {
    match FirstIndex(t, Matches(counterID))
      case None => (t, false)
      case Some(i) =>
        var nd := t[i].(value := v, text := true);
        if nd == t[i] then (t, false) else (t[i := nd], true)
  }

  /** `insertCounter`: a counter with value 0 under the next free id. */
  function InsertSpec(t: seq<CounterDocument>): (r: (int, seq<CounterDocument>))
    ensures r.0 >= 1 && !Exists(t, r.0)
    ensures forall i :: 0 <= i < |t| ==> t[i].counterID < r.0
    ensures r.1 == t + [CounterDocument(r.0, 0, false)]
  {
    var id := NextId(CounterIDs(t));
    (id, t + [CounterDocument(id, 0, false)])
  }

  /** `incrementCounter`: stores and returns the old value plus one. */
  function IncrementSpec(t: seq<CounterDocument>, counterID: int): (r: (Result<int>, seq<CounterDocument>))
    ensures r.0.Ok? <==> Exists(t, counterID)
    ensures r.0.Err? ==> r.0.error == NotFound && r.1 == t
    ensures forall i :: IsFirst(t, counterID, i) ==>
      r.0 == Ok(t[i].value + 1) && r.1 == t[i := CounterDocument(counterID, t[i].value + 1, true)]
  {
    match Find(t, counterID)
      case Err(e) => (Err(e), t)
      case Ok(c) =>
        var v := c.value + 1;
        var u := SetValue(t, counterID, v);
        if u.1 then (Ok(v), u.0) else (Err(NotFound), u.0)
  }

  /** `decrementCounter`: stores and returns max(old - 1, 0). A counter that
      already holds the text "0" is not modified, which reads as NotFound. */
  function DecrementSpec(t: seq<CounterDocument>, counterID: int): (r: (Result<int>, seq<CounterDocument>))
    ensures !Exists(t, counterID) ==> r == (Err(NotFound), t)
    ensures r.0.Err? ==> r.0.error == NotFound && r.1 == t
    ensures forall i :: IsFirst(t, counterID, i) ==>
      var v := if t[i].value - 1 > 0 then t[i].value - 1 else 0;
      (r.0.Ok? <==> t[i].value != v || !t[i].text)
      && (r.0.Ok? ==> r.0.value == v && r.1 == t[i := CounterDocument(counterID, v, true)])
  {
    match Find(t, counterID)
      case Err(e) => (Err(e), t)
      case Ok(c) =>
        var v := if c.value - 1 > 0 then c.value - 1 else 0;
        var u := SetValue(t, counterID, v);
        if u.1 then (Ok(v), u.0) else (Err(NotFound), u.0)
  }

  /** `resetCounter`: sets the text "0"; NotFound when nothing was modified. */
  function ResetSpec(t: seq<CounterDocument>, counterID: int): (r: (Result<bool>, seq<CounterDocument>))
    ensures !Exists(t, counterID) ==> r == (Err(NotFound), t)
    ensures r.0.Ok? ==> r.0.value
    ensures r.0.Err? ==> r.0.error == NotFound && r.1 == t
    ensures forall i :: IsFirst(t, counterID, i) ==>
      (r.0.Ok? <==> t[i].value != 0 || !t[i].text)
      && (r.0.Ok? ==> r.1 == t[i := CounterDocument(counterID, 0, true)])
  {
    var u := SetValue(t, counterID, 0);
    if u.1 then (Ok(true), u.0) else (Err(NotFound), u.0)
  }

  /** `removeCounter`: deletes the first counter with that id. */
  function RemoveSpec(t: seq<CounterDocument>, counterID: int): (r: (Result<bool>, seq<CounterDocument>))
    ensures r.0.Ok? <==> Exists(t, counterID)
    ensures r.0.Ok? ==> r.0.value
    ensures r.0.Err? ==> r.0.error == NotFound && r.1 == t
    ensures r.0.Ok? ==> exists i :: IsFirst(t, counterID, i) && r.1 == t[..i] + t[i + 1..]
  {
    var u := DeleteOne(t, Matches(counterID));
    if u.1 then (Ok(true), u.0) else (Err(NotFound), t)
  }

  // ---------------------------------------------------------------------
  // Properties of the collection

  /** Some first index exists whenever the id occurs. */
  lemma HasFirst(t: seq<CounterDocument>, counterID: int) returns (k: int)
    requires Exists(t, counterID)
    ensures IsFirst(t, counterID, k)
  {
    var i :| 0 <= i < |t| && t[i].counterID == counterID;
    k := FirstOf(t, counterID, i);
  }

  /** A counter never becomes negative through the connector's updates. */
  lemma InsertKeepsNonNegative(t: seq<CounterDocument>)
    requires NonNegative(t)
    ensures NonNegative(InsertSpec(t).1)
  {
  }

  lemma IncrementKeepsNonNegative(t: seq<CounterDocument>, counterID: int)
    requires NonNegative(t)
    ensures NonNegative(IncrementSpec(t, counterID).1)
  {
    if Exists(t, counterID) {
      var k := HasFirst(t, counterID);
    }
  }

  lemma DecrementKeepsNonNegative(t: seq<CounterDocument>, counterID: int)
    requires NonNegative(t)
    ensures NonNegative(DecrementSpec(t, counterID).1)
  {
    if Exists(t, counterID) {
      var k := HasFirst(t, counterID);
    }
  }

  lemma ResetKeepsNonNegative(t: seq<CounterDocument>, counterID: int)
    requires NonNegative(t)
    ensures NonNegative(ResetSpec(t, counterID).1)
  {
    if Exists(t, counterID) {
      var k := HasFirst(t, counterID);
    }
  }

  lemma RemoveKeepsNonNegative(t: seq<CounterDocument>, counterID: int)
    requires NonNegative(t)
    ensures NonNegative(RemoveSpec(t, counterID).1)
  {
    if DeleteOne(t, Matches(counterID)).1 {
      var i := DeleteOneIndex(t, Matches(counterID));
      RemoveAtIndex(t, i);
    }
  }

  /** The first index with that id, given some index with it. */
  lemma FirstOf(t: seq<CounterDocument>, counterID: int, i: int) returns (k: int)
    requires 0 <= i < |t| && t[i].counterID == counterID
    ensures IsFirst(t, counterID, k) && k <= i
  {
    k := i;
    while k > 0 && exists j :: 0 <= j < k && t[j].counterID == counterID
      invariant 0 <= k <= i && t[k].counterID == counterID
      decreases k
    {
      var j :| 0 <= j < k && t[j].counterID == counterID;
      k := j;
    }
  }

  /** Decrementing twice from 1 stops at zero: the second decrement leaves
      the stored text "0" untouched and reports NotFound. */
  lemma DecrementStopsAtZero(t: seq<CounterDocument>, counterID: int, i: int)
    requires IsFirst(t, counterID, i) && t[i].value == 1
    ensures DecrementSpec(t, counterID).0 == Ok(0)
    ensures var t2 := DecrementSpec(t, counterID).1;
      DecrementSpec(t2, counterID) == (Err(NotFound), t2) && t2[i].value == 0
  {
    var t2 := DecrementSpec(t, counterID).1;
    assert IsFirst(t2, counterID, i);
  }

  // ---------------------------------------------------------------------
  // The connector over the collection

  class CounterDB {
    var table: seq<CounterDocument>

    constructor (initial: seq<CounterDocument>)
      ensures table == initial
    {
      table := initial;
    }

    /** `getNextCounterID`: the scan with a running candidate. */
    method GetNextCounterID() returns (id: int)
      ensures id == NextId(CounterIDs(table))
      ensures id >= 1 && forall i :: 0 <= i < |table| ==> table[i].counterID < id
      ensures id == 1 || exists i :: 0 <= i < |table| && table[i].counterID == id - 1
    {
      var ids := CounterIDs(table);
      id := 1;
      for i := 0 to |table|
        invariant id == NextId(ids[..i])
      {
        NextIdStep(ids, i);
        if table[i].counterID >= id {
          id := table[i].counterID + 1;
        }
      }
      assert ids[..|table|] == ids;
    }

    method InsertCounter() returns (id: int)
      modifies this
      ensures (id, table) == InsertSpec(old(table))
    {
      id := GetNextCounterID();
      var c := new Counter(id);
      table := table + [CounterDocument(c.counterID, c.value, false)];
    }

    method FindCounter(counterID: int) returns (r: Result<Counter>)
      ensures r.Ok? <==> Find(table, counterID).Ok?
      ensures r.Ok? ==> fresh(r.value) && r.value.counterID == counterID
                        && r.value.value == Find(table, counterID).value.value
      ensures r.Err? ==> r.error == NotFound
    {
      var f := Find(table, counterID);
      if f.Err? {
        return Err(f.error);
      }
      var c := new Counter.FromDocument(f.value);
      return Ok(c);
    }

    method IncrementCounter(counterID: int) returns (r: Result<int>)
      modifies this
      ensures (r, table) == IncrementSpec(old(table), counterID)
    {
      var c := FindCounter(counterID);
      if c.Err? {
        return Err(c.error);
      }
      var v := c.value.value + 1;
      var modified;
      table, modified := SetValue(table, counterID, v).0, SetValue(table, counterID, v).1;
      if modified {
        return Ok(v);
      }
      return Err(NotFound);
    }

    method DecrementCounter(counterID: int) returns (r: Result<int>)
      modifies this
      ensures (r, table) == DecrementSpec(old(table), counterID)
    {
      var c := FindCounter(counterID);
      if c.Err? {
        return Err(c.error);
      }
      var v := if c.value.value - 1 > 0 then c.value.value - 1 else 0;
      var modified;
      table, modified := SetValue(table, counterID, v).0, SetValue(table, counterID, v).1;
      if modified {
        return Ok(v);
      }
      return Err(NotFound);
    }

    method ResetCounter(counterID: int) returns (r: Result<bool>)
      modifies this
      ensures (r, table) == ResetSpec(old(table), counterID)
    {
      var modified;
      table, modified := SetValue(table, counterID, 0).0, SetValue(table, counterID, 0).1;
      if modified {
        return Ok(true);
      }
      return Err(NotFound);
    }

    method RemoveCounter(counterID: int) returns (r: Result<bool>)
      modifies this
      ensures (r, table) == RemoveSpec(old(table), counterID)
    {
      var u := DeleteOne(table, Matches(counterID));
      if u.1 {
        table := u.0;
        return Ok(true);
      }
      return Err(NotFound);
    }
  }
}

=== FILE: devices.dfy ===
// A registered device (Device) and a list of devices (Devices).

module Devices {
  import opened Common
  import opened Beacons
  import opened Presence

  /** A device as the store holds it: the persisted fields of Device. */
  datatype DeviceRecord = DeviceRecord(
    deviceID: int,
    address: string,
    lastTimeUpdated: int,
    firebaseToken: Option<string>,
    beacons: seq<Beacon>)

  class Device {
    const deviceID: int
    const address: string
    var lastTimeUpdated: int
    var firebaseToken: Option<string>
    var beacons: SystemBeacons

    /** `Device(deviceID, address)`: stamped now, no beacons, no token. */
    constructor (deviceID: int, address: string, now: int)
      ensures this.deviceID == deviceID && this.address == address
      ensures lastTimeUpdated == now && firebaseToken.None?
      ensures fresh(beacons) && beacons.beaconList == []
    {
      this.deviceID := deviceID;
      this.address := address;
      lastTimeUpdated := now;
      firebaseToken := None;
      beacons := new SystemBeacons();
    }

    /** `Device(deviceID, address, firebaseToken)`. */
    constructor WithToken(deviceID: int, address: string, firebaseToken: Option<string>, now: int)
      ensures this.deviceID == deviceID && this.address == address
      ensures lastTimeUpdated == now && this.firebaseToken == firebaseToken
      ensures fresh(beacons) && beacons.beaconList == []
    {
      this.deviceID := deviceID;
      this.address := address;
      lastTimeUpdated := now;
      this.firebaseToken := firebaseToken;
      beacons := new SystemBeacons();
    }

    /** The object the store hands out for a stored device. */
    constructor FromRecord(r: DeviceRecord)
      ensures deviceID == r.deviceID && address == r.address
      ensures lastTimeUpdated == r.lastTimeUpdated && firebaseToken == r.firebaseToken
      ensures fresh(beacons) && beacons.beaconList == r.beacons
    {
      deviceID := r.deviceID;
      address := r.address;
      lastTimeUpdated := r.lastTimeUpdated;
      firebaseToken := r.firebaseToken;
      var b := new SystemBeacons();
      b.beaconList := r.beacons;
      beacons := b;
    }

    method SetFireBaseToken(token: Option<string>)
      modifies this
      ensures firebaseToken == token
      ensures beacons == old(beacons) && lastTimeUpdated == old(lastTimeUpdated)
    {
      firebaseToken := token;
    }

    method SetBeacons(b: SystemBeacons)
      modifies this
      ensures beacons == b
      ensures firebaseToken == old(firebaseToken) && lastTimeUpdated == old(lastTimeUpdated)
    {
      beacons := b;
    }

    /** `updateBeacons`: exactly `compare` on the owned beacon set. */
    method UpdateBeacons(updated: SystemBeacons) returns (change: BeaconChange?)
      modifies beacons
      ensures var P, N := old(beacons.beaconList), old(updated.beaconList);
        (change == null <==> Without(N, P) == [] && LeftReported(P, N) == [])
        && (change != null ==> fresh(change) && change.entered == Without(N, P)
                               && change.left == LeftReported(P, N))
        && beacons.beaconList == (if change == null then P else N)
    {
      change := beacons.Compare(updated);
    }

    /** `equals`: address and deviceID; token, beacons and time are ignored. */
    predicate Equals(other: Device)
    {
      address == other.address && deviceID == other.deviceID
    }
  }

  /** Whether an equal device (same deviceID and address) is in the list. */
  predicate ContainsDevice(list: seq<Device>, d: Device)
  {
    exists i :: 0 <= i < |list| && list[i].Equals(d)
  }

  class Devices {
    var deviceList: seq<Device>

    constructor ()
      ensures deviceList == []
    {
      deviceList := [];
    }

    function DeviceCount(): (n: nat)
      reads this
      ensures n == |deviceList|
    {
      |deviceList|
    }

    /** The first device with that id. */
    method GetDevice(deviceID: int) returns (r: Result<Device>)
      ensures r.Ok? ==> (exists i :: 0 <= i < |deviceList| && deviceList[i] == r.value
                          && forall j :: 0 <= j < i ==> deviceList[j].deviceID != deviceID)
      ensures r.Ok? ==> r.value.deviceID == deviceID
      ensures r.Err? <==> forall j :: 0 <= j < |deviceList| ==> deviceList[j].deviceID != deviceID
      ensures r.Err? ==> r.error == NotFound
    {
      for i := 0 to |deviceList|
        invariant forall j :: 0 <= j < i ==> deviceList[j].deviceID != deviceID
      {
        if deviceList[i].deviceID == deviceID {
          return Ok(deviceList[i]);
        }
      }
      return Err(NotFound);
    }

    /** The first device with that address. */
    method GetDeviceByAddress(address: string) returns (r: Result<Device>)
      ensures r.Ok? ==> (exists i :: 0 <= i < |deviceList| && deviceList[i] == r.value
                          && forall j :: 0 <= j < i ==> deviceList[j].address != address)
      ensures r.Ok? ==> r.value.address == address
      ensures r.Err? <==> forall j :: 0 <= j < |deviceList| ==> deviceList[j].address != address
      ensures r.Err? ==> r.error == NotFound
    {
      for i := 0 to |deviceList|
        invariant forall j :: 0 <= j < i ==> deviceList[j].address != address
      {
        if deviceList[i].address == address {
          return Ok(deviceList[i]);
        }
      }
      return Err(NotFound);
    }

    /** Appends unless an equal device is present. Only an exact
        (deviceID, address) duplicate is refused. */
    method AddDevice(d: Device) returns (r: Result<bool>)
      modifies this
      ensures r.Ok? <==> !ContainsDevice(old(deviceList), d)
      ensures r.Ok? ==> r.value && deviceList == old(deviceList) + [d]
      ensures r.Err? ==> r.error == AlreadyExisting && deviceList == old(deviceList)
    {
      if !ContainsDevice(deviceList, d) {
        deviceList := deviceList + [d];
        return Ok(true);
      }
      return Err(AlreadyExisting);
    }
  }
}

=== FILE: engine.dfy ===
// The event engine: what each kind of event does when it is added to a
// geofence (onAddToGeofence) and when it is triggered (checkTrigger,
// conditionStillFullfilled, trigger), over the whole persistent state of
// the server. A `java.util.Timer` becomes a list of pending checks that a
// separate step fires against the state at that later moment.

module Engine {
  import opened Common
  import opened Beacons
  import opened Presence
  import opened Events
  import opened Devices
  import opened Counters
  import opened Mail
  import opened Store

  // ---------------------------------------------------------------------
  // Push notifications (FirebaseServerClient)

  /** A device token, or the administrators' topic that a null token selects. */
  datatype Destination = AdminTopic | DeviceToken(token: string)

  datatype Push = Push(title: string, message: string, destination: Destination)

  /** The configured push values. None stands for a key that is missing or
      empty. */
  datatype PushSettings = PushSettings(firebaseURL: Option<string>, adminKey: Option<string>,
                                       deviceKey: Option<string>)

  /** `send` posts the request only when the server URL and the server key
      of the destination's kind are configured; otherwise it logs and
      returns null. The server's answer is only logged. */
  predicate Posted(s: PushSettings, p: Push): (b: bool)
    ensures b ==> s.firebaseURL.Some?
    ensures p.destination.AdminTopic? ==> (b <==> s.firebaseURL.Some? && s.adminKey.Some?)
    ensures !p.destination.AdminTopic? ==> (b <==> s.firebaseURL.Some? && s.deviceKey.Some?)
  {
    s.firebaseURL.Some? && (if p.destination.AdminTopic? then s.adminKey.Some? else s.deviceKey.Some?)
  }

  /** `sendToDevice` with the stored token: a null token falls into the
      administrators' branch. */
  function TokenDestination(token: Option<string>): (d: Destination)
    ensures d.AdminTopic? <==> token.None?
    ensures token.Some? ==> d == DeviceToken(token.value)
  {
    if token.None? then AdminTopic else DeviceToken(token.value)
  }

  // ---------------------------------------------------------------------
  // The persistent state and the environment

  /** A check the timer runs later: the event, the device and the direction
      the trigger waits for, and when (in ms) it runs. */
  datatype Task = Task(event: Event, deviceID: int, direction: Direction, due: int)

  datatype World = World(
    tables: Tables,
    counters: seq<CounterDocument>,
    mail: MailState,
    sent: seq<Mail>,
    pushes: seq<Push>,
    pending: seq<Task>)

  /** What the engine reads but never changes: the configuration, the
      address check and which mails the mail server accepts. */
  datatype Env = Env(mail: MailSettings, push: PushSettings, valid: string -> bool, accepts: Mail -> bool)

  function PushIfPosted(s: PushSettings, pushes: seq<Push>, p: Push): (r: seq<Push>)
    ensures Posted(s, p) ==> r == pushes + [p]
    ensures !Posted(s, p) ==> r == pushes
  {
    if Posted(s, p) then pushes + [p] else pushes
  }

  // ---------------------------------------------------------------------
  // Delays

  /** The timer delay in ms, computed in `long` as intended. */
  function DelayMillis(delay: Int32): (ms: int)
    ensures ms / 1000 == delay && ms % 1000 == 0
    ensures ms < 0 <==> delay < 0
  {
    delay * 1000
  }

  /** `trigger.getDelay() * 1000` as written: an `int` product, widened to
      `long` only afterwards. */
  function DelayMillisAsWritten(delay: Int32): (ms: int)
    ensures IsInt32(ms)
    ensures -2147483 <= delay <= 2147483 ==> ms == DelayMillis(delay)
  {
    Wrap32(delay * 1000)
  }

  /** A delay of 2147484 s (under 25 days) becomes negative, which the timer
      rejects; one of 4294968 s becomes 704 ms. */
  lemma DelayMillisAsWrittenWraps()
    ensures DelayMillisAsWritten(2147484) < 0 && DelayMillis(2147484) == 2147484000
    ensures DelayMillisAsWritten(4294968) == 704 && DelayMillis(4294968) == 4294968000
  {
  }

  // ---------------------------------------------------------------------
  // Specification of the engine

  /** The result of `checkTrigger` on one event. */
  datatype Outcome = Ignored | Ran | Scheduled

  /** The counter update a mode selects; NotFound when no document was
      modified. */
  function ModifySpec(t: seq<CounterDocument>, id: int, mode: Mode): (r: (Result<bool>, seq<CounterDocument>))
    ensures r.0.Err? ==> r.0.error == NotFound && r.1 == t
    ensures r.0.Ok? ==> r.0.value
    ensures !Exists(t, id) ==> r == (Err(NotFound), t)
    ensures |r.1| == |t|
  {
    match mode
      case Increment =>
        var u := IncrementSpec(t, id);
        (if u.0.Ok? then Ok(true) else Err(NotFound), u.1)
      case Decrement =>
        var u := DecrementSpec(t, id);
        (if u.0.Ok? then Ok(true) else Err(NotFound), u.1)
      case Reset =>
        var u := ResetSpec(t, id);
        (if u.0.Ok? then Ok(true) else Err(NotFound), u.1)
  }

  /** `trigger(deviceID)` of each kind. `movement` is the direction given to
      `checkTrigger`; only the geofence counter reads it. The flag is false
      when the action raised NotFound (the callers log and drop it). */
  function ActSpec(w: World, env: Env, e: Event, deviceID: int, movement: Direction): (r: (Result<bool>, World))
    ensures r.0.Err? ==> r.0.error == NotFound
    ensures r.1.tables == w.tables && r.1.mail == w.mail && r.1.pending == w.pending
    ensures !e.kind.SendMail? ==> r.1.sent == w.sent
    ensures !(e.kind.AdminNotification? || e.kind.DeviceNotification?) ==> r.1.pushes == w.pushes
    ensures !(e.kind.ModifyCounter? || e.kind.GeofenceCounter?) ==> r.1.counters == w.counters
  {
    match e.kind
      case ModifyCounter(id, mode) =>
        var u := ModifySpec(w.counters, id, mode);
        (u.0, w.(counters := u.1))
      case GeofenceCounter(id) =>
        var u := ModifySpec(w.counters, id, if movement == Enter then Increment else Decrement);
        (u.0, w.(counters := u.1))
      case SendMail(recipient, title, message) =>
        var s := SendToConfirmedSpec(w.mail, recipient, title, message, env.accepts);
        (Ok(true), w.(sent := w.sent + s.1))
      case AdminNotification(title, message) =>
        (Ok(true), w.(pushes := PushIfPosted(env.push, w.pushes, Push(title, message, AdminTopic))))
      case DeviceNotification(title, message) =>
        match FindDevice(w.tables, deviceID)
          case Err(_) => (Err(NotFound), w)
          case Ok(d) =>
            var p := Push(title, message, TokenDestination(d.firebaseToken));
            (Ok(true), w.(pushes := PushIfPosted(env.push, w.pushes, p)))
  }

  /** `conditionStillFullfilled`: an Enter check holds while the device is
      in the geofence, a Leave check while it is not; NotFound for a device
      that is gone. */
  function ConditionSpec(t: Tables, direction: Direction, minor: int, deviceID: int): (r: Result<bool>)
    ensures r.Err? <==> !DeviceExists(t, deviceID)
    ensures r.Err? ==> r.error == NotFound
    ensures r.Ok? ==> (r.value <==> (direction == Enter <==> IsDeviceInGeofence(t, deviceID, minor).value))
  {
    var inside :- IsDeviceInGeofence(t, deviceID, minor);
    Ok(if direction == Enter then inside else !inside)
  }

  /** `checkTrigger(direction, deviceID)` at time `now`. A geofence counter
      acts on every call whatever the direction. Any other event acts at
      once for delay 0, schedules one check `delay` seconds later
      otherwise, and ignores a direction it does not wait for. The timer
      rejects a negative delay and a missing trigger fails: both are
      unchecked exceptions that reach the caller. */
  function CheckTriggerSpec(w: World, env: Env, e: Event, direction: Direction, deviceID: int, now: int)
    : (r: (Result<Outcome>, World))
    ensures e.kind.GeofenceCounter? ==> r.0 == Ok(Ran)
    ensures !e.kind.GeofenceCounter? && e.trigger.None? ==> r == (Err(Unchecked), w)
    ensures !e.kind.GeofenceCounter? && e.trigger.Some? && e.trigger.value.direction != direction
            ==> r == (Ok(Ignored), w)
    ensures !e.kind.GeofenceCounter? && e.trigger.Some? && e.trigger.value.direction == direction
            && e.trigger.value.delay > 0
            ==> r == (Ok(Scheduled), w.(pending := w.pending + [Task(e, deviceID, direction, now + DelayMillis(e.trigger.value.delay))]))
    ensures !e.kind.GeofenceCounter? && e.trigger.Some? && e.trigger.value.delay < 0
            && e.trigger.value.direction == direction
            ==> r == (Err(Unchecked), w)
    ensures !e.kind.GeofenceCounter? && e.trigger.Some? && e.trigger.value.direction == direction
            && e.trigger.value.delay == 0
            ==> r.0 == Ok(Ran)
    ensures r.0 == Ok(Ran) ==> r.1 == ActSpec(w, env, e, deviceID, direction).1
  {
    if e.kind.GeofenceCounter? then (Ok(Ran), ActSpec(w, env, e, deviceID, direction).1)
    else if e.trigger.None? then (Err(Unchecked), w)
    else if e.trigger.value.direction != direction then (Ok(Ignored), w)
    else if e.trigger.value.delay == 0 then (Ok(Ran), ActSpec(w, env, e, deviceID, direction).1)
    else
      var ms := DelayMillis(e.trigger.value.delay);
      if ms < 0 then (Err(Unchecked), w)
      else (Ok(Scheduled), w.(pending := w.pending + [Task(e, deviceID, direction, now + ms)]))
  }

  /** The timer task of the pending check `k`: it leaves the list and acts
      iff its condition holds on the state at that moment. */
  function FireSpec(w: World, env: Env, k: nat): (r: World)
    requires k < |w.pending|
    ensures r.tables == w.tables
    ensures r.pending == w.pending[..k] + w.pending[k + 1..]
    ensures var task := w.pending[k];
      var c := ConditionSpec(w.tables, task.direction, task.event.minor, task.deviceID);
      !(c.Ok? && c.value) ==> r == w.(pending := w.pending[..k] + w.pending[k + 1..])
  {
    var task := w.pending[k];
    var w1 := w.(pending := w.pending[..k] + w.pending[k + 1..]);
    var c := ConditionSpec(w1.tables, task.direction, task.event.minor, task.deviceID);
    if c.Ok? && c.value then ActSpec(w1, env, task.event, task.deviceID, task.direction).1 else w1
  }

  /** `onAddToGeofence` of each kind: whether the event may be added, the
      event as it is then stored (a counter event is bound to its counter),
      and the new state. */
  function OnAddSpec(w: World, env: Env, e: Event, now: int): (r: (bool, Event, World))
    ensures r.2.tables == w.tables && r.2.pushes == w.pushes && r.2.pending == w.pending
    ensures r.1.eventID == e.eventID && r.1.minor == e.minor && r.1.trigger == e.trigger
    ensures r.1.kind.ModifyCounter? == e.kind.ModifyCounter?
    ensures e.kind.GeofenceCounter? ==> r.0 && r.1.kind.GeofenceCounter?
    ensures e.kind.AdminNotification? ==> r == (env.push.adminKey.Some?, e, w)
    ensures e.kind.DeviceNotification? ==> r == (env.push.deviceKey.Some?, e, w)
  {
    match e.kind
      case ModifyCounter(id, _) =>
        if id == -1 then
          var ins := InsertSpec(w.counters);
          (true, BindCounter(e, ins.0), w.(counters := ins.1))
        else (Find(w.counters, id).Ok?, e, w)
      case GeofenceCounter(_) =>
        var ins := InsertSpec(w.counters);
        (true, BindCounter(e, ins.0), w.(counters := ins.1))
      case SendMail(recipient, _, _) =>
        var s := SendDefaultVerificationSpec(w.mail, recipient, now, env.mail, env.valid, env.accepts);
        (s.0 == Ok(true), e, w.(mail := s.1, sent := w.sent + s.2))
      case AdminNotification(_, _) => (env.push.adminKey.Some?, e, w)
      case DeviceNotification(_, _) => (env.push.deviceKey.Some?, e, w)
  }

  /** `Geofence.trigger`: `checkTrigger` on every event in list order; an
      unchecked exception stops the loop and propagates. */
  function TriggerAllSpec(w: World, env: Env, events: seq<Event>, direction: Direction, deviceID: int, now: int)
    : (r: (Result<bool>, World))
    ensures r.0.Ok? ==> r.0.value
    ensures r.0.Err? ==> r.0.error == Unchecked
    ensures r.1.tables == w.tables
    decreases |events|
  {
    if events == [] then (Ok(true), w)
    else
      var c := CheckTriggerSpec(w, env, events[0], direction, deviceID, now);
      if c.0.Err? then (Err(Unchecked), c.1)
      else TriggerAllSpec(c.1, env, events[1..], direction, deviceID, now)
  }

  // ---------------------------------------------------------------------
  // Properties of the engine

  /** A trigger waiting for the other direction does nothing. */
  lemma OtherDirectionIgnored(w: World, env: Env, e: Event, direction: Direction, deviceID: int, now: int)
    requires !e.kind.GeofenceCounter? && e.trigger.Some? && e.trigger.value.direction != direction
    ensures CheckTriggerSpec(w, env, e, direction, deviceID, now) == (Ok(Ignored), w)
  {
  }

  /** With a positive delay nothing runs at call time: only one check is
      added, due `delay` seconds later. */
  lemma DelayedTriggerOnlySchedules(w: World, env: Env, e: Event, direction: Direction, deviceID: int, now: int)
    requires !e.kind.GeofenceCounter? && e.trigger.Some?
    requires e.trigger.value.direction == direction && e.trigger.value.delay > 0
    ensures var r := CheckTriggerSpec(w, env, e, direction, deviceID, now).1;
      r.counters == w.counters && r.mail == w.mail && r.sent == w.sent && r.pushes == w.pushes
      && |r.pending| == |w.pending| + 1 && r.pending[..|w.pending|] == w.pending
      && r.pending[|w.pending|].due - now == 1000 * e.trigger.value.delay
  {
    var r := CheckTriggerSpec(w, env, e, direction, deviceID, now).1;
    assert r.pending == w.pending + [Task(e, deviceID, direction, now + DelayMillis(e.trigger.value.delay))];
  }

  /** A geofence counter counts entries up and exits down, never below 0. */
  lemma GeofenceCounterCounts(w: World, env: Env, e: Event, direction: Direction, deviceID: int, now: int, i: nat)
    requires e.kind.GeofenceCounter?
    requires IsFirst(w.counters, e.kind.counterID, i)
    ensures var c := CheckTriggerSpec(w, env, e, direction, deviceID, now).1.counters;
      |c| == |w.counters| && c[i].counterID == e.kind.counterID
      && c[i].value == (if direction == Enter then w.counters[i].value + 1
                        else if w.counters[i].value - 1 > 0 then w.counters[i].value - 1 else 0)
      && forall j :: 0 <= j < |c| && j != i ==> c[j] == w.counters[j]
  {
  }

  /** A modify-counter event changes exactly its bound counter, by its mode. */
  lemma ModifyCounterActs(w: World, env: Env, e: Event, deviceID: int, movement: Direction, i: nat)
    requires e.kind.ModifyCounter?
    requires IsFirst(w.counters, e.kind.counterID, i)
    ensures var c := ActSpec(w, env, e, deviceID, movement).1.counters;
      |c| == |w.counters| && c[i].counterID == e.kind.counterID
      && c[i].value == (match e.kind.mode
                          case Increment => w.counters[i].value + 1
                          case Decrement => if w.counters[i].value - 1 > 0 then w.counters[i].value - 1 else 0
                          case Reset => 0)
      && forall j :: 0 <= j < |c| && j != i ==> c[j] == w.counters[j]
  {
  }

  /** A pending check whose condition no longer holds only leaves the list. */
  lemma FireSkipsStaleCheck(w: World, env: Env, k: nat)
    requires k < |w.pending|
    requires var task := w.pending[k];
      ConditionSpec(w.tables, task.direction, task.event.minor, task.deviceID) != Ok(true)
    ensures FireSpec(w, env, k) == w.(pending := w.pending[..k] + w.pending[k + 1..])
  {
  }

  /** A pending check whose condition holds acts as the immediate trigger
      would have. */
  lemma FireActsOnLiveCondition(w: World, env: Env, k: nat)
    requires k < |w.pending|
    requires var task := w.pending[k];
      ConditionSpec(w.tables, task.direction, task.event.minor, task.deviceID) == Ok(true)
    ensures var task := w.pending[k];
      FireSpec(w, env, k) == ActSpec(w.(pending := w.pending[..k] + w.pending[k + 1..]), env,
                                     task.event, task.deviceID, task.direction).1
  {
  }

  /** Events that all wait for the other direction leave the state as it
      was. */
  lemma {:induction false} TriggerAllOtherDirection(w: World, env: Env, events: seq<Event>,
                                                   direction: Direction, deviceID: int, now: int)
    requires forall i :: 0 <= i < |events| ==>
      !events[i].kind.GeofenceCounter? && events[i].trigger.Some? && events[i].trigger.value.direction != direction
    ensures TriggerAllSpec(w, env, events, direction, deviceID, now) == (Ok(true), w)
    decreases |events|
  {
    if events != [] {
      OtherDirectionIgnored(w, env, events[0], direction, deviceID, now);
      TriggerAllOtherDirection(w, env, events[1..], direction, deviceID, now);
    }
  }

  /** Triggering stops at the first failing event: the events after it do
      not run. */
  lemma TriggerAllStopsAtFailure(w: World, env: Env, e: Event, rest: seq<Event>,
                                 direction: Direction, deviceID: int, now: int)
    requires CheckTriggerSpec(w, env, e, direction, deviceID, now).0.Err?
    ensures TriggerAllSpec(w, env, [e] + rest, direction, deviceID, now)
         == (Err(Unchecked), CheckTriggerSpec(w, env, e, direction, deviceID, now).1)
  {
    assert ([e] + rest)[0] == e;
  }

  /** A new counter event is bound to a counter that did not exist. */
  lemma OnAddAllocatesFreshCounter(w: World, env: Env, e: Event, now: int)
    requires e.kind.GeofenceCounter? || (e.kind.ModifyCounter? && e.kind.counterID == -1)
    ensures var r := OnAddSpec(w, env, e, now);
      r.0 && !Exists(w.counters, r.1.kind.counterID) && Exists(r.2.counters, r.1.kind.counterID)
      && r.1.kind.counterID >= 1
  {
    var ins := InsertSpec(w.counters);
    assert ins.1[|w.counters|].counterID == ins.0;
  }

  /** A modify-counter event with a preset counter is accepted iff that
      counter exists, and allocates nothing. */
  lemma OnAddChecksPresetCounter(w: World, env: Env, e: Event, now: int)
    requires e.kind.ModifyCounter? && e.kind.counterID != -1
    ensures OnAddSpec(w, env, e, now) == (Exists(w.counters, e.kind.counterID), e, w)
  {
  }

  // ---------------------------------------------------------------------
  // The engine over the connectors

  /** The push client, with the log of requests it posted. */
  class PushGateway {
    const settings: PushSettings
    var posted: seq<Push>

    constructor (settings: PushSettings)
      ensures this.settings == settings && posted == []
    {
      this.settings := settings;
      posted := [];
    }

    method Send(p: Push)
      modifies this
      ensures posted == PushIfPosted(settings, old(posted), p)
    {
      if Posted(settings, p) {
        posted := posted + [p];
      }
    }
  }

  /** The timers: checks waiting to run. */
  class Scheduler {
    var pending: seq<Task>

    constructor ()
      ensures pending == []
    {
      pending := [];
    }

    method Schedule(t: Task)
      modifies this
      ensures pending == old(pending) + [t]
    {
      pending := pending + [t];
    }

    method Take(k: nat) returns (t: Task)
      requires k < |pending|
      modifies this
      ensures t == old(pending)[k] && pending == old(pending)[..k] + old(pending)[k + 1..]
    {
      t := pending[k];
      pending := pending[..k] + pending[k + 1..];
    }
  }

  /** The connectors and clients the events act on. */
  class Backend {
    const db: GeofencingDB
    const counters: CounterDB
    const mail: MailDB
    const transport: MailTransport
    const push: PushGateway
    const scheduler: Scheduler
    const mailSettings: MailSettings
    ghost const Repr: set<object>

    constructor (db: GeofencingDB, counters: CounterDB, mail: MailDB, transport: MailTransport,
                 push: PushGateway, scheduler: Scheduler, mailSettings: MailSettings)
      ensures Valid()
      ensures this.db == db && this.counters == counters && this.mail == mail
      ensures this.transport == transport && this.push == push && this.scheduler == scheduler
      ensures this.mailSettings == mailSettings
    {
      this.db := db;
      this.counters := counters;
      this.mail := mail;
      this.transport := transport;
      this.push := push;
      this.scheduler := scheduler;
      this.mailSettings := mailSettings;
      Repr := {db, counters, mail, transport, push, scheduler};
    }

    ghost predicate Valid()
    {
      Repr == {db, counters, mail, transport, push, scheduler}
    }

    function State(): World
      reads db, counters, mail, transport, push, scheduler
    {
      World(db.Contents(), counters.table, mail.State(), transport.sent, push.posted, scheduler.pending)
    }

    function Environment(): Env
    {
      Env(mailSettings, push.settings, mail.valid, transport.accepts)
    }
  }

  /** The counter connector call a mode selects. */
  method Modify(c: CounterDB, id: int, mode: Mode) returns (r: Result<bool>)
    modifies c
    ensures (r, c.table) == ModifySpec(old(c.table), id, mode)
  {
    var v;
    if mode == Increment {
      v := c.IncrementCounter(id);
    } else if mode == Decrement {
      v := c.DecrementCounter(id);
    } else {
      var z := c.ResetCounter(id);
      v := if z.Ok? then Ok(0) else Err(z.error);
    }
    r := if v.Ok? then Ok(true) else Err(NotFound);
  }

  /** `trigger(deviceID)` of the event's kind. */
  method Act(b: Backend, e: Event, deviceID: int, movement: Direction) returns (r: Result<bool>)
    requires b.Valid()
    modifies b.Repr
    ensures (r, b.State()) == ActSpec(old(b.State()), b.Environment(), e, deviceID, movement)
  {
    match e.kind {
      case ModifyCounter(id, mode) =>
        r := Modify(b.counters, id, mode);
      case GeofenceCounter(id) =>
        r := Modify(b.counters, id, if movement == Enter then Increment else Decrement);
      case SendMail(recipient, title, message) =>
        var _ := SendToConfirmedRecipient(b.mail, b.transport, recipient, title, message);
        r := Ok(true);
      case AdminNotification(title, message) =>
        b.push.Send(Push(title, message, AdminTopic));
        r := Ok(true);
      case DeviceNotification(title, message) =>
        var d := FindDevice(b.db.Contents(), deviceID);
        if d.Err? {
          r := Err(NotFound);
        } else {
          b.push.Send(Push(title, message, TokenDestination(d.value.firebaseToken)));
          r := Ok(true);
        }
    }
  }

  /** `checkTrigger(direction, deviceID)`. */
  method CheckTrigger(b: Backend, e: Event, direction: Direction, deviceID: int, now: int)
    returns (r: Result<Outcome>)
    requires b.Valid()
    modifies b.Repr
    ensures (r, b.State()) == CheckTriggerSpec(old(b.State()), b.Environment(), e, direction, deviceID, now)
  {
    if e.kind.GeofenceCounter? {
      var _ := Act(b, e, deviceID, direction);
      return Ok(Ran);
    }
    if e.trigger.None? {
      return Err(Unchecked);
    }
    if e.trigger.value.direction != direction {
      return Ok(Ignored);
    }
    if e.trigger.value.delay == 0 {
      var _ := Act(b, e, deviceID, direction);
      return Ok(Ran);
    }
    var ms := DelayMillis(e.trigger.value.delay);
    if ms < 0 {
      return Err(Unchecked);
    }
    b.scheduler.Schedule(Task(e, deviceID, direction, now + ms));
    return Ok(Scheduled);
  }

  /** The timer task of pending check `k`. */
  method Fire(b: Backend, k: nat)
    requires b.Valid()
    requires k < |b.scheduler.pending|
    modifies b.Repr
    ensures b.State() == FireSpec(old(b.State()), b.Environment(), k)
  {
    var task := b.scheduler.Take(k);
    var c := ConditionSpec(b.db.Contents(), task.direction, task.event.minor, task.deviceID);
    if c.Ok? && c.value {
      var _ := Act(b, task.event, task.deviceID, task.direction);
    }
  }

  /** A counter event on add: a new counter, and the event bound to it. */
  method BindNewCounter(b: Backend, e: Event) returns (bound: Event)
    requires b.Valid()
    requires e.kind.ModifyCounter? || e.kind.GeofenceCounter?
    modifies b.counters
    ensures var ins := InsertSpec(old(b.counters.table));
      bound == BindCounter(e, ins.0) && b.counters.table == ins.1
  {
    var c := b.counters.InsertCounter();
    bound := BindCounter(e, c);
  }

  /** `onAddToGeofence`. */
  method OnAddToGeofence(b: Backend, e: Event, now: int) returns (ok: bool, bound: Event)
    requires b.Valid()
    modifies b.Repr
    ensures (ok, bound, b.State()) == OnAddSpec(old(b.State()), b.Environment(), e, now)
  {
    bound := e;
    if e.kind.SendMail? {
      var s := SendDefaultVerificationMail(b.mail, b.transport, e.kind.recipient, now, b.mailSettings);
      ok := s == Ok(true);
    } else if e.kind.GeofenceCounter? || (e.kind.ModifyCounter? && e.kind.counterID == -1) {
      bound := BindNewCounter(b, e);
      ok := true;
    } else if e.kind.ModifyCounter? {
      var f := b.counters.FindCounter(e.kind.counterID);
      ok := f.Ok?;
    } else if e.kind.AdminNotification? {
      ok := b.push.settings.adminKey.Some?;
    } else {
      ok := b.push.settings.deviceKey.Some?;
    }
  }
}

=== FILE: events.dfy ===
// Triggers and events. The five event classes of the library become one
// closed datatype; an event is a value, because the core only ever handles
// fresh copies read from the store or received over the wire.

module Events {
  import opened Common

  datatype Direction = Enter | Leave

  /** A trigger: the movement that fires an event and the delay in seconds
      after which the condition is checked again. */
  datatype Trigger = Trigger(direction: Direction, delay: Int32)

  /** `Trigger(direction)`: fires immediately. */
  function ImmediateTrigger(direction: Direction): (t: Trigger)
    ensures t.direction == direction && t.delay == 0
  {
    Trigger(direction, 0)
  }

  /** `equals`: delay, then direction. */
  predicate TriggerEquals(a: Trigger, b: Trigger)
  {
    if a.delay != b.delay then false else a.direction == b.direction
  }

  /** Two triggers are equal iff direction and delay are equal. */
  lemma TriggerEqualsIsStructural(a: Trigger, b: Trigger)
    ensures TriggerEquals(a, b) <==> a.direction == b.direction && a.delay == b.delay
    ensures TriggerEquals(a, b) <==> a == b
  {
  }

  /** `hashCode`. An enum's hash is its identity hash, which the program
      does not fix, so it is a parameter here. */
  function TriggerHash(t: Trigger, directionHash: Direction -> int): (h: int)
    ensures IsInt32(h)
  {
    Wrap32(31 * Wrap32(31 * 1 + t.delay) + directionHash(t.direction))
  }

  lemma TriggerHashRespectsEquals(a: Trigger, b: Trigger, directionHash: Direction -> int)
    requires TriggerEquals(a, b)
    ensures TriggerHash(a, directionHash) == TriggerHash(b, directionHash)
  {
  }

  datatype Mode = Increment | Decrement | Reset

  /** What an event does, with the fields of its class. */
  datatype Kind =
    | ModifyCounter(counterID: int, mode: Mode)
    | GeofenceCounter(counterID: int)
    | SendMail(recipient: string, title: string, message: string)
    | AdminNotification(title: string, message: string)
    | DeviceNotification(title: string, message: string)

  /** An event. `trigger` is None for a geofence counter, whose constructor
      passes a null trigger. */
  datatype Event = Event(
    eventID: int,
    minor: int,
    description: string,
    trigger: Option<Trigger>,
    kind: Kind)

  /** The `classType` recorded by the constructor: the class name. */
  function ClassType(k: Kind): string
  {
    match k
      case ModifyCounter(_, _) => "de.geofencing.event.counter.ModifyCounterEvent"
      case GeofenceCounter(_) => "de.geofencing.event.counter.GeofenceCounterEvent"
      case SendMail(_, _, _) => "de.geofencing.event.mail.SendMailEvent"
      case AdminNotification(_, _) => "de.geofencing.event.notification.AdminNotificationEvent"
      case DeviceNotification(_, _) => "de.geofencing.event.notification.DeviceNotificationEvent"
  }

  /** Distinct classes have distinct class names. */
  lemma ClassTypeIdentifiesKind(a: Kind, b: Kind)
    ensures ClassType(a) == ClassType(b) <==>
      (a.ModifyCounter? && b.ModifyCounter?) || (a.GeofenceCounter? && b.GeofenceCounter?)
      || (a.SendMail? && b.SendMail?) || (a.AdminNotification? && b.AdminNotification?)
      || (a.DeviceNotification? && b.DeviceNotification?)
  {
  }

  // ---------------------------------------------------------------------
  // Constructors: every public constructor leaves the eventID at -1.

  function NewModifyCounterEvent(description: string, minor: int, trigger: Trigger, mode: Mode): (e: Event)
    ensures e.eventID == -1 && e.minor == minor && e.trigger == Some(trigger)
    ensures e.kind == ModifyCounter(-1, mode)
  {
    Event(-1, minor, description, Some(trigger), ModifyCounter(-1, mode))
  }

  function NewModifyCounterEventFor(counterID: int, description: string, minor: int, trigger: Trigger, mode: Mode): (e: Event)
    ensures e.eventID == -1 && e.minor == minor && e.trigger == Some(trigger)
    ensures e.kind == ModifyCounter(counterID, mode)
  {
    Event(-1, minor, description, Some(trigger), ModifyCounter(counterID, mode))
  }

  function NewGeofenceCounterEvent(description: string, minor: int): (e: Event)
    ensures e.eventID == -1 && e.minor == minor && e.trigger.None?
    ensures e.kind == GeofenceCounter(-1)
  {
    Event(-1, minor, description, None, GeofenceCounter(-1))
  }

  function NewSendMailEvent(description: string, minor: int, trigger: Trigger,
                            recipient: string, title: string, message: string): (e: Event)
    ensures e.eventID == -1 && e.minor == minor && e.trigger == Some(trigger)
    ensures e.kind == SendMail(recipient, title, message)
  {
    Event(-1, minor, description, Some(trigger), SendMail(recipient, title, message))
  }

  function NewAdminNotificationEvent(description: string, minor: int, trigger: Trigger,
                                     title: string, message: string): (e: Event)
    ensures e.eventID == -1 && e.minor == minor && e.trigger == Some(trigger)
    ensures e.kind == AdminNotification(title, message)
  {
    Event(-1, minor, description, Some(trigger), AdminNotification(title, message))
  }

  function NewDeviceNotificationEvent(description: string, minor: int, trigger: Trigger,
                                      title: string, message: string): (e: Event)
    ensures e.eventID == -1 && e.minor == minor && e.trigger == Some(trigger)
    ensures e.kind == DeviceNotification(title, message)
  {
    Event(-1, minor, description, Some(trigger), DeviceNotification(title, message))
  }

  /** `setEventID`: the event with only its id replaced. */
  function SetEventID(e: Event, eventID: int): (r: Event)
    ensures r.eventID == eventID
    ensures r.minor == e.minor && r.description == e.description
    ensures r.trigger == e.trigger && r.kind == e.kind
  {
    e.(eventID := eventID)
  }

  /** The counter an event of a counter kind is bound to. */
  function BindCounter(e: Event, counterID: int): (r: Event)
    requires e.kind.ModifyCounter? || e.kind.GeofenceCounter?
    ensures (r.kind.ModifyCounter? || r.kind.GeofenceCounter?) && r.kind.counterID == counterID
    ensures r.eventID == e.eventID && r.minor == e.minor && r.trigger == e.trigger
    ensures r.kind.ModifyCounter? == e.kind.ModifyCounter?
    ensures r.kind.ModifyCounter? ==> r.kind.mode == e.kind.mode
  {
    e.(kind := e.kind.(counterID := counterID))
  }

  // ---------------------------------------------------------------------
  // Identity

  /** `equals`: class, eventID, minor and trigger (null-safe). */
  predicate Equals(a: Event, b: Event)
  {
    if ClassType(a.kind) != ClassType(b.kind) then false
    else if a.eventID != b.eventID then false
    else if a.minor != b.minor then false
    else if a.trigger.None? then b.trigger.None?
    else b.trigger.Some? && TriggerEquals(a.trigger.value, b.trigger.value)
  }

  /** Event identity ignores the description and the kind's own fields
      (counter, recipient, title, message). */
  lemma EqualsIgnoresPayload(a: Event, b: Event)
    ensures Equals(a, b) <==>
      ClassType(a.kind) == ClassType(b.kind) && a.eventID == b.eventID
      && a.minor == b.minor && a.trigger == b.trigger
  {
    if a.trigger.Some? && b.trigger.Some? {
      TriggerEqualsIsStructural(a.trigger.value, b.trigger.value);
    }
  }

  /** `hashCode`: class name, eventID, minor and trigger. */
  function EventHash(e: Event, directionHash: Direction -> int): (h: int)
    ensures IsInt32(h)
  {
    var r1 := Wrap32(31 * 1 + StringHash(ClassType(e.kind)));
    var r2 := Wrap32(31 * r1 + e.eventID);
    var r3 := Wrap32(31 * r2 + e.minor);
    Wrap32(31 * r3 + (if e.trigger.None? then 0 else TriggerHash(e.trigger.value, directionHash)))
  }

  lemma EventHashRespectsEquals(a: Event, b: Event, directionHash: Direction -> int)
    requires Equals(a, b)
    ensures EventHash(a, directionHash) == EventHash(b, directionHash)
  {
    EqualsIgnoresPayload(a, b);
  }

  /** `generateListing`: what `getEventList` reports per event. */
  datatype EventListing = EventListing(
    eventID: int, minor: int, description: string, classType: string, trigger: Option<Trigger>)

  function Listing(e: Event): EventListing
  {
    EventListing(e.eventID, e.minor, e.description, ClassType(e.kind), e.trigger)
  }
}

=== FILE: geofence.dfy ===
// A geofence (Geofence): a minor, a description, its beacons and its
// events, as the server loads it from the database to generate a beacon,
// look up an event or trigger every event on a movement.

module Geofences {
  import opened Common
  import opened Beacons
  import opened Presence
  import opened Events
  import opened Store
  import opened Engine

  /** The majors of a beacon list, in list order. */
  function Majors(s: seq<Beacon>): (r: seq<int>)
    ensures |r| == |s|
    ensures forall i :: 0 <= i < |s| ==> r[i] == s[i].major
  {
    seq(|s|, i requires 0 <= i < |s| => s[i].major)
  }

  /** One step of the trigger loop. */
  lemma TriggerAllStep(w: World, env: Env, events: seq<Event>, i: nat, direction: Direction, deviceID: int, now: int)
    requires i < |events|
    ensures var c := CheckTriggerSpec(w, env, events[i], direction, deviceID, now);
      TriggerAllSpec(w, env, events[i..], direction, deviceID, now)
        == if c.0.Err? then (Err(Unchecked), c.1) else TriggerAllSpec(c.1, env, events[i + 1..], direction, deviceID, now)
  {
    assert events[i..][0] == events[i];
    assert events[i..][1..] == events[i + 1..];
  }

  class Geofence {
    const minor: int
    var description: string
    const beacons: SystemBeacons
    var events: seq<Event>

    /** A new geofence: no beacons and no events. */
    constructor (minor: int, description: string)
      ensures this.minor == minor && this.description == description
      ensures fresh(beacons) && beacons.beaconList == [] && events == []
    {
      this.minor := minor;
      this.description := description;
      beacons := new SystemBeacons();
      events := [];
    }

    /** The geofence as `findGeofence` assembles it from the tables. */
    constructor FromData(d: GeofenceData)
      ensures minor == d.record.minor && description == d.record.description
      ensures fresh(beacons) && beacons.beaconList == d.beacons && events == d.events
    {
      minor := d.record.minor;
      description := d.record.description;
      var sb := new SystemBeacons();
      sb.beaconList := d.beacons;
      beacons := sb;
      events := d.events;
    }

    method SetDescription(description: string)
      modifies this
      ensures this.description == description && events == old(events)
    {
      this.description := description;
    }

    /** `generateListing`: the minor and description. */
    function Listing(): (r: GeofenceRecord)
      reads this
      ensures r.minor == minor && r.description == description
    {
      GeofenceRecord(minor, description)
    }

    /** `nextMajor`: one past the largest major, at least 1. */
    method NextMajor() returns (major: int)
      ensures major == NextId(Majors(beacons.beaconList))
      ensures major >= 1 && forall i :: 0 <= i < |beacons.beaconList| ==> beacons.beaconList[i].major < major
    {
      var list := beacons.beaconList;
      var majors := Majors(list);
      major := 1;
      for i := 0 to |list|
        invariant major == NextId(majors[..i])
      {
        NextIdStep(majors, i);
        if list[i].major >= major {
          major := list[i].major + 1;
        }
      }
      assert majors[..|list|] == majors;
    }

    /** `generateBeacon`: a beacon of this geofence under a major no beacon
        of it uses; it is not added. */
    method GenerateBeacon(uuid: Uuid) returns (b: Beacon)
      ensures b == Unlocated(uuid, NextId(Majors(beacons.beaconList)), minor)
      ensures b.uuid == Some(uuid) && b.minor == minor && b.location.None?
      ensures b.major >= 1
      ensures forall i :: 0 <= i < |beacons.beaconList| ==> beacons.beaconList[i].major != b.major
    {
      var major := NextMajor();
      b := Unlocated(uuid, major, minor);
    }

    /** `getBeacon(major)`: the beacon of this geofence with that major. */
    method GetBeacon(major: int) returns (r: Result<Beacon>)
      ensures r.Ok? ==> r.value.major == major && r.value.minor == minor
      ensures r.Ok? ==> exists i :: 0 <= i < |beacons.beaconList| && beacons.beaconList[i] == r.value
      ensures r.Err? <==> forall j :: 0 <= j < |beacons.beaconList| ==>
                            !(beacons.beaconList[j].major == major && beacons.beaconList[j].minor == minor)
      ensures r.Err? ==> r.error == NotFound
    {
      r := beacons.GetBeacon(major, minor);
    }

    /** `addBeacon`: refuses a beacon with the key of one already held. */
    method AddBeacon(b: Beacon) returns (added: bool)
      modifies beacons
      ensures added <==> !Contains(old(beacons.beaconList), b)
      ensures beacons.beaconList == if added then old(beacons.beaconList) + [b] else old(beacons.beaconList)
    {
      added := beacons.AddBeacon(b);
    }

    /** `getEvent(eventID)`: the first event with that id. */
    method GetEvent(eventID: int) returns (r: Result<Event>)
      ensures r.Ok? ==> r.value.eventID == eventID
      ensures r.Ok? ==> exists i :: 0 <= i < |events| && events[i] == r.value
                          && forall j :: 0 <= j < i ==> events[j].eventID != eventID
      ensures r.Err? <==> forall j :: 0 <= j < |events| ==> events[j].eventID != eventID
      ensures r.Err? ==> r.error == NotFound
    {
      for i := 0 to |events|
        invariant forall j :: 0 <= j < i ==> events[j].eventID != eventID
      {
        if events[i].eventID == eventID {
          return Ok(events[i]);
        }
      }
      return Err(NotFound);
    }

    /** `getEventList`: the listing of every event, in order. */
    method GetEventList() returns (r: seq<EventListing>)
      ensures |r| == |events|
      ensures forall i :: 0 <= i < |events| ==> r[i] == Events.Listing(events[i])
    {
      r := [];
      for i := 0 to |events|
        invariant |r| == i
        invariant forall j :: 0 <= j < i ==> r[j] == Events.Listing(events[j])
      {
        r := r + [Events.Listing(events[i])];
      }
    }

    /** `addEvent`: appends the event. */
    method AddEvent(e: Event) returns (added: bool)
      modifies this
      ensures added && events == old(events) + [e] && description == old(description)
    {
      events := events + [e];
      added := true;
    }

    /** `trigger(direction, deviceID)`: `checkTrigger` on every event in
        order, stopping at the first unchecked exception. */
    method Trigger(b: Backend, direction: Direction, deviceID: int, now: int) returns (r: Result<bool>)
      requires b.Valid()
      modifies b.Repr
      ensures (r, b.State()) == TriggerAllSpec(old(b.State()), b.Environment(), events, direction, deviceID, now)
    {
      var env := b.Environment();
      var list := events;
      ghost var goal := TriggerAllSpec(b.State(), env, list, direction, deviceID, now);
      r := Ok(true);
      for i := 0 to |list|
        invariant b.Environment() == env
        invariant goal == TriggerAllSpec(b.State(), env, list[i..], direction, deviceID, now)
        invariant r.Ok?
      {
        ghost var before := b.State();
        TriggerAllStep(before, env, list, i, direction, deviceID, now);
        var c := CheckTrigger(b, list[i], direction, deviceID, now);
        if c.Err? {
          return Err(Unchecked);
        }
      }
      assert list[|list|..] == [];
    }

    /** Two geofences are equal iff their minors are. */
    predicate Equals(other: Geofence)
      reads this, other
    {
      minor == other.minor
    }

    /** `hashCode`: `31 * 1 + minor` in 32-bit arithmetic. */
    function HashCode(): (h: int)
      ensures IsInt32(h)
      ensures -2147483648 <= minor <= 2147483647 - 31 ==> h == 31 + minor
    {
      Wrap32(31 + minor)
    }
  }

  /** Equal geofences hash alike. */
  lemma GeofenceHashRespectsEquals(a: Geofence, b: Geofence)
    requires a.Equals(b)
    ensures a.HashCode() == b.HashCode()
  {
  }

  /** A generated beacon can be added: its key is not yet held. */
  lemma GeneratedBeaconIsNew(held: seq<Beacon>, b: Beacon)
    requires forall i :: 0 <= i < |held| ==> held[i].major != b.major
    ensures !Contains(held, b)
  {
    KeysMember(held, Key(b));
  }
}

=== FILE: mail.dfy ===
// Mail double opt-in: pending addresses (AddressOnHold), the on-hold and
// confirmed tables (MailDBConnector) and the sequencing of verification
// mails and links (MailInterface).

module Mail {
  import opened Common

  // ---------------------------------------------------------------------
  // Configuration

  /** The configured mail values the core reads. None stands for a key that
      is missing or empty, for which the configuration lookup throws. */
  datatype MailSettings = MailSettings(
    serviceURL: Option<string>,
    confirmationTimeout: Option<Int32>,
    deleteTimeout: Option<Int32>)

  /** The timeouts are configured in seconds and compared in milliseconds. */
  function TimeoutMillis(seconds: Int32): (ms: int)
    ensures ms / 1000 == seconds && ms % 1000 == 0
    ensures seconds >= 0 ==> ms >= 0
  {
    seconds * 1000
  }

  /** The product as the code computes it: in `int` before the widening to
      `long`, so it wraps for more than 2147483 seconds (about 24.8 days). */
  function TimeoutMillisAsWritten(seconds: Int32): (ms: int)
    ensures IsInt32(ms)
    ensures 0 <= seconds <= 2147483 ==> ms == TimeoutMillis(seconds)
  {
    Wrap32(seconds * 1000)
  }

  /** A confirmation window of 30 days becomes negative. */
  lemma TimeoutMillisAsWrittenOverflows()
    ensures TimeoutMillisAsWritten(2592000) == -1702967296
    ensures TimeoutMillis(2592000) == 2592000000
  {
  }

  function ConfirmationMillis(s: MailSettings): (r: Result<int>)
    ensures r.Ok? <==> s.confirmationTimeout.Some?
    ensures r.Err? ==> r.error == Configuration
  {
    match s.confirmationTimeout
      case None => Err(Configuration)
      case Some(t) => Ok(TimeoutMillis(t))
  }

  function DeleteMillis(s: MailSettings): (r: Result<int>)
    ensures r.Ok? <==> s.deleteTimeout.Some?
    ensures r.Err? ==> r.error == Configuration
  {
    match s.deleteTimeout
      case None => Err(Configuration)
      case Some(t) => Ok(TimeoutMillis(t))
  }

  // ---------------------------------------------------------------------
  // AddressOnHold

  /** A pending address and the time its verification was requested. */
  datatype AddressOnHold = AddressOnHold(address: string, verificationRequestTime: int)

  /** `AddressOnHold(address)`: stamped with the current time, which never
      changes afterwards. */
  function NewAddressOnHold(address: string, now: int): (a: AddressOnHold)
    ensures a.address == address && a.verificationRequestTime == now
  {
    AddressOnHold(address, now)
  }

  /** `equals`: only the address. */
  predicate OnHoldEquals(a: AddressOnHold, b: AddressOnHold)
  {
    a.address == b.address
  }

  /** `hashCode`: the address alone, in 31-based int arithmetic. */
  function OnHoldHash(a: AddressOnHold, addressHash: string -> int): (h: int)
    ensures IsInt32(h)
  {
    Wrap32(31 * 1 + addressHash(a.address))
  }

  lemma OnHoldHashRespectsEquals(a: AddressOnHold, b: AddressOnHold, addressHash: string -> int)
    requires OnHoldEquals(a, b)
    ensures OnHoldHash(a, addressHash) == OnHoldHash(b, addressHash)
    ensures a.verificationRequestTime != b.verificationRequestTime ==> a != b
  {
  }

  // ---------------------------------------------------------------------
  // The tables

  datatype MailState = MailState(onHold: seq<AddressOnHold>, confirmed: seq<string>)

  function HasAddress(address: string): AddressOnHold -> bool
  {
    (e: AddressOnHold) => e.address == address
  }

  function IsAddress(address: string): string -> bool
  {
    (x: string) => x == address
  }

  /** At most one pending entry per address. */
  predicate UniqueAddresses(t: seq<AddressOnHold>)
  {
    forall i, j :: 0 <= i < j < |t| ==> t[i].address != t[j].address
  }

  /** Older than the delete timeout (strictly). */
  predicate Expired(e: AddressOnHold, now: int, deleteMs: int)
  {
    now - e.verificationRequestTime > deleteMs
  }

  function Kept(now: int, deleteMs: int): AddressOnHold -> bool
  {
    (e: AddressOnHold) => !Expired(e, now, deleteMs)
  }

  /** `removeExpiredFromOnHold` after it has visited `snapshot`, the table as
      it was when the scan began: each expired entry visited deletes the
      first entry with its address. */
  function PurgeFrom(t: seq<AddressOnHold>, snapshot: seq<AddressOnHold>, now: int, deleteMs: int): (r: seq<AddressOnHold>)
    ensures |r| <= |t|
  {
    if snapshot == [] then t
    else
      var t1 := PurgeFrom(t, snapshot[..|snapshot| - 1], now, deleteMs);
      var e := snapshot[|snapshot| - 1];
      if Expired(e, now, deleteMs) then DeleteOne(t1, HasAddress(e.address)).0 else t1
  }

  /** Part-way through the scan the table has only lost entries. */
  lemma {:induction false} PurgeFromOnlyDeletes(t: seq<AddressOnHold>, snapshot: seq<AddressOnHold>,
                                                now: int, deleteMs: int, x: AddressOnHold)
    ensures x in PurgeFrom(t, snapshot, now, deleteMs) ==> x in t
  {
    if snapshot != [] {
      var n := |snapshot| - 1;
      PurgeFromOnlyDeletes(t, snapshot[..n], now, deleteMs, x);
      var t1 := PurgeFrom(t, snapshot[..n], now, deleteMs);
      var e := snapshot[n];
      if Expired(e, now, deleteMs) && DeleteOne(t1, HasAddress(e.address)).1 {
        var i := DeleteOneIndex(t1, HasAddress(e.address));
        assert x in t1[..i] + t1[i + 1..] ==> x in t1;
      }
    }
  }

  /** A visited prefix with nothing expired leaves the table as it was. */
  lemma {:induction false} PurgeFromUnexpired(t: seq<AddressOnHold>, snapshot: seq<AddressOnHold>,
                                              now: int, deleteMs: int)
    requires forall i :: 0 <= i < |snapshot| ==> !Expired(snapshot[i], now, deleteMs)
    ensures PurgeFrom(t, snapshot, now, deleteMs) == t
  {
    if snapshot != [] {
      var n := |snapshot| - 1;
      assert forall i :: 0 <= i < n ==> snapshot[..n][i] == snapshot[i];
      PurgeFromUnexpired(t, snapshot[..n], now, deleteMs);
    }
  }

  lemma PurgeFromSnoc(t: seq<AddressOnHold>, snapshot: seq<AddressOnHold>, e: AddressOnHold, now: int, deleteMs: int)
    ensures PurgeFrom(t, snapshot + [e], now, deleteMs)
         == if Expired(e, now, deleteMs)
            then DeleteOne(PurgeFrom(t, snapshot, now, deleteMs), HasAddress(e.address)).0
            else PurgeFrom(t, snapshot, now, deleteMs)
  {
    assert (snapshot + [e])[..|snapshot|] == snapshot;
  }

  /** `removeExpiredFromOnHold` over the whole table: it only deletes. */
  function Purge(t: seq<AddressOnHold>, now: int, deleteMs: int): (r: seq<AddressOnHold>)
    ensures |r| <= |t|
  {
    PurgeFrom(t, t, now, deleteMs)
  }

  /** The purge only deletes entries, and deletes none when none is expired. */
  lemma PurgeOnlyDeletes(t: seq<AddressOnHold>, now: int, deleteMs: int)
    ensures forall x :: x in Purge(t, now, deleteMs) ==> x in t
    ensures (forall i :: 0 <= i < |t| ==> !Expired(t[i], now, deleteMs)) ==> Purge(t, now, deleteMs) == t
  {
    forall x | x in Purge(t, now, deleteMs)
      ensures x in t
    {
      PurgeFromOnlyDeletes(t, t, now, deleteMs, x);
    }
    if forall i :: 0 <= i < |t| ==> !Expired(t[i], now, deleteMs) {
      PurgeFromUnexpired(t, t, now, deleteMs);
    }
  }


  lemma {:induction false} FilterKeepsUnique(t: seq<AddressOnHold>, p: AddressOnHold -> bool)
    requires UniqueAddresses(t)
    ensures UniqueAddresses(Filter(t, p))
  {
    if t != [] {
      var init := t[..|t| - 1];
      FilterKeepsUnique(init, p);
      var f := Filter(init, p);
      forall j | 0 <= j < |f|
        ensures f[j] in init
      {
        FilterMembers(init, p, f[j]);
      }
    }
  }

  /** No entry has that address. */
  predicate Avoids(t: seq<AddressOnHold>, address: string)
  {
    forall j :: 0 <= j < |t| ==> t[j].address != address
  }

  /** Deleting the first entry with `e`'s address from `f + [e] + rest`
      removes `e` itself when `f` holds no entry with that address. */
  lemma DeleteAfterPrefix(f: seq<AddressOnHold>, e: AddressOnHold, rest: seq<AddressOnHold>)
    requires Avoids(f, e.address)
    ensures DeleteOne(f + [e] + rest, HasAddress(e.address)).0 == f + rest
  {
    var s := f + [e] + rest;
    assert HasAddress(e.address)(s[|f|]);
    var i := DeleteOneIndex(s, HasAddress(e.address));
    assert i == |f|;
    assert s[..i] == f && s[i + 1..] == rest;
  }

  lemma FilterSnoc(s: seq<AddressOnHold>, p: AddressOnHold -> bool)
    requires s != []
    ensures Filter(s, p) == Filter(s[..|s| - 1], p) + (if p(s[|s| - 1]) then [s[|s| - 1]] else [])
  {
  }

  /** One step of the scan: visiting `e` after `snapshot`. */
  lemma PurgeStep(t: seq<AddressOnHold>, snapshot: seq<AddressOnHold>, e: AddressOnHold,
                  f: seq<AddressOnHold>, rest: seq<AddressOnHold>, now: int, deleteMs: int)
    requires PurgeFrom(t, snapshot, now, deleteMs) == f + [e] + rest
    requires Avoids(f, e.address)
    ensures PurgeFrom(t, snapshot + [e], now, deleteMs)
         == (if Expired(e, now, deleteMs) then f else f + [e]) + rest
  {
    var s := snapshot + [e];
    assert s[..|s| - 1] == snapshot;
    if Expired(e, now, deleteMs) {
      DeleteAfterPrefix(f, e, rest);
    }
  }

  /** No entry kept from before position `i` shares `t[i]`'s address. */
  lemma FilterOfPrefixAvoids(t: seq<AddressOnHold>, i: nat, p: AddressOnHold -> bool)
    requires UniqueAddresses(t) && i < |t|
    ensures Avoids(Filter(t[..i], p), t[i].address)
  {
    var f := Filter(t[..i], p);
    forall j | 0 <= j < |f|
      ensures f[j].address != t[i].address
    {
      FilterMembers(t[..i], p, f[j]);
      var k :| 0 <= k < i && t[k] == f[j];
    }
  }

  lemma FilterPrefixSnoc(t: seq<AddressOnHold>, i: nat, p: AddressOnHold -> bool)
    requires 0 < i <= |t|
    ensures Filter(t[..i], p) == Filter(t[..i - 1], p) + (if p(t[i - 1]) then [t[i - 1]] else [])
  {
    FilterSnoc(t[..i], p);
    assert t[..i][..i - 1] == t[..i - 1];
  }

  /** The scan after `t[..i]` from the scan after `t[..i - 1]`. */
  lemma PurgePrefixStep(t: seq<AddressOnHold>, i: nat, now: int, deleteMs: int)
    requires 0 < i <= |t|
    requires Avoids(Filter(t[..i - 1], Kept(now, deleteMs)), t[i - 1].address)
    requires PurgeFrom(t, t[..i - 1], now, deleteMs) == Filter(t[..i - 1], Kept(now, deleteMs)) + t[i - 1..]
    ensures PurgeFrom(t, t[..i], now, deleteMs) == Filter(t[..i], Kept(now, deleteMs)) + t[i..]
  {
    var p := Kept(now, deleteMs);
    var e := t[i - 1];
    var f := Filter(t[..i - 1], p);
    assert PurgeFrom(t, t[..i - 1], now, deleteMs) == f + [e] + t[i..] by {
      assert t[i - 1..] == [e] + t[i..];
    }
    assert t[..i - 1] + [e] == t[..i];
    PurgeStep(t, t[..i - 1], e, f, t[i..], now, deleteMs);
    FilterPrefixSnoc(t, i, p);
  }

  lemma {:induction false} PurgePrefix(t: seq<AddressOnHold>, i: nat, now: int, deleteMs: int)
    requires UniqueAddresses(t) && i <= |t|
    ensures PurgeFrom(t, t[..i], now, deleteMs) == Filter(t[..i], Kept(now, deleteMs)) + t[i..]
  {
    if i > 0 {
      PurgePrefix(t, i - 1, now, deleteMs);
      FilterOfPrefixAvoids(t, i - 1, Kept(now, deleteMs));
      PurgePrefixStep(t, i, now, deleteMs);
    }
  }

  /** With one entry per address the purge removes exactly the expired
      entries and keeps the others in order. */
  lemma PurgeIsFilter(t: seq<AddressOnHold>, now: int, deleteMs: int)
    requires UniqueAddresses(t)
    ensures Purge(t, now, deleteMs) == Filter(t, Kept(now, deleteMs))
    ensures UniqueAddresses(Purge(t, now, deleteMs))
  {
    PurgePrefix(t, |t|, now, deleteMs);
    assert t[..|t|] == t;
    FilterKeepsUnique(t, Kept(now, deleteMs));
  }

  /** With the delete timeout computed as written, 30 days, an entry
      stamped this very moment is already purged; with the intended
      product it stays. */
  lemma PurgeAsWrittenDropsFreshEntry(address: string, now: int)
    ensures Purge([AddressOnHold(address, now)], now, TimeoutMillisAsWritten(2592000)) == []
    ensures Purge([AddressOnHold(address, now)], now, TimeoutMillis(2592000)) == [AddressOnHold(address, now)]
  {
    var t := [AddressOnHold(address, now)];
    assert t[..0] == [];
    assert PurgeFrom(t, t[..0], now, TimeoutMillisAsWritten(2592000)) == t;
    assert PurgeFrom(t, t[..0], now, TimeoutMillis(2592000)) == t;
  }

  /** `findMailOnHold`: purge (reading deleteTimeout), then the first
      pending entry of the address. */
  function FindOnHoldSpec(t: seq<AddressOnHold>, recipient: string, now: int, settings: MailSettings)
    : (r: (Result<AddressOnHold>, seq<AddressOnHold>))
    ensures settings.deleteTimeout.None? ==> r == (Err(Configuration), t)
    ensures settings.deleteTimeout.Some? ==> r.1 == Purge(t, now, DeleteMillis(settings).value)
    ensures r.0.Err? && settings.deleteTimeout.Some? ==> r.0.error == NotFound
    ensures r.0.Err? && settings.deleteTimeout.Some? ==> forall j :: 0 <= j < |r.1| ==> r.1[j].address != recipient
    ensures r.0.Ok? ==> r.0.value in r.1 && r.0.value.address == recipient
  {
    match DeleteMillis(settings)
      case Err(e) => (Err(e), t)
      case Ok(d) =>
        var p := Purge(t, now, d);
        (FindFirst(p, HasAddress(recipient)), p)
  }

  /** `addAddressOnHold`. */
  function AddOnHoldSpec(st: MailState, recipient: string, now: int, settings: MailSettings,
                         valid: string -> bool): (r: (Result<bool>, MailState))
    ensures r.1.confirmed == st.confirmed
    ensures !valid(recipient) ==> r == (Err(InvalidAddress), st)
    ensures valid(recipient) && recipient in st.confirmed ==> r == (Ok(true), st)
    ensures r.0.Err? ==> r.0.error in {InvalidAddress, Configuration}
  {
    if !valid(recipient) then (Err(InvalidAddress), st)
    else if recipient in st.confirmed then (Ok(true), st)
    else
      var f := FindOnHoldSpec(st.onHold, recipient, now, settings);
      var t := f.1;
      if f.0.Err? then
        if f.0.error == NotFound then (Ok(true), st.(onHold := t + [NewAddressOnHold(recipient, now)]))
        else (Err(f.0.error), st.(onHold := t))
      else
        match ConfirmationMillis(settings)
          case Err(e) => (Err(e), st.(onHold := t))
          case Ok(c) =>
            if now - f.0.value.verificationRequestTime < c then (Ok(false), st.(onHold := t))
            else (Ok(true), st.(onHold := DeleteOne(t, HasAddress(recipient)).0 + [NewAddressOnHold(recipient, now)]))
  }

  /** `confirmMailaddress`. */
  function ConfirmSpec(st: MailState, recipient: string, now: int, settings: MailSettings,
                       valid: string -> bool): (r: (Result<bool>, MailState))
    ensures recipient in st.confirmed ==> r == (Ok(true), st)
    ensures recipient !in st.confirmed && settings.deleteTimeout.Some? ==>
      r.1.onHold == Purge(st.onHold, now, DeleteMillis(settings).value)
    ensures r.1.onHold == st.onHold || r.1.onHold == FindOnHoldSpec(st.onHold, recipient, now, settings).1
    ensures r.1.confirmed == st.confirmed || (r.0 == Ok(true) && r.1.confirmed == st.confirmed + [recipient])
    ensures r.0 == Ok(false) ==> r.1.confirmed == st.confirmed
  {
    if recipient in st.confirmed then (Ok(true), st)
    else
      var f := FindOnHoldSpec(st.onHold, recipient, now, settings);
      var st1 := st.(onHold := f.1);
      if f.0.Err? then (Err(f.0.error), st1)
      else
        match ConfirmationMillis(settings)
          case Err(e) => (Err(e), st1)
          case Ok(c) =>
            if now - f.0.value.verificationRequestTime < c then
              if !valid(recipient) then (Err(InvalidAddress), st1)
              else (Ok(true), st1.(confirmed := st.confirmed + [recipient]))
            else (Ok(false), st1)
  }

  /** `unregisterMailaddress`: removes one confirmed occurrence. */
  function UnregisterSpec(st: MailState, recipient: string, valid: string -> bool): (r: (Result<bool>, MailState))
    ensures r.0.Ok? <==> valid(recipient) && recipient in st.confirmed
    ensures r.0.Ok? ==> r.0.value && |r.1.confirmed| == |st.confirmed| - 1
    ensures r.0.Err? ==> r.1 == st && r.0.error == (if valid(recipient) then NotFound else InvalidAddress)
    ensures r.1.onHold == st.onHold
  {
    if !valid(recipient) then (Err(InvalidAddress), st)
    else
      var d := DeleteOne(st.confirmed, IsAddress(recipient));
      if d.1 then (Ok(true), st.(confirmed := d.0))
      else (Err(NotFound), st)
  }

  /** Unregistering removes one occurrence of the address and nothing else. */
  lemma UnregisterRemovesOne(st: MailState, recipient: string, valid: string -> bool)
    requires UnregisterSpec(st, recipient, valid).0.Ok?
    ensures multiset(UnregisterSpec(st, recipient, valid).1.confirmed)
            == multiset(st.confirmed) - multiset{recipient}
  {
    var c := st.confirmed;
    var i := DeleteOneIndex(c, IsAddress(recipient));
    assert UnregisterSpec(st, recipient, valid).1.confirmed == c[..i] + c[i + 1..];
    MultisetRemoveAt(c, i);
  }

  /** `removeOnHoldMail`. */
  function RemoveOnHoldSpec(t: seq<AddressOnHold>, recipient: string): (r: (Result<bool>, seq<AddressOnHold>))
    ensures r.0.Ok? <==> exists j :: 0 <= j < |t| && t[j].address == recipient
    ensures r.0.Ok? ==> r.0.value && |r.1| == |t| - 1
    ensures r.0.Err? ==> r.0.error == NotFound && r.1 == t
  {
    var d := DeleteOne(t, HasAddress(recipient));
    if d.1 then (Ok(true), d.0) else (Err(NotFound), t)
  }

  /** Removing the entry of an address, when there is one entry per
      address, leaves none for it and keeps the others unique. */
  lemma RemoveOnHoldClears(t: seq<AddressOnHold>, recipient: string)
    requires UniqueAddresses(t)
    ensures var r := RemoveOnHoldSpec(t, recipient).1;
      UniqueAddresses(r) && Avoids(r, recipient)
  {
    if DeleteOne(t, HasAddress(recipient)).1 {
      var i := DeleteOneIndex(t, HasAddress(recipient));
      RemoveAtIndex(t, i);
    }
  }

  // ---------------------------------------------------------------------
  // Properties of the opt-in

  /** Appending an entry for an address the table avoids keeps it unique. */
  lemma AppendFresh(t: seq<AddressOnHold>, e: AddressOnHold)
    requires UniqueAddresses(t) && Avoids(t, e.address)
    ensures UniqueAddresses(t + [e])
    ensures (t + [e])[..|t|] == t
  {
  }

  /** Adding keeps one pending entry per address, and a successful add on an
      unconfirmed address leaves exactly one entry for it, stamped now, at
      the end of the table. */
  lemma AddLeavesOnePending(st: MailState, recipient: string, now: int, settings: MailSettings, valid: string -> bool)
    requires UniqueAddresses(st.onHold)
    ensures UniqueAddresses(AddOnHoldSpec(st, recipient, now, settings, valid).1.onHold)
    ensures var t := AddOnHoldSpec(st, recipient, now, settings, valid).1.onHold;
      AddOnHoldSpec(st, recipient, now, settings, valid).0 == Ok(true) && recipient !in st.confirmed ==>
        |t| > 0 && t[|t| - 1] == AddressOnHold(recipient, now) && Avoids(t[..|t| - 1], recipient)
  {
    if valid(recipient) && recipient !in st.confirmed && settings.deleteTimeout.Some? {
      var p := Purge(st.onHold, now, DeleteMillis(settings).value);
      PurgeIsFilter(st.onHold, now, DeleteMillis(settings).value);
      var f := FindOnHoldSpec(st.onHold, recipient, now, settings);
      var e := NewAddressOnHold(recipient, now);
      if f.0.Err? {
        AppendFresh(p, e);
      } else if settings.confirmationTimeout.Some? {
        RemoveOnHoldClears(p, recipient);
        var q := RemoveOnHoldSpec(p, recipient).1;
        assert DeleteOne(p, HasAddress(recipient)).0 == q;
        AppendFresh(q, e);
      }
    }
  }

  /** An unconfirmed address is refused (false) exactly when, after the
      purge, it has a pending entry younger than the confirmation timeout. */
  lemma AddRefusesYoungPending(st: MailState, recipient: string, now: int, settings: MailSettings, valid: string -> bool)
    requires UniqueAddresses(st.onHold)
    requires valid(recipient) && recipient !in st.confirmed
    requires settings.deleteTimeout.Some? && settings.confirmationTimeout.Some?
    ensures var p := Purge(st.onHold, now, DeleteMillis(settings).value);
      AddOnHoldSpec(st, recipient, now, settings, valid).0 == Ok(false) <==>
        exists j :: 0 <= j < |p| && p[j].address == recipient
          && now - p[j].verificationRequestTime < ConfirmationMillis(settings).value
  {
    var p := Purge(st.onHold, now, DeleteMillis(settings).value);
    PurgeIsFilter(st.onHold, now, DeleteMillis(settings).value);
    var f := FindOnHoldSpec(st.onHold, recipient, now, settings);
    if f.0.Ok? {
      var k :| 0 <= k < |p| && p[k] == f.0.value;
      assert forall j :: 0 <= j < |p| && p[j].address == recipient ==> j == k;
    }
  }

  /** The double opt-in round trip: after a successful add, confirming
      within both timeouts succeeds and records the address as confirmed. */
  lemma AddThenConfirm(st: MailState, recipient: string, now: int, later: int,
                       settings: MailSettings, valid: string -> bool)
    requires UniqueAddresses(st.onHold)
    requires recipient !in st.confirmed
    requires settings.deleteTimeout.Some? && settings.confirmationTimeout.Some?
    requires AddOnHoldSpec(st, recipient, now, settings, valid).0 == Ok(true)
    requires later - now < ConfirmationMillis(settings).value
    requires later - now <= DeleteMillis(settings).value
    ensures var st1 := AddOnHoldSpec(st, recipient, now, settings, valid).1;
      var r := ConfirmSpec(st1, recipient, later, settings, valid);
      r.0 == Ok(true) && r.1.confirmed == st.confirmed + [recipient]
  {
    var st1 := AddOnHoldSpec(st, recipient, now, settings, valid).1;
    AddLeavesOnePending(st, recipient, now, settings, valid);
    var t := st1.onHold;
    var d := DeleteMillis(settings).value;
    PurgeIsFilter(t, later, d);
    var entry := t[|t| - 1];
    assert entry in t && Kept(later, d)(entry);
    var p := Purge(t, later, d);
    FilterMembers(t, Kept(later, d), entry);
    var f := FindOnHoldSpec(t, recipient, later, settings);
    assert f.0.Ok?;
    FilterMembers(t, Kept(later, d), f.0.value);
    var k :| 0 <= k < |t| && t[k] == f.0.value;
    assert k == |t| - 1;
  }

  /** Confirming never deletes the pending entry: the table after a
      confirmation is the purged table, which still holds any unexpired
      entry. */
  lemma ConfirmKeepsPending(st: MailState, recipient: string, now: int, settings: MailSettings,
                            valid: string -> bool, e: AddressOnHold)
    requires UniqueAddresses(st.onHold)
    requires settings.deleteTimeout.Some?
    requires e in st.onHold && !Expired(e, now, DeleteMillis(settings).value)
    ensures e in ConfirmSpec(st, recipient, now, settings, valid).1.onHold
  {
    PurgeIsFilter(st.onHold, now, DeleteMillis(settings).value);
    FilterMembers(st.onHold, Kept(now, DeleteMillis(settings).value), e);
  }

  // ---------------------------------------------------------------------
  // The connector over the tables

  class MailDB {
    var onHold: seq<AddressOnHold>
    var confirmed: seq<string>
    /** Whether `new InternetAddress(a)` accepts the text. */
    const valid: string -> bool

    constructor (valid: string -> bool)
      ensures onHold == [] && confirmed == [] && this.valid == valid
    {
      onHold := [];
      confirmed := [];
      this.valid := valid;
    }

    function State(): MailState
      reads this
    {
      MailState(onHold, confirmed)
    }

    /** `removeExpiredFromOnHold`: the scan over the table as it was. */
    method RemoveExpiredFromOnHold(now: int, deleteMs: int)
      modifies this
      ensures onHold == Purge(old(onHold), now, deleteMs)
      ensures confirmed == old(confirmed)
    {
      var snapshot := onHold;
      for i := 0 to |snapshot|
        invariant onHold == PurgeFrom(snapshot, snapshot[..i], now, deleteMs)
        invariant confirmed == old(confirmed)
      {
        var e := snapshot[i];
        assert snapshot[..i + 1] == snapshot[..i] + [e];
        PurgeFromSnoc(snapshot, snapshot[..i], e, now, deleteMs);
        if now - e.verificationRequestTime > deleteMs {
          var _ := RemoveOnHoldMail(e.address);
        }
      }
      assert snapshot[..|snapshot|] == snapshot;
    }

    method FindMailOnHold(recipient: string, now: int, settings: MailSettings) returns (r: Result<AddressOnHold>)
      modifies this
      ensures (r, onHold) == FindOnHoldSpec(old(onHold), recipient, now, settings)
      ensures confirmed == old(confirmed)
    {
      if settings.deleteTimeout.None? {
        return Err(Configuration);
      }
      RemoveExpiredFromOnHold(now, TimeoutMillis(settings.deleteTimeout.value));
      r := FindFirst(onHold, HasAddress(recipient));
    }

    method InsertOnHoldMail(recipient: string, now: int)
      modifies this
      ensures onHold == old(onHold) + [NewAddressOnHold(recipient, now)]
      ensures confirmed == old(confirmed)
    {
      onHold := onHold + [NewAddressOnHold(recipient, now)];
    }

    method InsertConfirmedMail(recipient: string)
      modifies this
      ensures confirmed == old(confirmed) + [recipient]
      ensures onHold == old(onHold)
    {
      confirmed := confirmed + [recipient];
    }

    method RemoveOnHoldMail(recipient: string) returns (r: Result<bool>)
      modifies this
      ensures (r, onHold) == RemoveOnHoldSpec(old(onHold), recipient)
      ensures confirmed == old(confirmed)
    {
      var d := DeleteOne(onHold, HasAddress(recipient));
      if d.1 {
        onHold := d.0;
        return Ok(true);
      }
      return Err(NotFound);
    }

    method RemoveConfirmedMail(recipient: string) returns (r: Result<bool>)
      modifies this
      ensures r.Ok? <==> recipient in old(confirmed)
      ensures r.Ok? ==> r.value && confirmed == DeleteOne(old(confirmed), IsAddress(recipient)).0
      ensures r.Err? ==> r.error == NotFound && confirmed == old(confirmed)
      ensures onHold == old(onHold)
    {
      var d := DeleteOne(confirmed, IsAddress(recipient));
      if d.1 {
        confirmed := d.0;
        return Ok(true);
      }
      return Err(NotFound);
    }

    method AddAddressOnHold(recipient: string, now: int, settings: MailSettings) returns (r: Result<bool>)
      modifies this
      ensures (r, State()) == AddOnHoldSpec(old(State()), recipient, now, settings, valid)
    {
      if !valid(recipient) {
        return Err(InvalidAddress);
      }
      if recipient !in confirmed {
        var found := FindMailOnHold(recipient, now, settings);
        if found.Err? && found.error != NotFound {
          return Err(found.error);
        }
        if found.Ok? {
          if settings.confirmationTimeout.None? {
            return Err(Configuration);
          }
          var timeout := TimeoutMillis(settings.confirmationTimeout.value);
          if now - found.value.verificationRequestTime < timeout {
            return Ok(false);
          }
          var _ := RemoveOnHoldMail(recipient);
        }
        InsertOnHoldMail(recipient, now);
      }
      return Ok(true);
    }

    method ConfirmMailaddress(recipient: string, now: int, settings: MailSettings) returns (r: Result<bool>)
      modifies this
      ensures (r, State()) == ConfirmSpec(old(State()), recipient, now, settings, valid)
    {
      if recipient in confirmed {
        return Ok(true);
      }
      var found := FindMailOnHold(recipient, now, settings);
      if found.Err? {
        return Err(found.error);
      }
      if settings.confirmationTimeout.None? {
        return Err(Configuration);
      }
      var timeout := TimeoutMillis(settings.confirmationTimeout.value);
      if now - found.value.verificationRequestTime < timeout {
        if !valid(recipient) {
          return Err(InvalidAddress);
        }
        InsertConfirmedMail(recipient);
        return Ok(true);
      }
      return Ok(false);
    }

    method UnregisterMailaddress(recipient: string) returns (r: Result<bool>)
      modifies this
      ensures (r, State()) == UnregisterSpec(old(State()), recipient, valid)
    {
      if !valid(recipient) {
        return Err(InvalidAddress);
      }
      r := RemoveConfirmedMail(recipient);
    }
  }

  // ---------------------------------------------------------------------
  // Sending (MailInterface)

  datatype Mail = Mail(recipient: string, subject: string, text: string)

  /** The mail server. `accepts` says whether a send goes through; a send
      fails for a server, session, encoding or mail configuration error. */
  class MailTransport {
    const accepts: Mail -> bool
    var sent: seq<Mail>

    constructor (accepts: Mail -> bool)
      ensures this.accepts == accepts && sent == []
    {
      this.accepts := accepts;
      sent := [];
    }

    /** `send`: true, or MailException. */
    method Send(m: Mail) returns (r: Result<bool>)
      modifies this
      ensures accepts(m) ==> r == Ok(true) && sent == old(sent) + [m]
      ensures !accepts(m) ==> r == Err(MailFailure) && sent == old(sent)
    {
      if accepts(m) {
        sent := sent + [m];
        return Ok(true);
      }
      return Err(MailFailure);
    }
  }

  /** `getServiceURL` as written: the extra "/" is added only when the URL
      already ends in one. */
  function ServiceURLAsWritten(settings: MailSettings): (r: Result<string>)
    ensures r.Ok? <==> settings.serviceURL.Some? && settings.serviceURL.value != ""
    ensures r.Err? ==> r.error == Configuration
  {
    match settings.serviceURL
      case None => Err(Configuration)
      case Some(url) =>
        if url == "" then Err(Configuration)
        else if url[|url| - 1] == '/' then Ok(url + "/")
        else Ok(url)
  }

  /** The configured URL never comes out ending in exactly one "/": a URL
      with a trailing "/" gets a second one, a URL without keeps none. */
  lemma ServiceURLAsWrittenMisplacesSlash(url: string)
    requires url != ""
    ensures var r := ServiceURLAsWritten(MailSettings(Some(url), None, None));
      EndsWithSlash(url) ==> r.value == url + "/" && r.value[|r.value| - 2..] == "//"
    ensures var r := ServiceURLAsWritten(MailSettings(Some(url), None, None));
      !EndsWithSlash(url) ==> !EndsWithSlash(r.value)
  {
  }

  /** `getServiceURL` as intended: the configured URL with a trailing "/". */
  function ServiceURL(settings: MailSettings): (r: Result<string>)
    ensures r.Ok? <==> settings.serviceURL.Some? && settings.serviceURL.value != ""
    ensures r.Ok? ==> EndsWithSlash(r.value) && r.value == WithTrailingSlash(settings.serviceURL.value)
    ensures r.Err? ==> r.error == Configuration
  {
    match settings.serviceURL
      case None => Err(Configuration)
      case Some(url) =>
        if url == "" then Err(Configuration)
        else Ok(WithTrailingSlash(url))
  }

  function VerificationLink(settings: MailSettings, recipient: string): (r: Result<string>)
    ensures r.Ok? <==> ServiceURL(settings).Ok?
    ensures r.Err? ==> r.error == Configuration
  {
    var base :- ServiceURL(settings);
    Ok(base + "verification/" + recipient)
  }

  function UnsubscribeLink(settings: MailSettings, recipient: string): (r: Result<string>)
    ensures r.Ok? <==> ServiceURL(settings).Ok?
    ensures r.Err? ==> r.error == Configuration
  {
    var base :- ServiceURL(settings);
    Ok(base + "unsubscribe/" + recipient)
  }

  /** Both links put exactly one "/" between the configured URL and the
      path, whether or not the URL ends in "/". */
  lemma LinksJoinWithOneSlash(url: string, recipient: string, settings: MailSettings)
    requires settings.serviceURL == Some(url) && url != ""
    ensures EndsWithSlash(url) ==>
      VerificationLink(settings, recipient) == Ok(url + "verification/" + recipient)
      && UnsubscribeLink(settings, recipient) == Ok(url + "unsubscribe/" + recipient)
    ensures !EndsWithSlash(url) ==>
      VerificationLink(settings, recipient) == Ok(url + "/verification/" + recipient)
      && UnsubscribeLink(settings, recipient) == Ok(url + "/unsubscribe/" + recipient)
  {
    if !EndsWithSlash(url) {
      assert url + "/" + "verification/" + recipient == url + "/verification/" + recipient;
      assert url + "/" + "unsubscribe/" + recipient == url + "/unsubscribe/" + recipient;
    }
  }

  const VERIFICATION_SUBJECT: string := "E-Mail Verification Request"

  /** The minutes the default text announces: the timeout in seconds divided
      by 60, truncated. */
  function TimeoutMinutes(seconds: Int32): (m: int)
    ensures seconds >= 0 ==> 0 <= seconds - 60 * m < 60
    ensures seconds < 0 ==> -60 < seconds - 60 * m <= 0
  {
    JavaDiv(seconds, 60)
  }

  const VERIFICATION_GREETING: string := "Please click the following link to verifiy your mail address ("

  /** The body of the default verification mail: the greeting naming the
      recipient, the verification link, the minutes until it expires and,
      last, the unsubscribe link. */
  function VerificationText(recipient: string, verificationLink: string, minutes: int,
                            unsubscribeLink: string): (r: string)
    ensures VERIFICATION_GREETING + recipient <= r
    ensures |r| >= |unsubscribeLink| && r[|r| - |unsubscribeLink|..] == unsubscribeLink
    ensures var k := |VERIFICATION_GREETING + recipient| + 6;
      k + |verificationLink| <= |r| && r[k..k + |verificationLink|] == verificationLink
  {
    var head := VERIFICATION_GREETING + recipient + "): \n\n\n";
    var middle := "\n\n\n" + "This Link expiers in " + IntToString(minutes) + " minutes"
      + "\n\n Unsubscribe here: ";
    var text := head + verificationLink + middle + unsubscribeLink;
    assert text[|head|..|head| + |verificationLink|] == verificationLink;
    assert text[..|VERIFICATION_GREETING + recipient|] == VERIFICATION_GREETING + recipient;
    text
  }


  /** `sendVerificationMail`: register the pending entry, then send; a
      failed send removes the entry again. The mails sent are returned. */
  function SendVerificationSpec(st: MailState, recipient: string, subject: string, text: string,
                                now: int, settings: MailSettings, valid: string -> bool,
                                accepts: Mail -> bool): (r: (Result<bool>, MailState, seq<Mail>))
    ensures r.2 == [] || r.2 == [Mail(recipient, subject, text)]
    ensures r.0 == Ok(true) <==> AddOnHoldSpec(st, recipient, now, settings, valid).0 == Ok(true)
                                 && accepts(Mail(recipient, subject, text))
    ensures r.2 != [] <==> r.0 == Ok(true)
    ensures r.0 == Ok(false) <==> AddOnHoldSpec(st, recipient, now, settings, valid).0 == Ok(false)
    ensures r.1.confirmed == st.confirmed
  {
    var a := AddOnHoldSpec(st, recipient, now, settings, valid);
    if a.0.Err? then (Err(a.0.error), a.1, [])
    else if !a.0.value then (Ok(false), a.1, [])
    else
      var m := Mail(recipient, subject, text);
      if accepts(m) then (Ok(true), a.1, [m])
      else (Err(MailFailure), a.1.(onHold := RemoveOnHoldSpec(a.1.onHold, recipient).1), [])
  }

  /** A failed verification send leaves no pending entry for the address. */
  lemma FailedVerificationRollsBack(st: MailState, recipient: string, subject: string, text: string,
                                    now: int, settings: MailSettings, valid: string -> bool,
                                    accepts: Mail -> bool)
    requires UniqueAddresses(st.onHold)
    requires SendVerificationSpec(st, recipient, subject, text, now, settings, valid, accepts).0 == Err(MailFailure)
    ensures var t := SendVerificationSpec(st, recipient, subject, text, now, settings, valid, accepts).1.onHold;
      UniqueAddresses(t) && Avoids(t, recipient)
  {
    AddLeavesOnePending(st, recipient, now, settings, valid);
    RemoveOnHoldClears(AddOnHoldSpec(st, recipient, now, settings, valid).1.onHold, recipient);
  }

  /** `sendDefaultVerificationMail`: the default subject and text. */
  function SendDefaultVerificationSpec(st: MailState, recipient: string, now: int, settings: MailSettings,
                                       valid: string -> bool, accepts: Mail -> bool)
    : (r: (Result<bool>, MailState, seq<Mail>))
    ensures settings.confirmationTimeout.None? || ServiceURL(settings).Err? ==> r == (Err(Configuration), st, [])
    ensures r.2 != [] ==> r.2[0].recipient == recipient && r.2[0].subject == VERIFICATION_SUBJECT
  {
    match settings.confirmationTimeout
      case None => (Err(Configuration), st, [])
      case Some(ct) =>
        match VerificationLink(settings, recipient)
          case Err(e) => (Err(e), st, [])
          case Ok(v) =>
            match UnsubscribeLink(settings, recipient)
              case Err(e) => (Err(e), st, [])
              case Ok(u) =>
                var text := VerificationText(recipient, v, TimeoutMinutes(ct), u);
                SendVerificationSpec(st, recipient, VERIFICATION_SUBJECT, text, now, settings, valid, accepts)
  }

  /** `sendToConfirmedRecipient`: the confirmation lookup's answer is
      discarded, so the mail goes out whether or not the address is
      confirmed. */
  function SendToConfirmedSpec(st: MailState, recipient: string, subject: string, text: string,
                               accepts: Mail -> bool): (r: (Result<bool>, seq<Mail>))
    ensures r.0.Ok? ==> r.0.value && r.1 == [Mail(recipient, subject, text)]
    ensures r.0.Err? ==> r.0.error == MailFailure && r.1 == []
    ensures r.0.Ok? <==> accepts(Mail(recipient, subject, text))
  {
    var _ := recipient in st.confirmed;
    var m := Mail(recipient, subject, text);
    if accepts(m) then (Ok(true), [m]) else (Err(MailFailure), [])
  }

  lemma SendToConfirmedIgnoresConfirmation(st1: MailState, st2: MailState, recipient: string,
                                          subject: string, text: string, accepts: Mail -> bool)
    requires recipient in st1.confirmed && recipient !in st2.confirmed
    ensures SendToConfirmedSpec(st1, recipient, subject, text, accepts)
         == SendToConfirmedSpec(st2, recipient, subject, text, accepts)
  {
  }

  method SendToConfirmedRecipient(db: MailDB, transport: MailTransport,
                                  recipient: string, subject: string, text: string) returns (r: Result<bool>)
    modifies transport
    ensures var s := SendToConfirmedSpec(db.State(), recipient, subject, text, transport.accepts);
      r == s.0 && transport.sent == old(transport.sent) + s.1
  {
    var _ := recipient in db.confirmed;
    r := transport.Send(Mail(recipient, subject, text));
  }

  method SendVerificationMail(db: MailDB, transport: MailTransport, recipient: string, subject: string,
                              text: string, now: int, settings: MailSettings) returns (r: Result<bool>)
    modifies db, transport
    ensures var s := SendVerificationSpec(old(db.State()), recipient, subject, text, now, settings,
                                          db.valid, transport.accepts);
      r == s.0 && db.State() == s.1 && transport.sent == old(transport.sent) + s.2
  {
    var added := db.AddAddressOnHold(recipient, now, settings);
    if added.Err? {
      return Err(added.error);
    }
    if !added.value {
      return Ok(false);
    }
    r := transport.Send(Mail(recipient, subject, text));
    if r.Err? {
      var _ := db.RemoveOnHoldMail(recipient);
      return Err(MailFailure);
    }
  }

  method SendDefaultVerificationMail(db: MailDB, transport: MailTransport, recipient: string,
                                     now: int, settings: MailSettings) returns (r: Result<bool>)
    modifies db, transport
    ensures var s := SendDefaultVerificationSpec(old(db.State()), recipient, now, settings,
                                                 db.valid, transport.accepts);
      r == s.0 && db.State() == s.1 && transport.sent == old(transport.sent) + s.2
  {
    if settings.confirmationTimeout.None? {
      return Err(Configuration);
    }
    var minutes := TimeoutMinutes(settings.confirmationTimeout.value);
    var v := VerificationLink(settings, recipient);
    if v.Err? {
      return Err(v.error);
    }
    var u := UnsubscribeLink(settings, recipient);
    var text := VerificationText(recipient, v.value, minutes, u.value);
    r := SendVerificationMail(db, transport, recipient, VERIFICATION_SUBJECT, text, now, settings);
  }
}

=== FILE: presence.dfy ===
// The beacon set of a device or geofence (SystemBeacons) and the presence
// diff it computes (compare, BeaconChange).

module Presence {
  import opened Common
  import opened Beacons

  // ---------------------------------------------------------------------
  // Specification of beacon lists. `ArrayList.contains` and `remove` use
  // `equals`, so membership is membership of the identity key.

  function Keys(s: seq<Beacon>): set<BeaconKey>
  {
    if s == [] then {} else Keys(s[..|s| - 1]) + {Key(s[|s| - 1])}
  }

  /** `list.contains(b)`. */
  predicate Contains(s: seq<Beacon>, b: Beacon)
  {
    Key(b) in Keys(s)
  }

  /** No two entries of the list are equal beacons. */
  predicate NoDup(s: seq<Beacon>)
  {
    forall i, j :: 0 <= i < j < |s| ==> Key(s[i]) != Key(s[j])
  }

  /** The entries of `s` that `other` does not contain, in the order of `s`. */
  function Without(s: seq<Beacon>, other: seq<Beacon>): (r: seq<Beacon>)
    ensures |r| <= |s|
  {
    if s == [] then []
    else
      var last := s[|s| - 1];
      Without(s[..|s| - 1], other) + (if Contains(other, last) then [] else [last])
  }

  /** How many entries of `updated` the list `current` contains: the amount
      `compare` subtracts from its `listSize` counter. */
  function Shared(current: seq<Beacon>, updated: seq<Beacon>): nat
  {
    if updated == [] then 0
    else
      Shared(current, updated[..|updated| - 1])
        + (if Contains(current, updated[|updated| - 1]) then 1 else 0)
  }

  /** The left list `compare` reports: the current entries missing from the
      update, but only when the counter shortcut says some are missing. */
  function LeftReported(current: seq<Beacon>, updated: seq<Beacon>): seq<Beacon>
  {
    if |current| - Shared(current, updated) > 0 then Without(current, updated) else []
  }

  // ---------------------------------------------------------------------
  // Lemmas about the list specification

  /** One more entry of `s`: the step of both `compare` loops. */
  lemma PrefixStep(s: seq<Beacon>, other: seq<Beacon>, i: nat)
    requires i < |s|
    ensures Without(s[..i + 1], other) == Without(s[..i], other) + (if Contains(other, s[i]) then [] else [s[i]])
    ensures Shared(other, s[..i + 1]) == Shared(other, s[..i]) + (if Contains(other, s[i]) then 1 else 0)
  {
    assert s[..i + 1][..i] == s[..i];
  }

  lemma KeysSnoc(s: seq<Beacon>, b: Beacon)
    ensures Keys(s + [b]) == Keys(s) + {Key(b)}
  {
    assert (s + [b])[..|s|] == s;
  }

  lemma KeysInit(s: seq<Beacon>)
    requires s != []
    ensures Keys(s) == Keys(s[..|s| - 1]) + {Key(s[|s| - 1])}
  {
  }

  /** A key belongs to the list's keys iff some entry carries it. */
  lemma {:induction false} KeysMember(s: seq<Beacon>, k: BeaconKey)
    ensures k in Keys(s) <==> exists i :: 0 <= i < |s| && Key(s[i]) == k
  {
    if s != [] {
      var init := s[..|s| - 1];
      KeysMember(init, k);
      if k in Keys(init) {
        var i :| 0 <= i < |init| && Key(init[i]) == k;
        assert s[i] == init[i];
      }
      if exists i :: 0 <= i < |s| && Key(s[i]) == k {
        var i :| 0 <= i < |s| && Key(s[i]) == k;
        if i < |init| { assert init[i] == s[i]; }
      }
    }
  }

  /** `contains` finds an entry that `equals` the beacon. */
  lemma ContainsIffEquals(s: seq<Beacon>, b: Beacon)
    ensures Contains(s, b) <==> exists i :: 0 <= i < |s| && Equals(s[i], b)
  {
    KeysMember(s, Key(b));
    if Contains(s, b) {
      var i :| 0 <= i < |s| && Key(s[i]) == Key(b);
      EqualsIsIdentity(s[i], b);
    }
    if exists i :: 0 <= i < |s| && Equals(s[i], b) {
      var i :| 0 <= i < |s| && Equals(s[i], b);
      EqualsIsIdentity(s[i], b);
    }
  }

  /** A duplicate-free list has as many keys as entries. */
  lemma {:induction false} NoDupCard(s: seq<Beacon>)
    requires NoDup(s)
    ensures |Keys(s)| == |s|
  {
    if s != [] {
      var init := s[..|s| - 1];
      assert NoDup(init) by {
        forall i, j | 0 <= i < j < |init| ensures Key(init[i]) != Key(init[j]) {
          assert init[i] == s[i] && init[j] == s[j];
        }
      }
      NoDupCard(init);
      KeysMember(init, Key(s[|s| - 1]));
    }
  }

  /** Appending a beacon the list does not contain keeps it duplicate-free. */
  lemma NoDupSnoc(s: seq<Beacon>, b: Beacon)
    requires NoDup(s) && !Contains(s, b)
    ensures NoDup(s + [b])
  {
    var t := s + [b];
    forall i, j | 0 <= i < j < |t| ensures Key(t[i]) != Key(t[j]) {
      if j < |s| { assert t[i] == s[i] && t[j] == s[j]; }
      else { assert t[i] == s[i]; KeysMember(s, Key(s[i])); }
    }
  }

  /** `Without` keeps exactly the keys of `s` outside `other`. */
  lemma {:induction false} WithoutKeys(s: seq<Beacon>, other: seq<Beacon>)
    ensures Keys(Without(s, other)) == Keys(s) - Keys(other)
  {
    if s != [] {
      var init, last := s[..|s| - 1], s[|s| - 1];
      WithoutKeys(init, other);
      if !Contains(other, last) {
        KeysSnoc(Without(init, other), last);
      } else {
        assert Without(s, other) == Without(init, other);
      }
    }
  }

  lemma WithoutEmpty(s: seq<Beacon>, other: seq<Beacon>)
    ensures Without(s, other) == [] <==> Keys(s) <= Keys(other)
  {
    WithoutKeys(s, other);
    var w := Without(s, other);
    if w != [] { KeysMember(w, Key(w[0])); }
  }

  /** Over a duplicate-free update, `Shared` counts the common keys. */
  lemma {:induction false} SharedIsCommonKeys(current: seq<Beacon>, updated: seq<Beacon>)
    requires NoDup(updated)
    ensures Shared(current, updated) == |Keys(updated) * Keys(current)|
  {
    if updated != [] {
      var init, last := updated[..|updated| - 1], updated[|updated| - 1];
      assert NoDup(init) by {
        forall i, j | 0 <= i < j < |init| ensures Key(init[i]) != Key(init[j]) {
          assert init[i] == updated[i] && init[j] == updated[j];
        }
      }
      SharedIsCommonKeys(current, init);
      KeysMember(init, Key(last));
      if Contains(current, last) {
        assert Keys(updated) * Keys(current) == (Keys(init) * Keys(current)) + {Key(last)};
      } else {
        assert Keys(updated) * Keys(current) == Keys(init) * Keys(current);
      }
    }
  }

  /** The counter shortcut is sound on duplicate-free lists: `compare` then
      reports as left exactly the current beacons missing from the update. */
  lemma LeftExactWithoutDuplicates(current: seq<Beacon>, updated: seq<Beacon>)
    requires NoDup(current) && NoDup(updated)
    ensures LeftReported(current, updated) == Without(current, updated)
  {
    var P, N := Keys(current), Keys(updated);
    NoDupCard(current);
    SharedIsCommonKeys(current, updated);
    WithoutEmpty(current, updated);
    if Without(current, updated) != [] {
      assert !(P <= N);
      var k :| k in P && k !in N;
      assert k in P - N;
      assert |P - N| == |P| - |P * N|;
      assert N * P == P * N;
    }
  }

  /** On duplicate-free lists `compare` finds no change exactly when both
      lists hold the same beacons. */
  lemma NoChangeIffSameBeacons(current: seq<Beacon>, updated: seq<Beacon>)
    requires NoDup(current) && NoDup(updated)
    ensures (Without(updated, current) == [] && LeftReported(current, updated) == [])
            <==> Keys(current) == Keys(updated)
  {
    LeftExactWithoutDuplicates(current, updated);
    WithoutEmpty(updated, current);
    WithoutEmpty(current, updated);
  }

  /** Whatever the duplicates, comparing against a list with the same
      beacons as the stored one reports no change: after a `compare` that
      stored N, a second `compare` with the same beacons returns null. */
  lemma CompareAgainIsNoChange(stored: seq<Beacon>, again: seq<Beacon>)
    requires Keys(stored) == Keys(again)
    ensures Without(again, stored) == []
    ensures LeftReported(stored, again) == []
  {
    WithoutEmpty(again, stored);
    WithoutEmpty(stored, again);
  }

  /** With a duplicate in the update the counter shortcut hides a departure:
      current [a, b] against update [a, a] reports nothing, although b left. */
  lemma DuplicateHidesLeft(a: Beacon, b: Beacon)
    requires Key(a) != Key(b)
    ensures Without([a, a], [a, b]) == []
    ensures LeftReported([a, b], [a, a]) == []
    ensures Without([a, b], [a, a]) == [b]
  {
    assert Keys([a, b]) == {Key(a), Key(b)} by {
      KeysSnoc([a], b);
      KeysSnoc([], a);
      assert [a] == [] + [a] && [a, b] == [a] + [b];
    }
    assert Keys([a, a]) == {Key(a)} by {
      KeysSnoc([a], a);
      KeysSnoc([], a);
      assert [a] == [] + [a] && [a, a] == [a] + [a];
    }
    assert [a, a][..1] == [a] && [a][..0] == [];
    assert Shared([a, b], [a]) == 1;
    assert Shared([a, b], [a, a]) == 2;
    assert [a, b][..1] == [a];
  }

  // ---------------------------------------------------------------------
  // BeaconChange

  /** The beacons that came into and went out of range. */
  class BeaconChange {
    var entered: seq<Beacon>
    var left: seq<Beacon>

    constructor ()
      ensures entered == [] && left == []
    {
      entered := [];
      left := [];
    }

    method AddEnteredBeacon(b: Beacon)
      modifies this
      ensures entered == old(entered) + [b]
      ensures left == old(left)
    {
      entered := entered + [b];
    }

    method AddLeftBeacon(b: Beacon)
      modifies this
      ensures left == old(left) + [b]
      ensures entered == old(entered)
    {
      left := left + [b];
    }
  }

  // ---------------------------------------------------------------------
  // SystemBeacons

  class SystemBeacons {
    var beaconList: seq<Beacon>

    constructor ()
      ensures beaconList == []
    {
      beaconList := [];
    }

    function BeaconCount(): (n: nat)
      reads this
      ensures n == |beaconList|
    {
      |beaconList|
    }

    method ContainsBeaconWithMinor(minor: int) returns (found: bool)
      ensures found <==> exists i :: 0 <= i < |beaconList| && beaconList[i].minor == minor
    {
      for i := 0 to |beaconList|
        invariant forall j :: 0 <= j < i ==> beaconList[j].minor != minor
      {
        if beaconList[i].minor == minor {
          return true;
        }
      }
      return false;
    }

    /** The first beacon with that major and minor, whatever its uuid. */
    method GetBeacon(major: int, minor: int) returns (r: Result<Beacon>)
      ensures r.Ok? ==> (exists i :: 0 <= i < |beaconList| && beaconList[i] == r.value
                          && forall j :: 0 <= j < i ==> !(beaconList[j].major == major && beaconList[j].minor == minor))
      ensures r.Ok? ==> r.value.major == major && r.value.minor == minor
      ensures r.Err? <==> forall j :: 0 <= j < |beaconList| ==> !(beaconList[j].major == major && beaconList[j].minor == minor)
      ensures r.Err? ==> r.error == NotFound
    {
      for i := 0 to |beaconList|
        invariant forall j :: 0 <= j < i ==> !(beaconList[j].major == major && beaconList[j].minor == minor)
      {
        if beaconList[i].major == major && beaconList[i].minor == minor {
          return Ok(beaconList[i]);
        }
      }
      return Err(NotFound);
    }

    /** Appends `b` unless an equal beacon is present; a list built only by
        this method stays duplicate-free. */
    method AddBeacon(b: Beacon) returns (added: bool)
      modifies this
      ensures added <==> !Contains(old(beaconList), b)
      ensures beaconList == if added then old(beaconList) + [b] else old(beaconList)
      ensures NoDup(old(beaconList)) ==> NoDup(beaconList)
    {
      if Contains(beaconList, b) {
        return false;
      }
      if NoDup(beaconList) { NoDupSnoc(beaconList, b); }
      beaconList := beaconList + [b];
      return true;
    }

    /** `List.remove(Object)`: drops the first equal beacon. */
    method RemoveBeacon(b: Beacon) returns (r: Result<bool>)
      modifies this
      ensures r.Ok? <==> Contains(old(beaconList), b)
      ensures r.Ok? ==> r.value
      ensures r.Err? ==> r.error == NotFound && beaconList == old(beaconList)
      ensures r.Ok? ==> (exists i :: 0 <= i < |old(beaconList)| && Equals(old(beaconList)[i], b)
                          && beaconList == old(beaconList)[..i] + old(beaconList)[i + 1..]
                          && forall j :: 0 <= j < i ==> !Equals(old(beaconList)[j], b))
    {
      var p := (x: Beacon) => Equals(x, b);
      ContainsIffEquals(beaconList, b);
      var (rest, removed) := DeleteOne(beaconList, p);
      if removed {
        beaconList := rest;
        return Ok(true);
      }
      return Err(NotFound);
    }

    method RemoveAll()
      modifies this
      ensures beaconList == []
    {
      beaconList := [];
    }

    /** The presence diff. Entered beacons are those of the update this list
        does not contain, in the update's order; left beacons are reported
        through the counter shortcut (see LeftReported). The update replaces
        this list exactly when something changed. */
    method Compare(updated: SystemBeacons) returns (change: BeaconChange?)
      modifies this
      ensures var P, N := old(beaconList), old(updated.beaconList);
        (change == null <==> Without(N, P) == [] && LeftReported(P, N) == [])
        && (change != null ==> fresh(change) && change.entered == Without(N, P)
                               && change.left == LeftReported(P, N))
        && beaconList == (if change == null then P else N)
    {
      var P, N := beaconList, updated.beaconList;
      var listSize := |P|;
      change := null;
      for i := 0 to |N|
        invariant beaconList == P
        invariant listSize == |P| - Shared(P, N[..i])
        invariant change == null ==> Without(N[..i], P) == []
        invariant change != null ==> fresh(change) && change.entered == Without(N[..i], P)
                                     && change.left == [] && change.entered != []
      {
        PrefixStep(N, P, i);
        if Contains(P, N[i]) {
          listSize := listSize - 1;
        } else {
          if change == null {
            change := new BeaconChange();
          }
          change.AddEnteredBeacon(N[i]);
        }
      }
      assert N[..|N|] == N;
      if listSize > 0 {
        for j := 0 to |P|
          invariant beaconList == P
          invariant change == null ==> Without(N, P) == [] && Without(P[..j], N) == []
          invariant change != null ==> fresh(change) && change.entered == Without(N, P)
                                       && change.left == Without(P[..j], N)
                                       && (change.entered != [] || change.left != [])
        {
          PrefixStep(P, N, j);
          if !Contains(N, P[j]) {
            if change == null {
              change := new BeaconChange();
            }
            change.AddLeftBeacon(P[j]);
          }
        }
        assert P[..|P|] == P;
      }
      if change != null {
        beaconList := N;
      }
    }
  }
}

=== FILE: service.dfy ===
// The web service (GeofencingService): who may call each endpoint, and the
// HTTP status (section 15 of RFC 9110) each outcome of the system call is
// answered with. The JAX-RS Response becomes a status and an optional entity.

module Service {
  import opened Common
  import opened Beacons
  import opened Devices
  import opened Store
  import opened Engine
  import opened System

  const OK: int := 200
  const UNAUTHORIZED: int := 401
  const NOT_FOUND: int := 404
  const CONFLICT: int := 409
  const INTERNAL_SERVER_ERROR: int := 500

  /** A response: its status and, for 200, its entity. */
  datatype Response<T> = Response(status: int, entity: Option<T>)

  /** The endpoints that answer with the result of one system call
      (`getServiceState` and `checkPassword` answer differently). */
  datatype Endpoint =
    | GetDevices | GetDevice | GetGeofenceList | GetEventList | GetEvent
    | GetBeacons | GetBeacon | GetBeaconData | AddGeofence | RegisterDevice
    | GenerateBeacon | AddBeacon | AddEvent | UpdateDevice | UpdateDeviceToken
    | RemoveDevice | RemoveGeofence | RemoveBeacon | RemoveEvent

  /** Who may call an endpoint. */
  datatype Access =
    | Open              // no check
    | Admin             // the administrator password
    | OwnDevice         // the address of the addressed device
    | OwnDeviceOrAdmin  // that, or failing it the password
    | AnyDeviceOrAdmin  // the address of some registered device, or the password

  function AccessOf(e: Endpoint): Access
  {
    match e
      case RegisterDevice => Open
      case GetDevice | RemoveDevice => OwnDeviceOrAdmin
      case UpdateDevice | UpdateDeviceToken => OwnDevice
      case GetBeaconData => AnyDeviceOrAdmin
      case _ => Admin
  }

  /** Whether the endpoint has a NotFoundException handler of its own. */
  predicate CatchesNotFound(e: Endpoint)
  {
    !(e.GetDevices? || e.GetGeofenceList? || e.GetBeaconData? || e.AddGeofence? || e.RegisterDevice?)
  }

  // ---------------------------------------------------------------------
  // Authentication

  /** `checkPassword` of the configuration. `admin` is the configured
      password (None when it is missing or empty), `header` the
      Authorization header (None when absent). */
  function CheckAdminPassword(admin: Option<string>, header: Option<string>): (r: Result<bool>)
    ensures r.Ok? <==> admin.Some? && header == admin
    ensures r.Ok? ==> r.value
    ensures admin.None? ==> r == Err(Configuration)
    ensures admin.Some? && header != admin ==> r == Err(Unauthorized)
  {
    if admin.None? then Err(Configuration)
    else if header != admin then Err(Unauthorized)
    else Ok(true)
  }

  /** `authenticateDevice`: the header names the address of the device
      with that id; any other header is Unauthorized (a device that is
      not found included). */
  function AuthenticateDevice(t: Tables, deviceID: int, header: Option<string>): (r: Result<bool>)
    ensures r.Ok? ==> r.value && header.Some?
    ensures r.Err? ==> r.error == Unauthorized
    ensures r.Ok? <==> header.Some? && FindDeviceByAddress(t, header.value).Ok?
                       && FindDeviceByAddress(t, header.value).value.deviceID == deviceID
  {
    if header.None? then Err(Unauthorized)
    else
      var d := FindDeviceByAddress(t, header.value);
      if d.Ok? && d.value.deviceID == deviceID then Ok(true) else Err(Unauthorized)
  }

  /** No two devices share an address (registration refuses a used one). */
  predicate DistinctAddresses(t: Tables)
  {
    forall i, j :: 0 <= i < j < |t.devices| ==> t.devices[i].address != t.devices[j].address
  }

  /** Under distinct addresses, the lookup by address finds the one device
      holding it. */
  lemma FindsOnlyHolder(t: Tables, address: string, j: nat)
    requires DistinctAddresses(t)
    requires j < |t.devices| && t.devices[j].address == address
    ensures FindDeviceByAddress(t, address) == Ok(t.devices[j])
  {
    var i := FirstIndex(t.devices, DeviceWithAddress(address)).value;
    assert i == j;
  }

  /** Under distinct addresses, a device authenticates exactly with its own
      address. */
  lemma AuthenticateDeviceIff(t: Tables, deviceID: int, address: string)
    requires DistinctAddresses(t)
    ensures AuthenticateDevice(t, deviceID, Some(address)).Ok?
      <==> exists j :: 0 <= j < |t.devices| && t.devices[j].address == address && t.devices[j].deviceID == deviceID
  {
    if exists j :: 0 <= j < |t.devices| && t.devices[j].address == address && t.devices[j].deviceID == deviceID {
      var j :| 0 <= j < |t.devices| && t.devices[j].address == address && t.devices[j].deviceID == deviceID;
      FindsOnlyHolder(t, address, j);
    }
    if AuthenticateDevice(t, deviceID, Some(address)).Ok? {
      var i := FirstIndex(t.devices, DeviceWithAddress(address)).value;
      assert t.devices[i].address == address && t.devices[i].deviceID == deviceID;
    }
  }

  /** Registration keeps the addresses distinct. */
  lemma AddDeviceKeepsAddressesDistinct(t: Tables, address: string, id: int, now: int)
    requires DistinctAddresses(t)
    ensures DistinctAddresses(AddDeviceSpec(t, address, id, now).1)
  {
    if !AddressInUse(t, address) {
      var t2 := AddDeviceSpec(t, address, id, now).1;
      forall i, j | 0 <= i < j < |t2.devices|
        ensures t2.devices[i].address != t2.devices[j].address
      {
        if j == |t.devices| {
          assert t2.devices[i] == t.devices[i];
          assert FindDeviceByAddress(t, address).Err?;
        }
      }
    }
  }

  /** The access rule of an endpoint, checked before its system call. */
  function Authorize(access: Access, admin: Option<string>, t: Tables, deviceID: int, header: Option<string>)
    : (r: Result<bool>)
    ensures r.Ok? ==> r.value
    ensures r.Err? ==> r.error == Unauthorized || r.error == Configuration
    ensures access.Open? ==> r.Ok?
    ensures access.Admin? ==> r == CheckAdminPassword(admin, header)
    ensures access.OwnDevice? ==> r == AuthenticateDevice(t, deviceID, header)
  {
    match access
      case Open => Ok(true)
      case Admin => CheckAdminPassword(admin, header)
      case OwnDevice => AuthenticateDevice(t, deviceID, header)
      case OwnDeviceOrAdmin =>
        if AuthenticateDevice(t, deviceID, header).Ok? then Ok(true) else CheckAdminPassword(admin, header)
      case AnyDeviceOrAdmin =>
        var d := if header.None? then Err(NotFound) else FindDeviceByAddress(t, header.value);
        if d.Ok? && AuthenticateDevice(t, d.value.deviceID, header).Ok? then Ok(true)
        else CheckAdminPassword(admin, header)
  }

  /** `getDevice` and `removeDevice`: the device itself, or the
      administrator. */
  lemma OwnDeviceOrAdminIff(admin: Option<string>, t: Tables, deviceID: int, header: Option<string>)
    ensures Authorize(OwnDeviceOrAdmin, admin, t, deviceID, header).Ok?
      <==> AuthenticateDevice(t, deviceID, header).Ok? || CheckAdminPassword(admin, header).Ok?
  {
  }

  /** `getBeaconData`: any registered device, or the administrator; a
      device's own lookup always authenticates it. */
  lemma AnyDeviceOrAdminIff(admin: Option<string>, t: Tables, header: Option<string>)
    ensures Authorize(AnyDeviceOrAdmin, admin, t, 0, header).Ok?
      <==> (header.Some? && AddressInUse(t, header.value)) || CheckAdminPassword(admin, header).Ok?
  {
    if header.Some? && AddressInUse(t, header.value) {
      var d := FindDeviceByAddress(t, header.value);
      assert AuthenticateDevice(t, d.value.deviceID, header).Ok?;
    }
  }

  /** `updateDevice` and `updateDeviceToken` have no password fallback: the
      administrator password alone is refused. */
  lemma OwnDeviceRefusesPassword(admin: string, t: Tables, deviceID: int)
    requires !AddressInUse(t, admin)
    ensures CheckAdminPassword(Some(admin), Some(admin)).Ok?
    ensures Authorize(OwnDevice, Some(admin), t, deviceID, Some(admin)) == Err(Unauthorized)
  {
  }

  // ---------------------------------------------------------------------
  // Status mapping

  /** The try/catch of an endpoint: 200 with the entity, Unauthorized is
      401 (except in `registerDevice`), NotFound 404 where it is caught,
      AlreadyExisting 409 in `registerDevice`, anything else 500. */
  function Respond<T>(e: Endpoint, r: Result<T>): (resp: Response<T>)
    ensures resp.status == OK <==> r.Ok?
    ensures resp.status == OK ==> resp.entity == Some(r.value)
    ensures resp.status != OK ==> resp.entity.None?
    ensures resp.status == UNAUTHORIZED <==> r == Err(Unauthorized) && !e.RegisterDevice?
    ensures resp.status == NOT_FOUND <==> r == Err(NotFound) && CatchesNotFound(e)
    ensures resp.status == CONFLICT <==> r == Err(AlreadyExisting) && e.RegisterDevice?
    ensures resp.status in {OK, UNAUTHORIZED, NOT_FOUND, CONFLICT, INTERNAL_SERVER_ERROR}
  {
    if r.Ok? then Response(OK, Some(r.value))
    else if r.error == Unauthorized && !e.RegisterDevice? then Response(UNAUTHORIZED, None)
    else if r.error == NotFound && CatchesNotFound(e) then Response(NOT_FOUND, None)
    else if r.error == AlreadyExisting && e.RegisterDevice? then Response(CONFLICT, None)
    else Response(INTERNAL_SERVER_ERROR, None)
  }

  /** `updateDevice` and `updateDeviceToken` answer a false result with 500,
      as for a failure. */
  function ConfirmedOnly(r: Result<bool>): (c: Result<bool>)
    ensures c.Ok? <==> r.Ok? && r.value
    ensures c.Ok? ==> c.value
    ensures r.Err? ==> c == r
    ensures r.Ok? && !r.value ==> c == Err(Unchecked)
  {
    if r.Ok? && !r.value then Err(Unchecked) else r
  }

  /** An endpoint: its access rule, then, if passed, the system call's
      outcome through the status mapping. */
  function Serve<T>(e: Endpoint, admin: Option<string>, t: Tables, deviceID: int, header: Option<string>,
                    outcome: Result<T>): (resp: Response<T>)
    ensures Authorize(AccessOf(e), admin, t, deviceID, header).Ok? ==> resp == Respond(e, outcome)
    ensures Authorize(AccessOf(e), admin, t, deviceID, header).Err? ==>
      resp.status == (if Authorize(AccessOf(e), admin, t, deviceID, header).error == Unauthorized
                      then UNAUTHORIZED else INTERNAL_SERVER_ERROR)
  {
    var a := Authorize(AccessOf(e), admin, t, deviceID, header);
    if a.Err? then Respond(e, Err(a.error)) else Respond(e, outcome)
  }

  /** An administrator endpoint answers 200 only to the configured
      password, and 500 when none is configured. */
  lemma AdminEndpointNeedsPassword<T>(e: Endpoint, admin: Option<string>, t: Tables, deviceID: int,
                                      header: Option<string>, outcome: Result<T>)
    requires AccessOf(e).Admin?
    ensures Serve(e, admin, t, deviceID, header, outcome).status == OK ==> admin.Some? && header == admin
    ensures admin.None? ==> Serve(e, admin, t, deviceID, header, outcome).status == INTERNAL_SERVER_ERROR
    ensures admin.Some? && header != admin ==> Serve(e, admin, t, deviceID, header, outcome).status == UNAUTHORIZED
  {
  }

  /** `checkPassword`: 200 with true for the configured password, 200 with
      false (not 401) for another, 500 when none is configured. */
  function CheckPasswordResponse(admin: Option<string>, password: Option<string>): (resp: Response<bool>)
    ensures admin.None? <==> resp.status == INTERNAL_SERVER_ERROR
    ensures admin.Some? ==> resp == Response(OK, Some(password == admin))
  {
    var c := CheckAdminPassword(admin, password);
    if c.Ok? then Response(OK, Some(true))
    else if c.error == Unauthorized then Response(OK, Some(false))
    else Response(INTERNAL_SERVER_ERROR, None)
  }

  /** `getServiceState`: always 200 with true. */
  function ServiceStateResponse(): (resp: Response<bool>)
    ensures resp.status == OK && resp.entity == Some(true)
  {
    Response(OK, Some(true))
  }

  // ---------------------------------------------------------------------
  // Endpoints over the system state

  /** `getDevice`: device or administrator, then the lookup by id. */
  function GetDeviceResponse(admin: Option<string>, t: Tables, deviceID: int, header: Option<string>)
    : (resp: Response<DeviceRecord>)
    ensures resp.status == OK ==> DeviceExists(t, deviceID) && resp.entity == Some(FindDevice(t, deviceID).value)
    ensures resp.status == OK <==> Authorize(OwnDeviceOrAdmin, admin, t, deviceID, header).Ok? && DeviceExists(t, deviceID)
    ensures resp.status == NOT_FOUND <==> Authorize(OwnDeviceOrAdmin, admin, t, deviceID, header).Ok? && !DeviceExists(t, deviceID)
  {
    Serve(GetDevice, admin, t, deviceID, header, FindDevice(t, deviceID))
  }

  /** `registerDevice`: open to anyone; 409 for an address in use. */
  function RegisterDeviceResponse(t: Tables, address: string, id: int, now: int): (r: (Response<int>, Tables))
    ensures AddressInUse(t, address) <==> r.0.status == CONFLICT
    ensures AddressInUse(t, address) ==> r.1 == t
    ensures !AddressInUse(t, address) ==> r.0 == Response(OK, Some(id)) && r.1 == AddDeviceSpec(t, address, id, now).1
  {
    var a := AddDeviceSpec(t, address, id, now);
    (Serve(RegisterDevice, None, t, 0, None, a.0), a.1)
  }

  /** A device registered under a fresh id authenticates with its address
      from then on. */
  lemma RegisteredDeviceAuthenticates(t: Tables, address: string, id: int, now: int)
    requires !AddressInUse(t, address) && !DeviceExists(t, id)
    ensures RegisterDeviceResponse(t, address, id, now).0.status == OK
    ensures AuthenticateDevice(RegisterDeviceResponse(t, address, id, now).1, id, Some(address)) == Ok(true)
  {
    AddDeviceThenFind(t, address, id, now);
  }

  /** `removeDevice`: device or administrator; only then is the device
      deleted. */
  function RemoveDeviceResponse(admin: Option<string>, t: Tables, deviceID: int, header: Option<string>)
    : (r: (Response<bool>, Tables))
    ensures Authorize(OwnDeviceOrAdmin, admin, t, deviceID, header).Err? ==> r.1 == t && r.0.status != OK
    ensures r.0.status == OK <==> Authorize(OwnDeviceOrAdmin, admin, t, deviceID, header).Ok? && DeviceExists(t, deviceID)
    ensures r.0.status == OK ==> r.1 == RemoveDeviceSpec(t, deviceID).1
  {
    var a := Authorize(OwnDeviceOrAdmin, admin, t, deviceID, header);
    if a.Err? then (Respond(RemoveDevice, Err(a.error)), t)
    else
      var s := RemoveDeviceSpec(t, deviceID);
      (Respond(RemoveDevice, s.0), s.1)
  }

  /** `updateDeviceToken`: the device only; an unchanged token makes the
      system answer false, which the endpoint answers with 500. */
  function UpdateDeviceTokenResponse(t: Tables, deviceID: int, token: Option<string>, header: Option<string>)
    : (r: (Response<bool>, Tables))
    ensures AuthenticateDevice(t, deviceID, header).Err? ==> r == (Response(UNAUTHORIZED, None), t)
    ensures r.0.status == OK ==> AuthenticateDevice(t, deviceID, header).Ok?
    ensures AuthenticateDevice(t, deviceID, header).Ok? ==>
      var s := UpdateDeviceTokenSpec(t, deviceID, token);
      r.1 == s.1 && (r.0.status == OK <==> s.0 == Ok(true))
  {
    var a := AuthenticateDevice(t, deviceID, header);
    if a.Err? then (Respond(UpdateDeviceToken, Err(a.error)), t)
    else
      var s := UpdateDeviceTokenSpec(t, deviceID, token);
      (Respond(UpdateDeviceToken, ConfirmedOnly(s.0)), s.1)
  }

  /** Sending the token the device already has is answered with 500. */
  lemma SameTokenIsServerError(t: Tables, deviceID: int, header: Option<string>)
    requires AuthenticateDevice(t, deviceID, header).Ok?
    ensures DeviceExists(t, deviceID)
    ensures UpdateDeviceTokenResponse(t, deviceID, FindDevice(t, deviceID).value.firebaseToken, header).0.status
      == INTERNAL_SERVER_ERROR
  {
    var d := FindDeviceByAddress(t, header.value).value;
    var i := FirstIndex(t.devices, DeviceWithAddress(header.value)).value;
    assert t.devices[i].deviceID == deviceID;
  }

  /** `updateDevice`: the device only; the presence update runs only then. */
  function UpdateDeviceResponse(w: World, env: Env, deviceID: int, beacons: seq<Beacon>, header: Option<string>, now: int)
    : (r: (Response<bool>, World))
    ensures AuthenticateDevice(w.tables, deviceID, header).Err? ==> r == (Response(UNAUTHORIZED, None), w)
    ensures AuthenticateDevice(w.tables, deviceID, header).Ok? ==>
      var s := UpdateDeviceBeaconsSystemSpec(w, env, deviceID, beacons, now);
      r.1 == s.1 && (r.0.status == OK <==> s.0.Ok? && s.0.value)
  {
    var a := AuthenticateDevice(w.tables, deviceID, header);
    if a.Err? then (Respond(UpdateDevice, Err(a.error)), w)
    else
      var s := UpdateDeviceBeaconsSystemSpec(w, env, deviceID, beacons, now);
      (Respond(UpdateDevice, ConfirmedOnly(s.0)), s.1)
  }

  /** An authenticated device exists, so its presence update is never
      answered with 404. */
  lemma AuthenticatedUpdateNotNotFound(w: World, env: Env, deviceID: int, beacons: seq<Beacon>,
                                       header: Option<string>, now: int)
    requires AuthenticateDevice(w.tables, deviceID, header).Ok?
    ensures UpdateDeviceResponse(w, env, deviceID, beacons, header, now).0.status in {OK, INTERNAL_SERVER_ERROR}
  {
    var i := FirstIndex(w.tables.devices, DeviceWithAddress(header.value)).value;
    assert w.tables.devices[i].deviceID == deviceID;
    assert DeviceExists(w.tables, deviceID);
  }
}

=== FILE: store.dfy ===
// The geofencing store (GeofencingDBConnector): four collections of
// documents (geofences, beacons, events, devices) kept in insertion order.
// Reads are functions of the tables; the connector object holds the tables
// and its methods are the writes.

module Store {
  import opened Common
  import opened Beacons
  import opened Presence
  import opened Events
  import opened Devices

  /** The persisted fields of a geofence; its beacons and events live in
      their own collections, joined by minor. */
  datatype GeofenceRecord = GeofenceRecord(minor: int, description: string)

  datatype Tables = Tables(
    geofences: seq<GeofenceRecord>,
    beacons: seq<Beacon>,
    events: seq<Event>,
    devices: seq<DeviceRecord>)

  /** A geofence as `findGeofence` assembles it. */
  datatype GeofenceData = GeofenceData(
    record: GeofenceRecord,
    beacons: seq<Beacon>,
    events: seq<Event>)

  // ---------------------------------------------------------------------
  // Query predicates

  function GeofenceMinor(minor: int): GeofenceRecord -> bool
  {
    (g: GeofenceRecord) => g.minor == minor
  }

  function BeaconAt(minor: int, major: int): Beacon -> bool
  {
    (b: Beacon) => b.minor == minor && b.major == major
  }

  function BeaconMinor(minor: int): Beacon -> bool
  {
    (b: Beacon) => b.minor == minor
  }

  function EventAt(minor: int, eventID: int): Event -> bool
  {
    (e: Event) => e.minor == minor && e.eventID == eventID
  }

  function EventMinor(minor: int): Event -> bool
  {
    (e: Event) => e.minor == minor
  }

  function DeviceWithID(deviceID: int): DeviceRecord -> bool
  {
    (d: DeviceRecord) => d.deviceID == deviceID
  }

  function DeviceWithAddress(address: string): DeviceRecord -> bool
  {
    (d: DeviceRecord) => d.address == address
  }

  /** `x` is the first entry of `t` that satisfies `p`. */
  predicate FirstMatch<T(==)>(t: seq<T>, p: T -> bool, x: T)
  {
    exists i :: 0 <= i < |t| && t[i] == x && p(x) && forall j :: 0 <= j < i ==> !p(t[j])
  }

  // ---------------------------------------------------------------------
  // A beacon set built by `SystemBeacons.addBeacon`, which skips a beacon
  // equal to one already added.

  function Collected(s: seq<Beacon>): (r: seq<Beacon>)
    ensures NoDup(r)
    ensures |r| <= |s|
  {
    if s == [] then []
    else
      var init := Collected(s[..|s| - 1]);
      var last := s[|s| - 1];
      if Contains(init, last) then init
      else
        NoDupSnoc(init, last);
        init + [last]
  }

  /** Collecting keeps every beacon identity of the input exactly once. */
  lemma {:induction false} CollectedKeys(s: seq<Beacon>)
    ensures Keys(Collected(s)) == Keys(s)
  {
    if s != [] {
      var init, last := s[..|s| - 1], s[|s| - 1];
      CollectedKeys(init);
      assert s == init + [last];
      KeysSnoc(init, last);
      if !Contains(Collected(init), last) {
        KeysSnoc(Collected(init), last);
      }
    }
  }

  /** A list without duplicates is collected unchanged. */
  lemma {:induction false} CollectedNoDup(s: seq<Beacon>)
    requires NoDup(s)
    ensures Collected(s) == s
  {
    if s != [] {
      var init, last := s[..|s| - 1], s[|s| - 1];
      assert NoDup(init);
      CollectedNoDup(init);
      assert !Contains(init, last) by {
        KeysMember(init, Key(last));
        assert forall i :: 0 <= i < |init| ==> init[i] == s[i] && Key(s[i]) != Key(s[|s| - 1]);
      }
      assert s == init + [last];
    }
  }

  // ---------------------------------------------------------------------
  // Reads

  /** `isGeofenceExisting`. */
  predicate GeofenceExists(t: Tables, minor: int)
  {
    exists i :: 0 <= i < |t.geofences| && t.geofences[i].minor == minor
  }

  /** `findGeofenceBeacons`: the beacons stored under the minor, collected
      into a set. The existence check's answer is discarded, so a missing
      geofence yields whatever beacons carry its minor, never NotFound. */
  function GeofenceBeacons(t: Tables, minor: int): (r: Result<seq<Beacon>>)
    ensures r.Ok?
    ensures NoDup(r.value)
  {
    Ok(Collected(Filter(t.beacons, BeaconMinor(minor))))
  }

  /** `findGeofenceEvents`: the events stored under the minor, in collection
      order; like `GeofenceBeacons` it never reports NotFound. */
  function GeofenceEvents(t: Tables, minor: int): (r: Result<seq<Event>>)
    ensures r.Ok?
    ensures |r.value| <= |t.events|
    ensures forall j :: 0 <= j < |r.value| ==> r.value[j].minor == minor
  {
    Ok(Filter(t.events, EventMinor(minor)))
  }

  /** `findGeofence`: the first geofence with the minor, with its beacons
      and events attached. */
  function FindGeofence(t: Tables, minor: int): (r: Result<GeofenceData>)
    ensures r.Ok? <==> GeofenceExists(t, minor)
    ensures r.Err? ==> r.error == NotFound
    ensures r.Ok? ==> FirstMatch(t.geofences, GeofenceMinor(minor), r.value.record)
    ensures r.Ok? ==> r.value.beacons == GeofenceBeacons(t, minor).value
                      && r.value.events == GeofenceEvents(t, minor).value
  {
    match FirstIndex(t.geofences, GeofenceMinor(minor))
      case None => Err(NotFound)
      case Some(i) =>
        Ok(GeofenceData(t.geofences[i], GeofenceBeacons(t, minor).value, GeofenceEvents(t, minor).value))
  }

  /** `findBeacon(minor, major)`. */
  function FindBeacon(t: Tables, minor: int, major: int): (r: Result<Beacon>)
    ensures r.Ok? <==> exists j :: 0 <= j < |t.beacons| && t.beacons[j].minor == minor && t.beacons[j].major == major
    ensures r.Err? ==> r.error == NotFound
    ensures r.Ok? ==> FirstMatch(t.beacons, BeaconAt(minor, major), r.value)
  {
    match FirstIndex(t.beacons, BeaconAt(minor, major))
      case None => Err(NotFound)
      case Some(i) => Ok(t.beacons[i])
  }

  /** `isBeaconExisiting`. */
  predicate BeaconExists(t: Tables, minor: int, major: int)
  {
    FindBeacon(t, minor, major).Ok?
  }

  /** `findGeofenceEvent(minor, eventID)`. */
  function FindGeofenceEvent(t: Tables, minor: int, eventID: int): (r: Result<Event>)
    ensures r.Ok? <==> exists j :: 0 <= j < |t.events| && t.events[j].minor == minor && t.events[j].eventID == eventID
    ensures r.Err? ==> r.error == NotFound
    ensures r.Ok? ==> FirstMatch(t.events, EventAt(minor, eventID), r.value)
  {
    match FirstIndex(t.events, EventAt(minor, eventID))
      case None => Err(NotFound)
      case Some(i) => Ok(t.events[i])
  }

  /** `findDevice(int)`. */
  function FindDevice(t: Tables, deviceID: int): (r: Result<DeviceRecord>)
    ensures r.Ok? <==> exists j :: 0 <= j < |t.devices| && t.devices[j].deviceID == deviceID
    ensures r.Err? ==> r.error == NotFound
    ensures r.Ok? ==> FirstMatch(t.devices, DeviceWithID(deviceID), r.value)
  {
    match FirstIndex(t.devices, DeviceWithID(deviceID))
      case None => Err(NotFound)
      case Some(i) => Ok(t.devices[i])
  }

  /** `findDevice(String)`. */
  function FindDeviceByAddress(t: Tables, address: string): (r: Result<DeviceRecord>)
    ensures r.Ok? <==> exists j :: 0 <= j < |t.devices| && t.devices[j].address == address
    ensures r.Err? ==> r.error == NotFound
    ensures r.Ok? ==> FirstMatch(t.devices, DeviceWithAddress(address), r.value)
  {
    match FirstIndex(t.devices, DeviceWithAddress(address))
      case None => Err(NotFound)
      case Some(i) => Ok(t.devices[i])
  }

  /** `isDeviceExisting`. */
  predicate DeviceExists(t: Tables, deviceID: int)
  {
    FindDevice(t, deviceID).Ok?
  }

  /** `mailAddressInUse`. */
  predicate AddressInUse(t: Tables, address: string)
  {
    FindDeviceByAddress(t, address).Ok?
  }

  /** `isDeviceInGeofence`: whether the stored beacons of the device include
      one with the minor. */
  function IsDeviceInGeofence(t: Tables, deviceID: int, minor: int): (r: Result<bool>)
    ensures r.Err? <==> !DeviceExists(t, deviceID)
    ensures r.Err? ==> r.error == NotFound
    ensures r.Ok? ==> (r.value <==> exists j :: 0 <= j < |FindDevice(t, deviceID).value.beacons|
                                          && FindDevice(t, deviceID).value.beacons[j].minor == minor)
  {
    var d :- FindDevice(t, deviceID);
    Ok(exists j :: 0 <= j < |d.beacons| && d.beacons[j].minor == minor)
  }

  /** Whether a device with the same deviceID and address was collected. */
  predicate ContainsRecord(s: seq<DeviceRecord>, d: DeviceRecord)
  {
    exists i :: 0 <= i < |s| && s[i].deviceID == d.deviceID && s[i].address == d.address
  }

  lemma ContainsRecordSnoc(s: seq<DeviceRecord>, x: DeviceRecord, d: DeviceRecord)
    ensures ContainsRecord(s + [x], d) <==>
      ContainsRecord(s, d) || (x.deviceID == d.deviceID && x.address == d.address)
  {
    var t := s + [x];
    if ContainsRecord(s, d) {
      var i :| 0 <= i < |s| && s[i].deviceID == d.deviceID && s[i].address == d.address;
      assert t[i] == s[i];
    }
    if x.deviceID == d.deviceID && x.address == d.address {
      assert t[|s|] == x;
    }
    if ContainsRecord(t, d) && !(x.deviceID == d.deviceID && x.address == d.address) {
      var i :| 0 <= i < |t| && t[i].deviceID == d.deviceID && t[i].address == d.address;
      assert t[|s|] == x;
      assert i != |s|;
      assert t[i] == s[i];
    }
  }

  /** `findDevices`: the devices collected through `Devices.addDevice`, which
      drops a device equal to one already collected. */
  function DeviceList(s: seq<DeviceRecord>): (r: seq<DeviceRecord>)
    ensures |r| <= |s|
    ensures forall i, j :: 0 <= i < j < |r| ==>
      !(r[i].deviceID == r[j].deviceID && r[i].address == r[j].address)
  {
    if s == [] then []
    else
      var init := DeviceList(s[..|s| - 1]);
      var last := s[|s| - 1];
      if ContainsRecord(init, last) then init else init + [last]
  }

  /** The collected list holds a device equal to every stored one, and
      nothing else. */
  lemma {:induction false} DeviceListKeepsEveryDevice(s: seq<DeviceRecord>, d: DeviceRecord)
    ensures ContainsRecord(DeviceList(s), d) <==> ContainsRecord(s, d)
  {
    if s != [] {
      var init, last := s[..|s| - 1], s[|s| - 1];
      DeviceListKeepsEveryDevice(init, d);
      assert s == init + [last];
      ContainsRecordSnoc(init, last, d);
      if ContainsRecord(DeviceList(init), last) {
        DeviceListKeepsEveryDevice(init, last);
        if last.deviceID == d.deviceID && last.address == d.address {
          assert ContainsRecord(init, last);
          var i :| 0 <= i < |init| && init[i].deviceID == last.deviceID && init[i].address == last.address;
          assert init[i].deviceID == d.deviceID && init[i].address == d.address;
        }
      } else {
        ContainsRecordSnoc(DeviceList(init), last, d);
      }
    }
  }

  // ---------------------------------------------------------------------
  // Writes, as functions of the tables

  /** `updateDevice(deviceID, beacons)`: NotFound for a missing device; the
      beacon set is written, and only if that changed the document is the
      update time stamped. True only when both writes changed the document. */
  function UpdateDeviceBeaconsSpec(t: Tables, deviceID: int, beacons: seq<Beacon>, now: int)
    : (r: (Result<bool>, Tables))
    ensures r.0.Err? <==> !DeviceExists(t, deviceID)
    ensures r.0.Err? ==> r.0.error == NotFound && r.1 == t
    ensures r.1.geofences == t.geofences && r.1.beacons == t.beacons && r.1.events == t.events
  {
    if !DeviceExists(t, deviceID) then (Err(NotFound), t)
    else
      var u1 := UpdateOne(t.devices, DeviceWithID(deviceID), (d: DeviceRecord) => d.(beacons := beacons));
      if !u1.1 then (Ok(false), t.(devices := u1.0))
      else
        var u2 := UpdateOne(u1.0, DeviceWithID(deviceID), (d: DeviceRecord) => d.(lastTimeUpdated := now));
        (Ok(u2.1), t.(devices := u2.0))
  }

  /** `updateDevice(deviceID, firebaseToken)`: NotFound for a missing
      device; true iff the stored token changed. */
  function UpdateDeviceTokenSpec(t: Tables, deviceID: int, token: Option<string>): (r: (Result<bool>, Tables))
    ensures r.0.Err? <==> !DeviceExists(t, deviceID)
    ensures r.0.Err? ==> r.0.error == NotFound && r.1 == t
    ensures r.0.Ok? ==> (r.0.value <==> FindDevice(t, deviceID).value.firebaseToken != token)
    ensures r.1.geofences == t.geofences && r.1.beacons == t.beacons && r.1.events == t.events
  {
    if !DeviceExists(t, deviceID) then (Err(NotFound), t)
    else
      var u := UpdateOne(t.devices, DeviceWithID(deviceID), (d: DeviceRecord) => d.(firebaseToken := token));
      (Ok(u.1), t.(devices := u.0))
  }

  /** A remove succeeds iff it deleted exactly one document. */
  function RemoveResult<T>(d: (seq<T>, bool)): (r: Result<bool>)
    ensures r.Ok? <==> d.1
    ensures r.Ok? ==> r.value
    ensures r.Err? ==> r.error == NotFound
  {
    if d.1 then Ok(true) else Err(NotFound)
  }

  function RemoveDeviceSpec(t: Tables, deviceID: int): (r: (Result<bool>, Tables))
    ensures r.0.Ok? <==> DeviceExists(t, deviceID)
    ensures r.0.Err? ==> r.0.error == NotFound && r.1 == t
    ensures r.0.Ok? ==> r.0.value && |r.1.devices| == |t.devices| - 1
    ensures r.1.geofences == t.geofences && r.1.beacons == t.beacons && r.1.events == t.events
  {
    var d := DeleteOne(t.devices, DeviceWithID(deviceID));
    (RemoveResult(d), t.(devices := d.0))
  }

  function RemoveGeofenceSpec(t: Tables, minor: int): (r: (Result<bool>, Tables))
    ensures r.0.Ok? <==> GeofenceExists(t, minor)
    ensures r.0.Err? ==> r.0.error == NotFound && r.1 == t
    ensures r.0.Ok? ==> r.0.value && |r.1.geofences| == |t.geofences| - 1
    ensures r.1.devices == t.devices && r.1.beacons == t.beacons && r.1.events == t.events
  {
    var d := DeleteOne(t.geofences, GeofenceMinor(minor));
    (RemoveResult(d), t.(geofences := d.0))
  }

  function RemoveEventSpec(t: Tables, minor: int, eventID: int): (r: (Result<bool>, Tables))
    ensures r.0.Ok? <==> FindGeofenceEvent(t, minor, eventID).Ok?
    ensures r.0.Err? ==> r.0.error == NotFound && r.1 == t
    ensures r.0.Ok? ==> r.0.value && |r.1.events| == |t.events| - 1
    ensures r.1.devices == t.devices && r.1.beacons == t.beacons && r.1.geofences == t.geofences
  {
    var d := DeleteOne(t.events, EventAt(minor, eventID));
    (RemoveResult(d), t.(events := d.0))
  }

  function RemoveBeaconSpec(t: Tables, minor: int, major: int): (r: (Result<bool>, Tables))
    ensures r.0.Ok? <==> BeaconExists(t, minor, major)
    ensures r.0.Err? ==> r.0.error == NotFound && r.1 == t
    ensures r.0.Ok? ==> r.0.value && |r.1.beacons| == |t.beacons| - 1
    ensures r.1.devices == t.devices && r.1.events == t.events && r.1.geofences == t.geofences
  {
    var d := DeleteOne(t.beacons, BeaconAt(minor, major));
    (RemoveResult(d), t.(beacons := d.0))
  }

  // ---------------------------------------------------------------------
  // Properties of the store

  /** An inserted device is found by its id when no earlier device has that
      id; otherwise the earlier one still shadows it. */
  lemma InsertDeviceThenFind(t: Tables, d: DeviceRecord)
    ensures var t2 := t.(devices := t.devices + [d]);
      FindDevice(t2, d.deviceID) == (if DeviceExists(t, d.deviceID) then FindDevice(t, d.deviceID) else Ok(d))
  {
    FirstIndexSnoc(t.devices, d, DeviceWithID(d.deviceID));
  }

  /** A successful remove deletes exactly one document of that collection:
      the first one with the id. */
  lemma RemoveDeviceRemovesOne(t: Tables, deviceID: int)
    requires RemoveDeviceSpec(t, deviceID).0.Ok?
    ensures var x := FindDevice(t, deviceID).value;
      multiset(RemoveDeviceSpec(t, deviceID).1.devices) == multiset(t.devices) - multiset{x}
  {
    DeleteOneRemovesFirst(t.devices, DeviceWithID(deviceID));
  }

  lemma RemoveGeofenceRemovesOne(t: Tables, minor: int)
    requires RemoveGeofenceSpec(t, minor).0.Ok?
    ensures var x := FindGeofence(t, minor).value.record;
      multiset(RemoveGeofenceSpec(t, minor).1.geofences) == multiset(t.geofences) - multiset{x}
  {
    DeleteOneRemovesFirst(t.geofences, GeofenceMinor(minor));
  }

  lemma RemoveEventRemovesOne(t: Tables, minor: int, eventID: int)
    requires RemoveEventSpec(t, minor, eventID).0.Ok?
    ensures var x := FindGeofenceEvent(t, minor, eventID).value;
      multiset(RemoveEventSpec(t, minor, eventID).1.events) == multiset(t.events) - multiset{x}
  {
    DeleteOneRemovesFirst(t.events, EventAt(minor, eventID));
  }

  lemma RemoveBeaconRemovesOne(t: Tables, minor: int, major: int)
    requires RemoveBeaconSpec(t, minor, major).0.Ok?
    ensures var x := FindBeacon(t, minor, major).value;
      multiset(RemoveBeaconSpec(t, minor, major).1.beacons) == multiset(t.beacons) - multiset{x}
  {
    DeleteOneRemovesFirst(t.beacons, BeaconAt(minor, major));
  }

  /** After a successful beacon update the device is found with the new
      beacon set and stamped with the update time. */
  lemma UpdateDeviceBeaconsStores(t: Tables, deviceID: int, beacons: seq<Beacon>, now: int)
    requires UpdateDeviceBeaconsSpec(t, deviceID, beacons, now).0 == Ok(true)
    ensures var d := FindDevice(UpdateDeviceBeaconsSpec(t, deviceID, beacons, now).1, deviceID);
      d.Ok? && d.value.beacons == beacons && d.value.lastTimeUpdated == now
      && d.value == FindDevice(t, deviceID).value.(beacons := beacons, lastTimeUpdated := now)
  {
    var p := DeviceWithID(deviceID);
    var i := FirstIndex(t.devices, p).value;
    var s1 := t.devices[i := t.devices[i].(beacons := beacons)];
    FirstIndexAfterSet(t.devices, p, i, t.devices[i].(beacons := beacons));
    FirstIndexAfterSet(s1, p, i, s1[i].(lastTimeUpdated := now));
  }

  /** Whatever it reports, the update leaves the device found with the new
      beacon set. */
  lemma UpdateDeviceBeaconsSetsBeacons(t: Tables, deviceID: int, beacons: seq<Beacon>, now: int)
    requires DeviceExists(t, deviceID)
    ensures var d := FindDevice(UpdateDeviceBeaconsSpec(t, deviceID, beacons, now).1, deviceID);
      d.Ok? && d.value.beacons == beacons
  {
    var p := DeviceWithID(deviceID);
    var i := FirstIndex(t.devices, p).value;
    var x := t.devices[i].(beacons := beacons);
    FirstIndexAfterSet(t.devices, p, i, x);
    var s1 := t.devices[i := x];
    FirstIndexAfterSet(s1, p, i, s1[i].(lastTimeUpdated := now));
  }

  /** Writing the beacon set a device already has changes nothing and
      reports false. */
  lemma UpdateDeviceSameBeacons(t: Tables, deviceID: int, now: int)
    requires DeviceExists(t, deviceID)
    ensures var b := FindDevice(t, deviceID).value.beacons;
      UpdateDeviceBeaconsSpec(t, deviceID, b, now) == (Ok(false), t)
  {
    var i := FirstIndex(t.devices, DeviceWithID(deviceID)).value;
    assert t.devices[i := t.devices[i]] == t.devices;
  }

  /** Every beacon `findGeofence` attaches carries the geofence's minor, and
      every stored beacon with that minor is attached. */
  lemma FoundGeofenceHoldsItsBeacons(t: Tables, minor: int)
    requires GeofenceExists(t, minor)
    ensures Keys(FindGeofence(t, minor).value.beacons) == Keys(Filter(t.beacons, BeaconMinor(minor)))
    ensures forall j :: 0 <= j < |FindGeofence(t, minor).value.beacons| ==>
      FindGeofence(t, minor).value.beacons[j].minor == minor
  {
    var f := Filter(t.beacons, BeaconMinor(minor));
    var c := FindGeofence(t, minor).value.beacons;
    CollectedKeys(f);
    forall j | 0 <= j < |c| ensures c[j].minor == minor {
      KeysMember(c, Key(c[j]));
      KeysMember(f, Key(c[j]));
      var k :| 0 <= k < |f| && Key(f[k]) == Key(c[j]);
    }
  }

  // ---------------------------------------------------------------------
  // The connector

  class GeofencingDB {
    var geofences: seq<GeofenceRecord>
    var beacons: seq<Beacon>
    var events: seq<Event>
    var devices: seq<DeviceRecord>

    constructor (initial: Tables)
      ensures Contents() == initial
    {
      geofences := initial.geofences;
      beacons := initial.beacons;
      events := initial.events;
      devices := initial.devices;
    }

    function Contents(): Tables
      reads this
    {
      Tables(geofences, beacons, events, devices)
    }

    /** The inserts perform no uniqueness check: the document is appended. */
    method InsertDevice(d: DeviceRecord)
      modifies this
      ensures Contents() == old(Contents()).(devices := old(devices) + [d])
    {
      devices := devices + [d];
    }

    method InsertGeofence(g: GeofenceRecord)
      modifies this
      ensures Contents() == old(Contents()).(geofences := old(geofences) + [g])
    {
      geofences := geofences + [g];
    }

    method InsertBeacon(b: Beacon)
      modifies this
      ensures Contents() == old(Contents()).(beacons := old(beacons) + [b])
    {
      beacons := beacons + [b];
    }

    method InsertEvent(e: Event)
      modifies this
      ensures Contents() == old(Contents()).(events := old(events) + [e])
    {
      events := events + [e];
    }

    method UpdateDeviceBeacons(deviceID: int, b: seq<Beacon>, now: int) returns (r: Result<bool>)
      modifies this
      ensures (r, Contents()) == UpdateDeviceBeaconsSpec(old(Contents()), deviceID, b, now)
    {
      if !DeviceExists(Contents(), deviceID) {
        return Err(NotFound);
      }
      var u1 := UpdateOne(devices, DeviceWithID(deviceID), (d: DeviceRecord) => d.(beacons := b));
      devices := u1.0;
      if !u1.1 {
        return Ok(false);
      }
      var u2 := UpdateOne(devices, DeviceWithID(deviceID), (d: DeviceRecord) => d.(lastTimeUpdated := now));
      devices := u2.0;
      return Ok(u2.1);
    }

    method UpdateDeviceToken(deviceID: int, token: Option<string>) returns (r: Result<bool>)
      modifies this
      ensures (r, Contents()) == UpdateDeviceTokenSpec(old(Contents()), deviceID, token)
    {
      if !DeviceExists(Contents(), deviceID) {
        return Err(NotFound);
      }
      var u := UpdateOne(devices, DeviceWithID(deviceID), (d: DeviceRecord) => d.(firebaseToken := token));
      devices := u.0;
      return Ok(u.1);
    }

    method RemoveDevice(deviceID: int) returns (r: Result<bool>)
      modifies this
      ensures (r, Contents()) == RemoveDeviceSpec(old(Contents()), deviceID)
    {
      var d := DeleteOne(devices, DeviceWithID(deviceID));
      devices := d.0;
      r := RemoveResult(d);
    }

    method RemoveGeofence(minor: int) returns (r: Result<bool>)
      modifies this
      ensures (r, Contents()) == RemoveGeofenceSpec(old(Contents()), minor)
    {
      var d := DeleteOne(geofences, GeofenceMinor(minor));
      geofences := d.0;
      r := RemoveResult(d);
    }

    method RemoveEvent(minor: int, eventID: int) returns (r: Result<bool>)
      modifies this
      ensures (r, Contents()) == RemoveEventSpec(old(Contents()), minor, eventID)
    {
      var d := DeleteOne(events, EventAt(minor, eventID));
      events := d.0;
      r := RemoveResult(d);
    }

    method RemoveBeacon(minor: int, major: int) returns (r: Result<bool>)
      modifies this
      ensures (r, Contents()) == RemoveBeaconSpec(old(Contents()), minor, major)
    {
      var d := DeleteOne(beacons, BeaconAt(minor, major));
      beacons := d.0;
      r := RemoveResult(d);
    }
  }
}

=== FILE: system.dfy ===
// The system facade (GeofencingSystem): geofences, events, beacons and
// devices over the database, and the presence update that triggers the
// geofences a device entered or left.

module System {
  import opened Common
  import opened Beacons
  import opened Presence
  import opened Events
  import opened Devices
  import opened Store
  import opened Engine
  import opened Geofences

  /** The location a beacon added with an empty location is stored with. */
  const LOCATION_NOT_SET: string := "-not set-"

  // ---------------------------------------------------------------------
  // Identifiers

  function Minors(s: seq<GeofenceRecord>): (r: seq<int>)
    ensures |r| == |s|
    ensures forall i :: 0 <= i < |s| ==> r[i] == s[i].minor
  {
    seq(|s|, i requires 0 <= i < |s| => s[i].minor)
  }

  function EventIDs(s: seq<Event>): (r: seq<int>)
    ensures |r| == |s|
    ensures forall i :: 0 <= i < |s| ==> r[i] == s[i].eventID
  {
    seq(|s|, i requires 0 <= i < |s| => s[i].eventID)
  }

  function DeviceIDs(s: seq<DeviceRecord>): (r: seq<int>)
    ensures |r| == |s|
    ensures forall i :: 0 <= i < |s| ==> r[i] == s[i].deviceID
  {
    seq(|s|, i requires 0 <= i < |s| => s[i].deviceID)
  }

  /** `getNextMinor`: one past the largest minor; no geofence has it. */
  function NextMinor(t: Tables): (m: int)
    ensures m >= 1 && !GeofenceExists(t, m)
    ensures forall i :: 0 <= i < |t.geofences| ==> t.geofences[i].minor < m
  {
    NextId(Minors(t.geofences))
  }

  /** `getNextEventID(minor)`: one past the largest event id under the minor. */
  function NextEventID(t: Tables, minor: int): (id: int)
    ensures id >= 1
  {
    NextId(EventIDs(GeofenceEvents(t, minor).value))
  }

  /** No event of the geofence carries the next event id. */
  lemma NextEventIDIsFresh(t: Tables, minor: int)
    ensures !FindGeofenceEvent(t, minor, NextEventID(t, minor)).Ok?
  {
    var id := NextEventID(t, minor);
    var evs := GeofenceEvents(t, minor).value;
    forall j | 0 <= j < |t.events| && t.events[j].minor == minor
      ensures t.events[j].eventID != id
    {
      FilterMembers(t.events, EventMinor(minor), t.events[j]);
      var k :| 0 <= k < |evs| && evs[k] == t.events[j];
      assert EventIDs(evs)[k] == t.events[j].eventID;
    }
  }

  // ---------------------------------------------------------------------
  // Geofences

  /** `addGeofence`: a geofence under a minor no geofence has. */
  function AddGeofenceSpec(t: Tables, description: string): (r: (int, Tables))
    ensures r.0 >= 1 && !GeofenceExists(t, r.0)
    ensures r.1 == t.(geofences := t.geofences + [GeofenceRecord(r.0, description)])
  {
    var minor := NextMinor(t);
    (minor, t.(geofences := t.geofences + [GeofenceRecord(minor, description)]))
  }

  /** The added geofence is found under its minor, with its description. */
  lemma AddGeofenceThenFind(t: Tables, description: string)
    ensures var r := AddGeofenceSpec(t, description);
      FindGeofence(r.1, r.0).Ok? && FindGeofence(r.1, r.0).value.record == GeofenceRecord(r.0, description)
  {
    var r := AddGeofenceSpec(t, description);
    FirstIndexSnoc(t.geofences, GeofenceRecord(r.0, description), GeofenceMinor(r.0));
  }

  /** `removeGeofence`: NotFound for a missing geofence; refused (false)
      while it still has beacons or events. */
  function RemoveGeofenceSystemSpec(t: Tables, minor: int): (r: (Result<bool>, Tables))
    ensures r.0.Err? <==> !GeofenceExists(t, minor)
    ensures r.0.Err? ==> r.0.error == NotFound
    ensures r.0 != Ok(true) ==> r.1 == t
  {
    match FindGeofence(t, minor)
      case Err(e) => (Err(e), t)
      case Ok(g) =>
        if |g.beacons| > 0 || |g.events| > 0 then (Ok(false), t)
        else RemoveGeofenceSpec(t, minor)
  }

  lemma {:induction false} FilterEmpty<T>(s: seq<T>, p: T -> bool)
    ensures Filter(s, p) == [] <==> forall j :: 0 <= j < |s| ==> !p(s[j])
  {
    var f := Filter(s, p);
    if f != [] {
      FilterMembers(s, p, f[0]);
    }
    forall j | 0 <= j < |s| && p(s[j])
      ensures f != []
    {
      FilterMembers(s, p, s[j]);
    }
  }

  lemma KeysEmpty(s: seq<Beacon>)
    ensures Keys(s) == {} <==> s == []
  {
    if s != [] {
      assert Key(s[|s| - 1]) in Keys(s);
    }
  }

  /** An existing geofence is removed exactly when no beacon and no event is
      stored under its minor. */
  lemma RemoveGeofenceOnlyWhenEmpty(t: Tables, minor: int)
    requires GeofenceExists(t, minor)
    ensures RemoveGeofenceSystemSpec(t, minor).0 == Ok(true)
        <==> (forall j :: 0 <= j < |t.beacons| ==> t.beacons[j].minor != minor)
             && (forall j :: 0 <= j < |t.events| ==> t.events[j].minor != minor)
  {
    var f := Filter(t.beacons, BeaconMinor(minor));
    CollectedKeys(f);
    KeysEmpty(f);
    KeysEmpty(Collected(f));
    FilterEmpty(t.beacons, BeaconMinor(minor));
    FilterEmpty(t.events, EventMinor(minor));
  }

  // ---------------------------------------------------------------------
  // Events

  /** `addEventToGeofence`: the event runs its `onAddToGeofence`; when that
      accepts, it is stored under the next event id of its geofence. The
      geofence is not looked up, so NotFound never arises. */
  function AddEventSpec(w: World, env: Env, e: Event, now: int): (r: (bool, World))
    ensures r.1.tables.geofences == w.tables.geofences && r.1.tables.beacons == w.tables.beacons
    ensures r.1.tables.devices == w.tables.devices
    ensures !r.0 ==> r.1.tables == w.tables
    ensures r.0 ==> |r.1.tables.events| == |w.tables.events| + 1
                    && r.1.tables.events[..|w.tables.events|] == w.tables.events
  {
    var o := OnAddSpec(w, env, e, now);
    if !o.0 then (false, o.2)
    else
      var stored := SetEventID(o.1, NextEventID(o.2.tables, e.minor));
      assert (w.tables.events + [stored])[..|w.tables.events|] == w.tables.events;
      (true, o.2.(tables := o.2.tables.(events := o.2.tables.events + [stored])))
  }

  /** The added event is found in its geofence under its new id, which no
      event of the geofence had. */
  lemma AddedEventIsFound(w: World, env: Env, e: Event, now: int)
    requires AddEventSpec(w, env, e, now).0
    ensures var id := NextEventID(w.tables, e.minor);
      !FindGeofenceEvent(w.tables, e.minor, id).Ok?
      && FindGeofenceEvent(AddEventSpec(w, env, e, now).1.tables, e.minor, id)
           == Ok(SetEventID(OnAddSpec(w, env, e, now).1, id))
  {
    var o := OnAddSpec(w, env, e, now);
    var id := NextEventID(w.tables, e.minor);
    var stored := SetEventID(o.1, id);
    NextEventIDIsFresh(w.tables, e.minor);
    FirstIndexSnoc(w.tables.events, stored, EventAt(e.minor, id));
  }

  /** `removeEventFromGeofence`: NotFound for a missing geofence, then as
      `removeEvent`. */
  function RemoveEventFromGeofenceSpec(t: Tables, minor: int, eventID: int): (r: (Result<bool>, Tables))
    ensures r.0.Ok? <==> GeofenceExists(t, minor) && FindGeofenceEvent(t, minor, eventID).Ok?
    ensures r.0.Err? ==> r.0.error == NotFound && r.1 == t
    ensures r.0.Ok? ==> r.0.value && |r.1.events| == |t.events| - 1
  {
    if !GeofenceExists(t, minor) then (Err(NotFound), t)
    else RemoveEventSpec(t, minor, eventID)
  }

  // ---------------------------------------------------------------------
  // Beacons

  /** The stored copy of each beacon of `s` that the table holds, in order. */
  function Stored(t: Tables, s: seq<Beacon>): (r: seq<Beacon>)
    ensures |r| <= |s|
    ensures forall j :: 0 <= j < |r| ==> r[j] in t.beacons
  {
    if s == [] then []
    else
      var init := Stored(t, s[..|s| - 1]);
      var last := s[|s| - 1];
      match FindBeacon(t, last.minor, last.major)
        case Err(_) => init
        case Ok(b) => init + [b]
  }

  /** Each beacon of `s`, replaced by its stored copy when there is one. */
  function WithData(t: Tables, s: seq<Beacon>): (r: seq<Beacon>)
    ensures |r| == |s|
  {
    if s == [] then []
    else
      var last := s[|s| - 1];
      WithData(t, s[..|s| - 1]) + [if FindBeacon(t, last.minor, last.major).Ok?
                                   then FindBeacon(t, last.minor, last.major).value else last]
  }

  /** `filterBeacons`: the stored copies of the known beacons, collected
      into a set. */
  function FilterBeaconsSpec(t: Tables, s: seq<Beacon>): (r: seq<Beacon>)
    ensures NoDup(r)
  {
    Collected(Stored(t, s))
  }

  /** `getBeaconData`: the stored copy of a known beacon, the beacon itself
      otherwise, collected into a set. */
  function GetBeaconDataSpec(t: Tables, s: seq<Beacon>): (r: seq<Beacon>)
    ensures NoDup(r)
  {
    Collected(WithData(t, s))
  }

  lemma {:induction false} CollectedMembers(s: seq<Beacon>, x: Beacon)
    ensures x in Collected(s) ==> x in s
  {
    if s != [] {
      CollectedMembers(s[..|s| - 1], x);
      assert s == s[..|s| - 1] + [s[|s| - 1]];
    }
  }

  lemma StoredSnoc(t: Tables, s: seq<Beacon>, x: Beacon)
    ensures Stored(t, s + [x]) == Stored(t, s) + (if FindBeacon(t, x.minor, x.major).Ok?
                                                   then [FindBeacon(t, x.minor, x.major).value] else [])
  {
    assert (s + [x])[..|s|] == s;
  }

  lemma CollectedSnoc(s: seq<Beacon>, x: Beacon)
    ensures Collected(s + [x]) == if Contains(Collected(s), x) then Collected(s) else Collected(s) + [x]
  {
    assert (s + [x])[..|s|] == s;
  }

  /** One step of the `filterBeacons` loop. */
  lemma FilterBeaconsStep(t: Tables, s: seq<Beacon>, i: nat)
    requires i < |s|
    ensures var prev := Collected(Stored(t, s[..i]));
      var found := FindBeacon(t, s[i].minor, s[i].major);
      Collected(Stored(t, s[..i + 1]))
        == if found.Err? || Contains(prev, found.value) then prev else prev + [found.value]
  {
    assert s[..i + 1] == s[..i] + [s[i]];
    StoredSnoc(t, s[..i], s[i]);
    var found := FindBeacon(t, s[i].minor, s[i].major);
    if found.Ok? {
      CollectedSnoc(Stored(t, s[..i]), found.value);
    }
  }

  /** One step of the `getBeaconData` loop. */
  lemma GetBeaconDataStep(t: Tables, s: seq<Beacon>, i: nat)
    requires i < |s|
    ensures var prev := Collected(WithData(t, s[..i]));
      var found := FindBeacon(t, s[i].minor, s[i].major);
      var b := if found.Ok? then found.value else s[i];
      Collected(WithData(t, s[..i + 1])) == if Contains(prev, b) then prev else prev + [b]
  {
    assert s[..i + 1] == s[..i] + [s[i]];
    var found := FindBeacon(t, s[i].minor, s[i].major);
    var b := if found.Ok? then found.value else s[i];
    assert s[..i + 1][..i] == s[..i];
    assert WithData(t, s[..i + 1]) == WithData(t, s[..i]) + [b];
    CollectedSnoc(WithData(t, s[..i]), b);
  }

  /** Every beacon collected from a list is equal to one of the list. */
  lemma CollectedContains(s: seq<Beacon>, x: Beacon)
    requires x in s
    ensures Contains(Collected(s), x)
  {
    CollectedKeys(s);
    KeysMember(s, Key(x));
  }

  lemma {:induction false} StoredHasFound(t: Tables, s: seq<Beacon>, i: nat)
    requires i < |s| && FindBeacon(t, s[i].minor, s[i].major).Ok?
    ensures FindBeacon(t, s[i].minor, s[i].major).value in Stored(t, s)
  {
    var n := |s| - 1;
    if i < n {
      StoredHasFound(t, s[..n], i);
    }
  }

  lemma {:induction false} WithDataHas(t: Tables, s: seq<Beacon>, i: nat)
    requires i < |s|
    ensures WithData(t, s)[i] == if FindBeacon(t, s[i].minor, s[i].major).Ok?
                                 then FindBeacon(t, s[i].minor, s[i].major).value else s[i]
  {
    var n := |s| - 1;
    if i < n {
      WithDataHas(t, s[..n], i);
    }
  }

  /** The filtered set holds only stored beacons, and holds every beacon of
      the input that is stored. */
  lemma FilterBeaconsKeepsStored(t: Tables, s: seq<Beacon>)
    ensures forall x :: x in FilterBeaconsSpec(t, s) ==> x in t.beacons
    ensures forall i :: 0 <= i < |s| && FindBeacon(t, s[i].minor, s[i].major).Ok? ==>
      Contains(FilterBeaconsSpec(t, s), FindBeacon(t, s[i].minor, s[i].major).value)
  {
    forall x | x in FilterBeaconsSpec(t, s)
      ensures x in t.beacons
    {
      CollectedMembers(Stored(t, s), x);
    }
    forall i | 0 <= i < |s| && FindBeacon(t, s[i].minor, s[i].major).Ok?
      ensures Contains(FilterBeaconsSpec(t, s), FindBeacon(t, s[i].minor, s[i].major).value)
    {
      StoredHasFound(t, s, i);
      CollectedContains(Stored(t, s), FindBeacon(t, s[i].minor, s[i].major).value);
    }
  }

  /** A beacon the table does not know stays in the beacon data as given. */
  lemma GetBeaconDataKeepsUnknown(t: Tables, s: seq<Beacon>, i: nat)
    requires i < |s| && !BeaconExists(t, s[i].minor, s[i].major)
    ensures Contains(GetBeaconDataSpec(t, s), s[i])
  {
    WithDataHas(t, s, i);
    CollectedContains(WithData(t, s), s[i]);
  }

  /** A beacon the table knows contributes its stored copy to the beacon data. */
  lemma GetBeaconDataKeepsStored(t: Tables, s: seq<Beacon>, i: nat)
    requires i < |s| && FindBeacon(t, s[i].minor, s[i].major).Ok?
    ensures Contains(GetBeaconDataSpec(t, s), FindBeacon(t, s[i].minor, s[i].major).value)
  {
    WithDataHas(t, s, i);
    CollectedContains(WithData(t, s), FindBeacon(t, s[i].minor, s[i].major).value);
  }

  /** Every beacon of the beacon data is a stored beacon or one of the input. */
  lemma GetBeaconDataMembers(t: Tables, s: seq<Beacon>, x: Beacon)
    requires x in GetBeaconDataSpec(t, s)
    ensures x in t.beacons || x in s
  {
    CollectedMembers(WithData(t, s), x);
    var i :| 0 <= i < |WithData(t, s)| && WithData(t, s)[i] == x;
    WithDataHas(t, s, i);
  }

  /** The filter reads only the beacon table. */
  lemma {:induction false} FilterBeaconsReadsBeacons(t1: Tables, t2: Tables, s: seq<Beacon>)
    requires t1.beacons == t2.beacons
    ensures Stored(t1, s) == Stored(t2, s)
  {
    if s != [] {
      FilterBeaconsReadsBeacons(t1, t2, s[..|s| - 1]);
    }
  }

  /** `getBeacon(beacon)`: the stored copy when the beacon has the system's
      uuid, null (None) for another uuid; a beacon without uuid fails. */
  function LookupBeacon(t: Tables, uuid: Uuid, b: Beacon): (r: Result<Option<Beacon>>)
    ensures b.uuid.None? ==> r == Err(Unchecked)
    ensures b.uuid.Some? && b.uuid.value != uuid ==> r == Ok(None)
    ensures b.uuid == Some(uuid) ==>
      (r.Ok? <==> BeaconExists(t, b.minor, b.major))
      && (r.Ok? ==> r.value == Some(FindBeacon(t, b.minor, b.major).value))
      && (r.Err? ==> r.error == NotFound)
  {
    if b.uuid.None? then Err(Unchecked)
    else if b.uuid.value != uuid then Ok(None)
    else
      var found :- FindBeacon(t, b.minor, b.major);
      Ok(Some(found))
  }

  /** `generateBeacon(minor)`: NotFound for a missing geofence; otherwise a
      new beacon of it under its next major. */
  function GenerateBeaconSpec(t: Tables, uuid: Uuid, minor: int): (r: Result<Beacon>)
    ensures r.Ok? <==> GeofenceExists(t, minor)
    ensures r.Err? ==> r.error == NotFound
    ensures r.Ok? ==> r.value.uuid == Some(uuid) && r.value.minor == minor && r.value.location.None?
  {
    var g :- FindGeofence(t, minor);
    Ok(Unlocated(uuid, NextId(Majors(g.beacons)), minor))
  }

  /** A generated beacon's key is not in use: it can be added. */
  lemma GeneratedBeaconIsNew(t: Tables, uuid: Uuid, minor: int)
    requires GeofenceExists(t, minor)
    ensures var b := GenerateBeaconSpec(t, uuid, minor).value;
      b.major >= 1 && !BeaconExists(t, minor, b.major)
  {
    var held := FindGeofence(t, minor).value.beacons;
    var b := GenerateBeaconSpec(t, uuid, minor).value;
    var f := Filter(t.beacons, BeaconMinor(minor));
    forall j | 0 <= j < |t.beacons| && t.beacons[j].minor == minor
      ensures t.beacons[j].major != b.major
    {
      FilterMembers(t.beacons, BeaconMinor(minor), t.beacons[j]);
      CollectedContains(f, t.beacons[j]);
      KeysMember(held, Key(t.beacons[j]));
      var k :| 0 <= k < |held| && Key(held[k]) == Key(t.beacons[j]);
      assert Majors(held)[k] == held[k].major;
    }
  }

  /** `addBeacon`: false for a beacon of another system; NotFound without
      its geofence; AlreadyExisting for a taken major; an empty location is
      replaced by LOCATION_NOT_SET. */
  function AddBeaconSpec(t: Tables, uuid: Uuid, b: Beacon): (r: (Result<bool>, Tables))
    ensures b.uuid.None? ==> r == (Err(Unchecked), t)
    ensures b.uuid.Some? && b.uuid.value != uuid ==> r == (Ok(false), t)
    ensures r.0 != Ok(true) ==> r.1 == t
    ensures b.uuid == Some(uuid) && !GeofenceExists(t, b.minor) ==> r.0 == Err(NotFound)
    ensures b.uuid == Some(uuid) && GeofenceExists(t, b.minor) && BeaconExists(t, b.minor, b.major)
            ==> r.0 == Err(AlreadyExisting)
    ensures r.0 == Ok(true) <==> b.uuid == Some(uuid) && GeofenceExists(t, b.minor)
                                 && !BeaconExists(t, b.minor, b.major)
    ensures r.0 == Ok(true) ==> r.1.beacons == t.beacons + [StoredBeacon(b)]
                                && r.1.geofences == t.geofences && r.1.events == t.events
                                && r.1.devices == t.devices
  {
    if b.uuid.None? then (Err(Unchecked), t)
    else if b.uuid.value != uuid then (Ok(false), t)
    else if !GeofenceExists(t, b.minor) then (Err(NotFound), t)
    else if BeaconExists(t, b.minor, b.major) then (Err(AlreadyExisting), t)
    else (Ok(true), t.(beacons := t.beacons + [StoredBeacon(b)]))
  }

  /** The beacon as `addBeacon` stores it. */
  function StoredBeacon(b: Beacon): (r: Beacon)
    ensures Key(r) == Key(b)
    ensures r.location != Some("")
    ensures b.location != Some("") ==> r == b
  {
    if b.location == Some("") then SetLocation(b, Some(LOCATION_NOT_SET)) else b
  }

  /** An added beacon is found under its minor and major, and adding it
      again is refused. */
  lemma AddBeaconThenFind(t: Tables, uuid: Uuid, b: Beacon)
    requires AddBeaconSpec(t, uuid, b).0 == Ok(true)
    ensures var t2 := AddBeaconSpec(t, uuid, b).1;
      FindBeacon(t2, b.minor, b.major) == Ok(StoredBeacon(b))
      && AddBeaconSpec(t2, uuid, b).0 == Err(AlreadyExisting)
  {
    var t2 := AddBeaconSpec(t, uuid, b).1;
    FirstIndexSnoc(t.beacons, StoredBeacon(b), BeaconAt(b.minor, b.major));
    assert GeofenceExists(t2, b.minor) by {
      var j :| 0 <= j < |t.geofences| && t.geofences[j].minor == b.minor;
      assert t2.geofences[j].minor == b.minor;
    }
  }

  // ---------------------------------------------------------------------
  // Devices

  /** There is always an unused id in a range larger than the table. */
  lemma {:induction false} UnusedIdExists(ids: seq<int>, n: nat)
    requires |ids| < n
    ensures exists x :: 0 <= x < n && x !in ids
  {
    if n - 1 in ids {
      var k :| 0 <= k < |ids| && ids[k] == n - 1;
      var rest := ids[..k] + ids[k + 1..];
      UnusedIdExists(rest, n - 1);
      var x :| 0 <= x < n - 1 && x !in rest;
      assert ids == ids[..k] + [ids[k]] + ids[k + 1..];
      assert x !in ids;
    } else {
      assert 0 <= n - 1 < n;
    }
  }

  /** `addDevice` with the id the random draw settled on: AlreadyExisting
      for an address in use, otherwise a new device without token or
      beacons, stamped with the time. */
  function AddDeviceSpec(t: Tables, address: string, id: int, now: int): (r: (Result<int>, Tables))
    ensures AddressInUse(t, address) ==> r == (Err(AlreadyExisting), t)
    ensures !AddressInUse(t, address) ==>
      r == (Ok(id), t.(devices := t.devices + [DeviceRecord(id, address, now, None, [])]))
  {
    if AddressInUse(t, address) then (Err(AlreadyExisting), t)
    else (Ok(id), t.(devices := t.devices + [DeviceRecord(id, address, now, None, [])]))
  }

  /** A device added under a fresh id is found by that id and by its
      address. */
  lemma AddDeviceThenFind(t: Tables, address: string, id: int, now: int)
    requires !AddressInUse(t, address) && !DeviceExists(t, id)
    ensures var t2 := AddDeviceSpec(t, address, id, now).1;
      FindDevice(t2, id) == Ok(DeviceRecord(id, address, now, None, []))
      && FindDeviceByAddress(t2, address) == Ok(DeviceRecord(id, address, now, None, []))
      && AddDeviceSpec(t2, address, id, now).0 == Err(AlreadyExisting)
  {
    var d := DeviceRecord(id, address, now, None, []);
    FirstIndexSnoc(t.devices, d, DeviceWithID(id));
    FirstIndexSnoc(t.devices, d, DeviceWithAddress(address));
  }

  // ---------------------------------------------------------------------
  // Presence update

  /** For each beacon in order: the geofence of its minor is loaded and
      triggered; a missing geofence is skipped, an unchecked exception
      stops the loop and propagates. */
  function FanOutSpec(w: World, env: Env, bs: seq<Beacon>, direction: Direction, deviceID: int, now: int)
    : (r: (Result<bool>, World))
    ensures r.0.Ok? ==> r.0.value
    ensures r.0.Err? ==> r.0.error == Unchecked
    ensures r.1.tables == w.tables
    decreases |bs|
  {
    if bs == [] then (Ok(true), w)
    else
      match FindGeofence(w.tables, bs[0].minor)
        case Err(_) => FanOutSpec(w, env, bs[1..], direction, deviceID, now)
        case Ok(g) =>
          var tr := TriggerAllSpec(w, env, g.events, direction, deviceID, now);
          if tr.0.Err? then (Err(Unchecked), tr.1)
          else FanOutSpec(tr.1, env, bs[1..], direction, deviceID, now)
  }

  /** `updateDeviceBeacons`: the reported beacons are filtered to stored
      ones and compared with the device's; on a change the new set is
      persisted and the geofences of the entered beacons, then of the left
      ones, are triggered. NotFound for a missing device. */
  function UpdateDeviceBeaconsSystemSpec(w: World, env: Env, deviceID: int, beacons: seq<Beacon>, now: int)
    : (r: (Result<bool>, World))
    ensures r.0.Err? ==> r.0.error == NotFound || r.0.error == Unchecked
    ensures r.0.Ok? ==> r.0.value
    ensures !DeviceExists(w.tables, deviceID) ==> r == (Err(NotFound), w)
    ensures r.1.tables.geofences == w.tables.geofences && r.1.tables.beacons == w.tables.beacons
    ensures r.1.tables.events == w.tables.events
  {
    var filtered := FilterBeaconsSpec(w.tables, beacons);
    match FindDevice(w.tables, deviceID)
      case Err(_) => (Err(NotFound), w)
      case Ok(d) =>
        if Without(filtered, d.beacons) == [] && LeftReported(d.beacons, filtered) == [] then (Ok(true), w)
        else PropagateSpec(w, env, deviceID, filtered, d.beacons, now)
  }

  /** A reported change: the new set is persisted, then the geofences of the
      entered beacons and of the left ones are triggered. */
  function PropagateSpec(w: World, env: Env, deviceID: int, filtered: seq<Beacon>, current: seq<Beacon>, now: int)
    : (r: (Result<bool>, World))
    ensures r.0.Ok? ==> r.0.value
    ensures r.0.Err? ==> r.0.error == Unchecked
    ensures r.1.tables == UpdateDeviceBeaconsSpec(w.tables, deviceID, filtered, now).1
  {
    var t1 := UpdateDeviceBeaconsSpec(w.tables, deviceID, filtered, now).1;
    var en := FanOutSpec(w.(tables := t1), env, Without(filtered, current), Enter, deviceID, now);
    if en.0.Err? then en
    else FanOutSpec(en.1, env, LeftReported(current, filtered), Leave, deviceID, now)
  }

  /** After a successful update the device holds exactly the filtered
      beacons, so reporting the same beacons again changes nothing. */
  lemma UpdateAgainIsNoChange(w: World, env: Env, deviceID: int, beacons: seq<Beacon>, now: int, later: int)
    requires UpdateDeviceBeaconsSystemSpec(w, env, deviceID, beacons, now).0.Ok?
    ensures var w1 := UpdateDeviceBeaconsSystemSpec(w, env, deviceID, beacons, now).1;
      UpdateDeviceBeaconsSystemSpec(w1, env, deviceID, beacons, later) == (Ok(true), w1)
  {
    var w1 := UpdateDeviceBeaconsSystemSpec(w, env, deviceID, beacons, now).1;
    var filtered := FilterBeaconsSpec(w.tables, beacons);
    var d := FindDevice(w.tables, deviceID).value;
    if !(Without(filtered, d.beacons) == [] && LeftReported(d.beacons, filtered) == []) {
      var t1 := UpdateDeviceBeaconsSpec(w.tables, deviceID, filtered, now).1;
      UpdateDeviceBeaconsSetsBeacons(w.tables, deviceID, filtered, now);
      assert w1.tables == t1;
      FilterBeaconsReadsBeacons(w.tables, t1, beacons);
      CompareAgainIsNoChange(filtered, filtered);
    }
  }

  /** Two entered beacons of the same geofence trigger its events twice. */
  lemma SameGeofenceTriggeredTwice(w: World, env: Env, a: Beacon, b: Beacon, direction: Direction,
                                   deviceID: int, now: int)
    requires a.minor == b.minor && GeofenceExists(w.tables, a.minor)
    ensures var evs := FindGeofence(w.tables, a.minor).value.events;
      var first := TriggerAllSpec(w, env, evs, direction, deviceID, now);
      FanOutSpec(w, env, [a, b], direction, deviceID, now)
        == if first.0.Err? then (Err(Unchecked), first.1)
           else
             var second := TriggerAllSpec(first.1, env, evs, direction, deviceID, now);
             if second.0.Err? then (Err(Unchecked), second.1) else (Ok(true), second.1)
  {
    var evs := FindGeofence(w.tables, a.minor).value.events;
    var first := TriggerAllSpec(w, env, evs, direction, deviceID, now);
    assert [a, b][0] == a && [a, b][1..] == [b];
    assert [b][0] == b && [b][1..] == [];
    if first.0.Ok? {
      assert first.1.tables == w.tables;
      assert FindGeofence(first.1.tables, b.minor) == FindGeofence(w.tables, a.minor);
      var second := TriggerAllSpec(first.1, env, evs, direction, deviceID, now);
      assert FanOutSpec(first.1, env, [b], direction, deviceID, now)
          == if second.0.Err? then (Err(Unchecked), second.1)
             else FanOutSpec(second.1, env, [], direction, deviceID, now);
    }
  }
}

module SystemFacade {
  import opened Common
  import opened Beacons
  import opened Presence
  import opened Events
  import opened Devices
  import opened Store
  import opened Engine
  import opened Geofences
  import opened System

  /** The system, with the connectors it works through and its uuid. */
  class GeofencingSystem {
    const backend: Backend
    const uuid: Uuid

    constructor (backend: Backend, uuid: Uuid)
      ensures this.backend == backend && this.uuid == uuid
    {
      this.backend := backend;
      this.uuid := uuid;
    }

    /** `getNextMinor`: the scan over the stored geofences. */
    method GetNextMinor() returns (minor: int)
      ensures minor == NextMinor(backend.db.Contents())
    {
      var list := backend.db.geofences;
      var minors := Minors(list);
      minor := 1;
      for i := 0 to |list|
        invariant minor == NextId(minors[..i])
      {
        NextIdStep(minors, i);
        if list[i].minor >= minor {
          minor := list[i].minor + 1;
        }
      }
      assert minors[..|list|] == minors;
    }

    method AddGeofence(description: string) returns (minor: int)
      modifies backend.db
      ensures (minor, backend.db.Contents()) == AddGeofenceSpec(old(backend.db.Contents()), description)
    {
      minor := GetNextMinor();
      backend.db.InsertGeofence(GeofenceRecord(minor, description));
    }

    method RemoveGeofence(minor: int) returns (r: Result<bool>)
      modifies backend.db
      ensures (r, backend.db.Contents()) == RemoveGeofenceSystemSpec(old(backend.db.Contents()), minor)
    {
      var g := FindGeofence(backend.db.Contents(), minor);
      if g.Err? {
        return Err(g.error);
      }
      var geofence := new Geofence.FromData(g.value);
      if geofence.beacons.BeaconCount() > 0 || |geofence.events| > 0 {
        return Ok(false);
      }
      r := backend.db.RemoveGeofence(minor);
    }

    /** `getNextEventID(minor)`: the scan over the geofence's events. */
    method GetNextEventID(minor: int) returns (id: int)
      ensures id == NextEventID(backend.db.Contents(), minor)
    {
      var list := GeofenceEvents(backend.db.Contents(), minor).value;
      var ids := EventIDs(list);
      id := 1;
      for i := 0 to |list|
        invariant id == NextId(ids[..i])
      {
        NextIdStep(ids, i);
        if list[i].eventID >= id {
          id := list[i].eventID + 1;
        }
      }
      assert ids[..|list|] == ids;
    }

    method AddEventToGeofence(e: Event, now: int) returns (added: bool)
      requires backend.Valid()
      modifies backend.Repr
      ensures (added, backend.State()) == AddEventSpec(old(backend.State()), backend.Environment(), e, now)
    {
      var ok, bound := OnAddToGeofence(backend, e, now);
      if !ok {
        return false;
      }
      var id := GetNextEventID(e.minor);
      backend.db.InsertEvent(SetEventID(bound, id));
      return true;
    }

    method RemoveEventFromGeofence(minor: int, eventID: int) returns (r: Result<bool>)
      modifies backend.db
      ensures (r, backend.db.Contents()) == RemoveEventFromGeofenceSpec(old(backend.db.Contents()), minor, eventID)
    {
      if FindGeofence(backend.db.Contents(), minor).Err? {
        return Err(NotFound);
      }
      r := backend.db.RemoveEvent(minor, eventID);
    }

    /** `filterBeacons`: the loop over the reported set. */
    method FilterBeacons(beacons: SystemBeacons) returns (filtered: SystemBeacons)
      ensures fresh(filtered)
      ensures filtered.beaconList == FilterBeaconsSpec(backend.db.Contents(), beacons.beaconList)
    {
      var t := backend.db.Contents();
      var list := beacons.beaconList;
      filtered := new SystemBeacons();
      for i := 0 to |list|
        invariant fresh(filtered)
        invariant filtered.beaconList == Collected(Stored(t, list[..i]))
      {
        FilterBeaconsStep(t, list, i);
        var found := FindBeacon(t, list[i].minor, list[i].major);
        if found.Ok? {
          var _ := filtered.AddBeacon(found.value);
        }
      }
      assert list[..|list|] == list;
    }

    /** `getBeaconData`: the loop over the given set. */
    method GetBeaconData(beacons: SystemBeacons) returns (withData: SystemBeacons)
      ensures fresh(withData)
      ensures withData.beaconList == GetBeaconDataSpec(backend.db.Contents(), beacons.beaconList)
    {
      var t := backend.db.Contents();
      var list := beacons.beaconList;
      withData := new SystemBeacons();
      for i := 0 to |list|
        invariant fresh(withData)
        invariant withData.beaconList == Collected(WithData(t, list[..i]))
      {
        GetBeaconDataStep(t, list, i);
        var found := FindBeacon(t, list[i].minor, list[i].major);
        var b := if found.Ok? then found.value else list[i];
        var _ := withData.AddBeacon(b);
      }
      assert list[..|list|] == list;
    }

    method GetBeacon(b: Beacon) returns (r: Result<Option<Beacon>>)
      ensures r == LookupBeacon(backend.db.Contents(), uuid, b)
    {
      if b.uuid.None? {
        return Err(Unchecked);
      }
      if b.uuid.value != uuid {
        return Ok(None);
      }
      var found := FindBeacon(backend.db.Contents(), b.minor, b.major);
      r := if found.Ok? then Ok(Some(found.value)) else Err(found.error);
    }

    method GenerateBeacon(minor: int) returns (r: Result<Beacon>)
      ensures r == GenerateBeaconSpec(backend.db.Contents(), uuid, minor)
    {
      var g := FindGeofence(backend.db.Contents(), minor);
      if g.Err? {
        return Err(g.error);
      }
      var geofence := new Geofence.FromData(g.value);
      var b := geofence.GenerateBeacon(uuid);
      return Ok(b);
    }

    method AddBeacon(b: Beacon) returns (r: Result<bool>)
      modifies backend.db
      ensures (r, backend.db.Contents()) == AddBeaconSpec(old(backend.db.Contents()), uuid, b)
    {
      if b.uuid.None? {
        return Err(Unchecked);
      }
      if b.uuid.value != uuid {
        return Ok(false);
      }
      if !GeofenceExists(backend.db.Contents(), b.minor) {
        return Err(NotFound);
      }
      if BeaconExists(backend.db.Contents(), b.minor, b.major) {
        return Err(AlreadyExisting);
      }
      var stored := b;
      if b.location == Some("") {
        stored := SetLocation(b, Some(LOCATION_NOT_SET));
      }
      backend.db.InsertBeacon(stored);
      return Ok(true);
    }

    method GetDevice(deviceID: int) returns (r: Result<Device>)
      ensures r.Ok? <==> DeviceExists(backend.db.Contents(), deviceID)
      ensures r.Err? ==> r.error == NotFound
      ensures r.Ok? ==> fresh(r.value) && fresh(r.value.beacons)
      ensures r.Ok? ==> var d := FindDevice(backend.db.Contents(), deviceID).value;
        r.value.deviceID == deviceID && r.value.address == d.address
        && r.value.firebaseToken == d.firebaseToken && r.value.beacons.beaconList == d.beacons
    {
      var found := FindDevice(backend.db.Contents(), deviceID);
      if found.Err? {
        return Err(NotFound);
      }
      var d := new Device.FromRecord(found.value);
      return Ok(d);
    }

    method GetDeviceByAddress(address: string) returns (r: Result<Device>)
      ensures r.Ok? <==> AddressInUse(backend.db.Contents(), address)
      ensures r.Err? ==> r.error == NotFound
      ensures r.Ok? ==> fresh(r.value) && fresh(r.value.beacons)
      ensures r.Ok? ==> var d := FindDeviceByAddress(backend.db.Contents(), address).value;
        r.value.deviceID == d.deviceID && r.value.address == address
        && r.value.firebaseToken == d.firebaseToken && r.value.beacons.beaconList == d.beacons
    {
      var found := FindDeviceByAddress(backend.db.Contents(), address);
      if found.Err? {
        return Err(NotFound);
      }
      var d := new Device.FromRecord(found.value);
      return Ok(d);
    }

    /** `addDevice`: the random draw is repeated until it hits an unused id
        below 2^31 - 1; the choice stands for whichever id it settles on. */
    method AddDevice(address: string, now: int) returns (r: Result<int>)
      requires |backend.db.devices| < INT_MAX
      modifies backend.db
      ensures r.Ok? ==> 0 <= r.value < INT_MAX && !DeviceExists(old(backend.db.Contents()), r.value)
      ensures r.Ok? ==> (r, backend.db.Contents()) == AddDeviceSpec(old(backend.db.Contents()), address, r.value, now)
      ensures r.Err? ==> (r, backend.db.Contents()) == AddDeviceSpec(old(backend.db.Contents()), address, 0, now)
    {
      var t := backend.db.Contents();
      if AddressInUse(t, address) {
        return Err(AlreadyExisting);
      }
      var ids := DeviceIDs(t.devices);
      UnusedIdExists(ids, INT_MAX);
      var id :| 0 <= id < INT_MAX && id !in ids;
      assert forall j :: 0 <= j < |t.devices| ==> t.devices[j].deviceID == ids[j] != id;
      backend.db.InsertDevice(DeviceRecord(id, address, now, None, []));
      return Ok(id);
    }

    method RemoveDevice(deviceID: int) returns (r: Result<bool>)
      modifies backend.db
      ensures (r, backend.db.Contents()) == RemoveDeviceSpec(old(backend.db.Contents()), deviceID)
    {
      r := backend.db.RemoveDevice(deviceID);
    }

    method UpdateDeviceToken(deviceID: int, token: Option<string>) returns (r: Result<bool>)
      modifies backend.db
      ensures (r, backend.db.Contents()) == UpdateDeviceTokenSpec(old(backend.db.Contents()), deviceID, token)
    {
      r := backend.db.UpdateDeviceToken(deviceID, token);
    }

    /** The two loops of `updateDeviceBeacons` that load and trigger the
        geofence of each beacon. */
    method FanOut(bs: seq<Beacon>, direction: Direction, deviceID: int, now: int) returns (r: Result<bool>)
      requires backend.Valid()
      modifies backend.Repr
      ensures (r, backend.State()) == FanOutSpec(old(backend.State()), backend.Environment(), bs, direction, deviceID, now)
    {
      var env := backend.Environment();
      ghost var goal := FanOutSpec(backend.State(), env, bs, direction, deviceID, now);
      for i := 0 to |bs|
        invariant backend.Environment() == env
        invariant goal == FanOutSpec(backend.State(), env, bs[i..], direction, deviceID, now)
      {
        FanOutStep(backend.State(), env, bs, i, direction, deviceID, now);
        var g := FindGeofence(backend.db.Contents(), bs[i].minor);
        if g.Ok? {
          var geofence := new Geofence.FromData(g.value);
          var tr := geofence.Trigger(backend, direction, deviceID, now);
          if tr.Err? {
            return Err(Unchecked);
          }
        }
      }
      assert bs[|bs|..] == [];
      return Ok(true);
    }

    /** `updateDeviceBeacons`. */
    method UpdateDeviceBeacons(deviceID: int, beacons: SystemBeacons, now: int) returns (r: Result<bool>)
      requires backend.Valid()
      modifies backend.Repr
      ensures (r, backend.State())
           == UpdateDeviceBeaconsSystemSpec(old(backend.State()), backend.Environment(), deviceID,
                                            old(beacons.beaconList), now)
    {
      var filtered := FilterBeacons(beacons);
      var found := FindDevice(backend.db.Contents(), deviceID);
      if found.Err? {
        return Err(NotFound);
      }
      var device := new Device.FromRecord(found.value);
      var change := device.UpdateBeacons(filtered);
      if change == null {
        return Ok(true);
      }
      r := Propagate(deviceID, filtered.beaconList, found.value.beacons, now);
    }

    method Propagate(deviceID: int, filtered: seq<Beacon>, current: seq<Beacon>, now: int) returns (r: Result<bool>)
      requires backend.Valid()
      modifies backend.Repr
      ensures (r, backend.State())
           == PropagateSpec(old(backend.State()), backend.Environment(), deviceID, filtered, current, now)
    {
      var _ := backend.db.UpdateDeviceBeacons(deviceID, filtered, now);
      r := FanOut(Without(filtered, current), Enter, deviceID, now);
      if r.Err? {
        return;
      }
      r := FanOut(LeftReported(current, filtered), Leave, deviceID, now);
    }
  }

  /** One step of the fan-out loop. */
  lemma FanOutStep(w: World, env: Env, bs: seq<Beacon>, i: nat, direction: Direction, deviceID: int, now: int)
    requires i < |bs|
    ensures FanOutSpec(w, env, bs[i..], direction, deviceID, now)
         == var found := FindGeofence(w.tables, bs[i].minor);
            if found.Err? then FanOutSpec(w, env, bs[i + 1..], direction, deviceID, now)
            else
              var tr := TriggerAllSpec(w, env, found.value.events, direction, deviceID, now);
              if tr.0.Err? then (Err(Unchecked), tr.1)
              else FanOutSpec(tr.1, env, bs[i + 1..], direction, deviceID, now)
  {
    assert bs[i..][0] == bs[i];
    assert bs[i..][1..] == bs[i + 1..];
  }
}
